=== FILE: README.md ===
# Guild Wars 2 build editor: verified model of its core logic

This project models the logic of a Guild Wars 2 build editor in Dafny and
proves properties of it. A build is a profession, a game mode, equipment,
skills and traits. The editor shares a build as a URL token, totals the
attributes the gear gives, resolves per-game-mode skill and trait data,
renders the game's text markup, and maps builds to the numeric codes of a
build-link library. Two maintenance scripts are modelled as well: the wiki
scraper merges game-mode overrides into skill and trait facts, and the
passive-trait audit sorts stat traits into likely passive and likely
conditional ones.

The modules follow the source files:

| module | file | form |
|---|---|---|
| `Gw2Types` | `gw2_types.dfy` | datatypes and constant lists of `src/types/gw2.ts` |
| `BuildEncoder` | `build_encoder.dfy` | share token: JSON, deflate, base 64, URL-safe alphabet; the byte-copy loop as a method over an array |
| `Base64` | `base64.dfy` | the browser's `btoa` and `atob` (section 4 of RFC 4648 and the forgiving decoder of the HTML standard) |
| `StatTables` | `stat_tables.dfy` | ascended stat rows per slot |
| `StatsPanel` | `stats_panel.dfy` | rune-bonus parser; the attribute totals as methods updating a `map<Attribute, int>`, proved equal to a specification function |
| `ModeUtils` | `mode_utils.dfy` | game-mode key and fallback resolution |
| `TextParser` | `text_parser.dfy` | tag rewriting, line breaks, markup stripping |
| `BuildlinkClient` | `buildlink_client.dfy` | profession table, trait tier positions, skill palettes; the client's profession-details cache as a class with a mutable map field |
| `WikiScraper` | `wiki_scraper.dfy` | entity decoding, fact merge (an imperative loop), per-item enrichment, split statistics |
| `AuditTraits` | `audit_traits.dfy` | stat-trait filter and the passive/conditional split (an imperative loop) |
| `JsStrings`, `Wrappers` | `js_strings.dfy`, `wrappers.dfy` | JavaScript string semantics the source relies on (`toLowerCase`, `trim`, `\s`, global `replace`, `split`, `parseInt`, `String(n)`); `Option`, `Result` and lookup in an object literal |

The share token has exactly one format. `encodeBuild` is JSON, then deflate,
then base 64 with the URL-safe substitution and no padding. `BuildExport.tsx`
passes a format argument that `getShareableUrl` does not take, so there is no
other token layout to model.

JSON and deflate are not modelled. They are the fields of a `Codecs` record.
What the round trip needs from them is stated as two predicates
(`InflateInvertsDeflate`, `ParseInvertsStringify`) that the lemmas require.
`btoa` and `atob` are modelled in full.

Every remote lookup is a parameter:
- the GW2 API's trait list, skill list and skill names;
- the fetched `skills_by_palette` pairs;
- the wiki splits per name;
- the rune item's bonus strings.

`StatsPanel.tsx` imports `TWO_HANDED_WEAPONS`, `BASE_HEALTH`,
`PROFESSION_WEIGHT_CLASS` and `BASE_ARMOR` from `../types/gw2`
(StatsPanel.tsx:5); the model takes them as parameters. It also reads
`item.weaponType` (StatsPanel.tsx:174, 178), which the `Equipment` interface
does not declare; the model takes it as a field.
An item's slot, stat combo and infusions are names as text: `decodeBuild`
returns what `JSON.parse` gives without checking it against the slot, combo or
infusion unions, so the stat totals look each name up and skip names their
tables lack.

## Model

| member | source | states |
|---|---|---|
| `Gw2Types.ProfessionsClosed` | src/types/gw2.ts:2-4 | exactly nine professions, each listed once, with nine different names |
| `Gw2Types.ProfessionIndex` | src/types/gw2.ts:2-4 | every profession stands at a place in the listing |
| `Gw2Types.GameModesClosed` | src/types/gw2.ts:9 | exactly three game modes with different names |
| `Gw2Types.ParseSlot` | src/types/gw2.ts:12-14 | a slot name read back names the slot it came from |
| `Gw2Types.SlotIndex` | src/types/gw2.ts:12-14 | every slot stands at one place of the armor, weapon, trinket listing |
| `Gw2Types.SlotsPartitioned` | src/types/gw2.ts:12-14 | 6 armor, 4 weapon and 6 trinket slots, 16 distinct in all, every name parsing to its slot |
| `Gw2Types.InfusionsClosed` | src/types/gw2.ts:28-30 | exactly eight infusion types, each once |
| `Gw2Types.RelicIdsRepeat` | src/types/gw2.ts:51-64 | the relic list holds 100611 twice (places 4 and 7), so it is not duplicate-free |
| `StatTables.IsWeaponSlot` | src/lib/statTables.ts:34-38 | a name passing the test parses to a weapon slot |
| `StatTables.IsWeaponSlotExact` | src/lib/statTables.ts:34-38 | a slot's name passes the test exactly when the slot is a weapon slot |
| `StatTables.TablesCoverTheirSlots` | src/lib/statTables.ts:11-27 | the armor table is defined exactly on armor slots and the trinket table exactly on trinket slots |
| `StatTables.EveryRowMajorExceedsMinor` | src/lib/statTables.ts:11-32 | in every row major3 > minor3 and major4 > minor4 |
| `StatTables.PairedSlotsEqual` | src/lib/statTables.ts:11-27 | Ring1 = Ring2, Accessory1 = Accessory2, Shoulders = Gloves = Boots |
| `StatTables.TwoHandedDominates` | src/lib/statTables.ts:29-32 | each two-handed column is at least the one-handed one |
| `ModeUtils.GameModeToKey` | src/lib/modeUtils.ts:11-22 | the key is `default` exactly when no game mode is given |
| `ModeUtils.GameModeKeyIsLowerName` | src/lib/modeUtils.ts:11-22 | a mode's key is its name lower-cased (PvE to pve, PvP to pvp, WvW to wvw) |
| `ModeUtils.GameModeToKeyInjective` | src/lib/modeUtils.ts:11-22 | different modes get different keys |
| `ModeUtils.ResolveMode` | src/lib/modeUtils.ts:24-30 | no mode gives the default; otherwise the mode's version when present, else the default |
| `ModeUtils.ResolveModeChoices` | src/lib/modeUtils.ts:24-30 | the result is the default or an existing mode version; a bundle with no mode versions always gives the default |
| `ModeUtils.ResolveSkillMode` | src/lib/modeUtils.ts:32-35 | resolution of the skill's bundle; the default without a mode |
| `ModeUtils.ResolveTraitMode` | src/lib/modeUtils.ts:37-40 | resolution of the trait's bundle; the default without a mode |
| `TextParser.ColorClass` | src/lib/textParser.ts:21 | the fallback class exactly when `@` plus the lower-cased type is not a colour-map key; otherwise a colour-map value |
| `TextParser.ColorClassIgnoresCase` | src/lib/textParser.ts:21 | the class does not depend on the case of the type |
| `TextParser.CloseSearch` | src/lib/textParser.ts:19 | a found position holds a case-insensitive `</c>` at or after the start |
| `TextParser.CloseSearchSkips` | src/lib/textParser.ts:19 | before the found `</c>` there is no other `</c>` and no line terminator (the lazy `.*?` on one line) |
| `TextParser.CloseSearchFinds` | src/lib/textParser.ts:19 | the first `</c>` reachable without a line terminator is the one found |
| `TextParser.MatchTagAt` | src/lib/textParser.ts:19 | a match has a `\w+` type, content on one line, and ends after the closing tag |
| `TextParser.MatchTagAtSpellsTag` | src/lib/textParser.ts:19 | the matched text is `<c=@type>content</c>` with `c` in either case |
| `TextParser.MatchOfTagText` | src/lib/textParser.ts:19 | a well-formed tag followed by anything matches with exactly its type and content |
| `TextParser.PlainTextUnchanged` | src/lib/textParser.ts:18-24 | text without `<` passes through the tag rewrite unescaped |
| `TextParser.RewriteTags` | src/lib/textParser.ts:18-24 | definition of the global tag replace, also used at textParser.ts:39; its meaning is stated by `RewriteOfMatch`, `RewriteTagText` and `PlainTextUnchanged` |
| `TextParser.RewriteTagText` | src/lib/textParser.ts:18-24 | text before a tag is kept, the tag is rendered, and the rewrite goes on after it |
| `TextParser.RewriteOfMatch` | src/lib/textParser.ts:18-24 | where a tag matches, its rendering comes first and the rewrite goes on after the tag |
| `TextParser.TagAloneRewrites` | src/lib/textParser.ts:18-24 | a tag alone is replaced by the rendering of its type and content |
| `TextParser.ParseGW2Text` | src/lib/textParser.ts:14-31 | empty input gives empty output; the output holds neither a newline nor a backslash followed by `n` |
| `TextParser.ParseStylesTag` | src/lib/textParser.ts:18-24 | a tag alone, its content free of backslashes, becomes one span with the class of its type and its content |
| `TextParser.ParsePlainText` | src/lib/textParser.ts:14-31 | text with no `<`, backslash or newline is returned unchanged |
| `TextParser.ParseLineBreaks` | src/lib/textParser.ts:27-28 | in text without `<`, backslash or newline around it, one backslash-n pair becomes `<br>`, and so does one real newline |
| `TextParser.CollapseSpaces` | src/lib/textParser.ts:42 | runs of `\s` become one space: the result is single-spaced, empty iff the input is, and starts with white space iff the input does |
| `TextParser.CollapseKeepsVisible` | src/lib/textParser.ts:42 | collapsing keeps every non-white-space character in order |
| `TextParser.TrimKeepsVisible` | src/lib/textParser.ts:42 | `trim` keeps every non-white-space character in order |
| `TextParser.TrimSingleSpaced` | src/lib/textParser.ts:42 | trimming single-spaced text gives single-spaced text with no white space at either end |
| `TextParser.CleanSpaces` | src/lib/textParser.ts:42 | single-spaced, no white space at either end, same visible characters |
| `TextParser.StripGW2Markup` | src/lib/textParser.ts:36-45 | empty input gives empty output; the output is single-spaced with no white space at either end |
| `TextParser.StripKeepsVisible` | src/lib/textParser.ts:36-45 | for text without a backslash, the visible characters are those of the text with each tag replaced by its content |
| `TextParser.StripKeepsContent` | src/lib/textParser.ts:39 | a tag alone, its content free of backslashes, strips to its content with white space cleaned |
| `StatsPanel.ComboTableShape` | src/components/StatsPanel.tsx:45-83 | every combo of the table has 3, 4 or 9 distinct attributes |
| `StatsPanel.StatCombosHaveRows` | src/components/StatsPanel.tsx:45-83 | every stat combo name the build type admits has a row |
| `StatsPanel.StatNameMap` | src/components/StatsPanel.tsx:104-117 | definition; its meaning is stated by `ParseRuneBonusReadsText` and `StatNamesAreOneLine` |
| `StatsPanel.StatNamesAreOneLine` | src/components/StatsPanel.tsx:104-117 | every stat name starts with a non-space and is on one line, so `\s+(.+)` can capture it |
| `StatsPanel.LastNonTerminator` | src/components/StatsPanel.tsx:127 | the last position a greedy `.+` can reach |
| `StatsPanel.MatchRuneAt` | src/components/StatsPanel.tsx:127 | a match is the text from the position on: `+`, its digits (at least one), `%` exactly when flagged, at least one white-space character, then its non-empty name |
| `StatsPanel.MatchName` | src/components/StatsPanel.tsx:127 | the name found after the digits is non-empty and follows at least one white-space character |
| `StatsPanel.FirstRuneMatch` | src/components/StatsPanel.tsx:127 | the unanchored match has a non-empty digit run and a non-empty name |
| `StatsPanel.FirstRuneMatchLeftmost` | src/components/StatsPanel.tsx:127 | the search returns the match at the leftmost position that has one, and returns none only when no position has one |
| `StatsPanel.FirstRuneMatchSkips` | src/components/StatsPanel.tsx:127 | the search passes over positions without `+` |
| `StatsPanel.ParseRuneBonus` | src/components/StatsPanel.tsx:126-139 | a result comes from the first match: its name maps to the attribute, its digits read as the value, and its `%` sets the percent flag |
| `StatsPanel.ParseRuneBonusReadsText` | src/components/StatsPanel.tsx:126-139 | a result is read from the leftmost match in the text (`+`, digits giving the value, `%` exactly for a percentage, white space, a stat name); no result means no match, or a leftmost match whose name is not a stat name |
| `StatsPanel.NoPlusNoBonus` | src/components/StatsPanel.tsx:127-128 | text without `+` gives null |
| `StatsPanel.ParseRuneBonusOfText` | src/components/StatsPanel.tsx:126-139 | after any prefix without `+`, `+N[%] Name` parses to the name's attribute, N and the percent flag |
| `StatsPanel.ParseFlatBonusExample` | src/components/StatsPanel.tsx:126-139 | `+25 Power` is a flat 25 Power |
| `StatsPanel.ParsePercentBonusExample` | src/components/StatsPanel.tsx:126-139 | `(4): +10% Boon Duration` is a 10 percent Boon Duration bonus (the match is unanchored) |
| `StatsPanel.SlotValuesOf` | src/components/StatsPanel.tsx:163-185 | definition; its meaning is stated by `SecondWeaponSetAddsNothing`, `MainHandRow`, `OffHandRow` and `UnknownSlotAddsNothing` |
| `StatsPanel.ExpectedTotal` | src/components/StatsPanel.tsx:153-234 | definition; its meaning is stated by `ComputeTotals`, `NoGearIsBase` and the per-item lemmas |
| `StatsPanel.LastSlotIndex` | src/components/StatsPanel.tsx:157-160 | the index of the last item in a slot, or none when no item has it |
| `StatsPanel.BaseAttributes` | src/components/StatsPanel.tsx:19-29 | every attribute starts at its base value |
| `StatsPanel.EquipmentBySlot` | src/components/StatsPanel.tsx:157-160 | a slot is a key exactly when an item has it, and maps to the last such item |
| `StatsPanel.Distribute` | src/components/StatsPanel.tsx:192-204 | every attribute grows by its share of the row under the combo |
| `StatsPanel.AddInfusions` | src/components/StatsPanel.tsx:206-214 | every attribute grows by 5 per infusion position naming an infusion of the table for it; empty positions and unknown names add nothing |
| `StatsPanel.AddItem` | src/components/StatsPanel.tsx:162-215 | every attribute grows by the item's gain |
| `StatsPanel.AddEquipment` | src/components/StatsPanel.tsx:162-215 | every attribute grows by the gains of all items, in order, against the one main hand |
| `StatsPanel.AddRuneBonuses` | src/components/StatsPanel.tsx:217-231 | every attribute grows by the sum of what each bonus string gives it |
| `StatsPanel.AddRuneBonus` | src/components/StatsPanel.tsx:219-229 | every attribute grows by what one parsed bonus gives it |
| `StatsPanel.ComputeTotals` | src/components/StatsPanel.tsx:153-234 | each total is its base value plus every item's gain plus every rune bonus |
| `StatsPanel.NoGearIsBase` | src/components/StatsPanel.tsx:19-29 | with no gear and no rune, totals are 1000 for Power, Toughness, Vitality and Precision and 0 otherwise |
| `StatsPanel.SecondWeaponSetAddsNothing` | src/components/StatsPanel.tsx:163-165 | MainHand2 and OffHand2 items change no total |
| `StatsPanel.MainHandRow` | src/components/StatsPanel.tsx:173-175 | MainHand1 uses the two-handed row exactly when its weapon type is two-handed |
| `StatsPanel.OffHandRow` | src/components/StatsPanel.tsx:176-182 | OffHand1 adds nothing when the main hand is two-handed, and uses the one-handed row otherwise |
| `StatsPanel.UnknownSlotAddsNothing` | src/components/StatsPanel.tsx:167-185 | an item whose slot name is none of the sixteen slots draws on no row and adds nothing, infusions included |
| `StatsPanel.UnknownComboAddsNothing` | src/components/StatsPanel.tsx:187-190 | an item whose combo has no row adds nothing, infusions included |
| `StatsPanel.ShareSumDistinct` | src/components/StatsPanel.tsx:192-204 | in a combo without repeats, an attribute receives exactly its own share |
| `StatsPanel.ShareSumAbsent` | src/components/StatsPanel.tsx:192-204 | an attribute outside the combo receives nothing |
| `StatsPanel.ComboDistribution` | src/components/StatsPanel.tsx:192-204 | nine attributes get major9 each; of four, the first two major4 and the rest minor4; of three, the first major3 and the rest minor3 |
| `StatsPanel.InfusionsAddFiveEach` | src/components/StatsPanel.tsx:32-41 | each infusion position naming an infusion of the table adds exactly 5 to its one attribute |
| `StatsPanel.InfusionTableMatchesUnion` | src/components/StatsPanel.tsx:32-41 | the infusion table's names are exactly the eight names of the infusion union, and no two infusions add to the same attribute |
| `StatsPanel.UnknownInfusionAddsNothing` | src/components/StatsPanel.tsx:206-214 | an infusion name the table lacks, in any of the three positions, changes every total exactly as an empty position does |
| `StatsPanel.RuneBonusEffect` | src/components/StatsPanel.tsx:222-229 | a flat bonus adds N; a percent bonus adds 15N to Expertise, Boon Duration or Ferocity and nothing otherwise |
| `StatsPanel.GetDerivedStat` | src/components/StatsPanel.tsx:241-272 | nothing without a profession or for Power, Condition Damage and Healing Power |
| `StatsPanel.DerivedStatSlopes` | src/components/StatsPanel.tsx:251-255 | Health is the base health at 1000 Vitality and grows 10 per point; Armor grows 1 per point of Toughness |
| `Base64.CharSextet` | src/lib/buildEncoder.ts:30 | the inverse of the alphabet character of a 6-bit value |
| `Base64.SextetCharInverse` | src/lib/buildEncoder.ts:11 | each 6-bit value's character decodes back to the value |
| `Base64.BinaryString` | src/lib/buildEncoder.ts:11 | one character per byte, each with that byte's code |
| `Base64.CharCodes` | src/lib/buildEncoder.ts:32 | the codes of a binary string give the string back |
| `Base64.EncodeBytes` | src/lib/buildEncoder.ts:11 | the encoding's length is a multiple of four |
| `Base64.UnpaddedLength` | src/lib/buildEncoder.ts:11 | the unpadded text never has length 1 modulo 4, and its padding completes the last group |
| `Base64.Btoa` | src/lib/buildEncoder.ts:11 | definition; its meaning is stated by `BtoaOfBinary` |
| `Base64.BtoaOfBinary` | src/lib/buildEncoder.ts:11 | `btoa` of the bytes' binary string never throws and gives their encoding |
| `Base64.Atob` | src/lib/buildEncoder.ts:30 | a successful result is a binary string |
| `Base64.UnpaddedDecodes` | src/lib/buildEncoder.ts:30 | decoding the unpadded text gives back every byte |
| `Base64.StripPaddingOfEncode` | src/lib/buildEncoder.ts:30 | stripping the encoding's padding leaves the unpadded text |
| `Base64.AtobInvertsEncode` | src/lib/buildEncoder.ts:30 | `atob` undoes the encoding of any bytes |
| `BuildEncoder.UrlSafe` | src/lib/buildEncoder.ts:13 | the token holds no `+`, `/` or `=` |
| `BuildEncoder.RestoreStandard` | src/lib/buildEncoder.ts:26 | the length is kept and no `-` or `_` is left |
| `BuildEncoder.Pad` | src/lib/buildEncoder.ts:28 | the text is extended by at most three `=` to a multiple of four |
| `BuildEncoder.EncodeBuild` | src/lib/buildEncoder.ts:7-18 | the token holds no `+`, `/` or `=` |
| `BuildEncoder.BinaryToBytes` | src/lib/buildEncoder.ts:31-34 | the array has the string's length and holds each character's code (modulo 256), which is the string's bytes for a binary string |
| `BuildEncoder.DecodeSpec` | src/lib/buildEncoder.ts:23-42 | definition; its meaning is stated by `DecodeBuild` and `DecodeInvertsEncode` |
| `BuildEncoder.DecodeBuild` | src/lib/buildEncoder.ts:23-42 | the result is the decode specification; an error is invalid base 64 exactly when `atob` fails, and no partial build is returned |
| `BuildEncoder.RestoreInvertsUrlSafe` | src/lib/buildEncoder.ts:13-26 | restoring the alphabet undoes the substitution on unpadded base 64 text |
| `BuildEncoder.UrlSafeInvertsRestore` | src/lib/buildEncoder.ts:13-26 | the substitution undoes the restoring on any URL-safe token |
| `BuildEncoder.RestorePadUndoesUrlSafe` | src/lib/buildEncoder.ts:26-28 | restoring alphabet and padding gives back exactly the padded base 64 text |
| `BuildEncoder.DecodeInvertsEncode` | src/lib/buildEncoder.ts:7-42 | if inflate undoes deflate, decoding a token gives `JSON.parse` of the build's JSON, and the build itself if parse undoes stringify |
| `BuildEncoder.GetParam` | src/lib/buildEncoder.ts:59-60 | a value is found exactly when some parameter has the name; its value is stated by `SetParamEffect` |
| `BuildEncoder.SetParam` | src/lib/buildEncoder.ts:50 | definition; its meaning is stated by `SetParamEffect` |
| `BuildEncoder.SetParamEffect` | src/lib/buildEncoder.ts:50 | after `set`, the name reads the value and every other parameter is kept in order |
| `BuildEncoder.GetShareableUrl` | src/lib/buildEncoder.ts:47-52 | origin, path, hash and all other parameters are unchanged; `build` reads the token |
| `BuildEncoder.LoadBuildFromUrl` | src/lib/buildEncoder.ts:57-68 | a build exactly when `build` is present, non-empty and decodes; then the decoded build |
| `BuildEncoder.LoadInvertsShare` | src/lib/buildEncoder.ts:47-68 | if inflate undoes deflate, parse undoes stringify and the deflated build is not empty, loading the shareable URL of a build gives the build back |
| `Wrappers.Filter` | scripts/audit-passive-traits.js:13-15 | `filter`: at most the input's length; an element is kept iff it is in the input and passes |
| `Wrappers.FilterConcat` | scripts/audit-passive-traits.js:13-15 | filtering a concatenation concatenates the filtered parts, so the input order is kept |
| `Wrappers.FilterCount` | scripts/audit-passive-traits.js:13-15 | a passing element is kept as often as the input holds it; the others not at all |
| `Wrappers.FindKey` | src/lib/gw2buildlinkApiClient.ts:35 | a result is the value of a pair with that key; none means no pair has the key (the lookups in the profession map and in `STAT_COMBOS`) |
| `BuildlinkClient.ResolveProfession` | src/lib/gw2buildlinkApiClient.ts:11-40 | a result is a profession's record; an error says `Unknown profession: ` and the argument |
| `BuildlinkClient.ProfessionNameAndCodeAgree` | src/lib/gw2buildlinkApiClient.ts:13-32 | a profession's name and its code resolve to the same record, with codes 1 to 9 in list order |
| `BuildlinkClient.LowerCaseRetryAddsNothing` | src/lib/gw2buildlinkApiClient.ts:34-35 | the lower-case retry never finds a key the argument as written missed |
| `BuildlinkClient.ResolveOnlyExactKeys` | src/lib/gw2buildlinkApiClient.ts:34-38 | only exact keys resolve, and a lower-cased name such as `guardian` throws |
| `BuildlinkClient.NumericCode` | src/lib/gw2buildlinkApiClient.ts:249-258 | a falsy argument gives 0 |
| `BuildlinkClient.NumericCodeOfText` | src/lib/gw2buildlinkApiClient.ts:251 | a code as a number and as decimal text give the same id |
| `BuildlinkClient.ResolvePet` | src/lib/gw2buildlinkApiClient.ts:248-253 | a falsy argument gives id 0 |
| `BuildlinkClient.ResolveLegend` | src/lib/gw2buildlinkApiClient.ts:255-260 | a falsy argument gives code 0 |
| `BuildlinkClient.ResolveWeapon` | src/lib/gw2buildlinkApiClient.ts:262-265 | a number is its own id |
| `BuildlinkClient.ResolveOverrideSkill` | src/lib/gw2buildlinkApiClient.ts:267-270 | a number is its own id |
| `BuildlinkClient.ResolversAgreeWhenTruthy` | src/lib/gw2buildlinkApiClient.ts:248-270 | the four resolvers agree on truthy input; on `""` pets give 0 and weapons NaN |
| `BuildlinkClient.MajorTraits` | src/lib/gw2buildlinkApiClient.ts:120 | exactly the traits whose id is a major trait of the specialization |
| `BuildlinkClient.OfTier` | src/lib/gw2buildlinkApiClient.ts:124 | exactly the major traits of that tier |
| `BuildlinkClient.InsertByOrder` | src/lib/gw2buildlinkApiClient.ts:125 | inserting keeps the list sorted by order and adds exactly one element |
| `BuildlinkClient.SortByOrder` | src/lib/gw2buildlinkApiClient.ts:125 | sorted by order and a permutation of the input |
| `BuildlinkClient.InsertKeepsTies` | src/lib/gw2buildlinkApiClient.ts:125 | inserting keeps the elements of each order in their old order, with the new one after those of its own order |
| `BuildlinkClient.SortKeepsTies` | src/lib/gw2buildlinkApiClient.ts:125 | the sort is stable: the elements of any one order come out in the order they went in |
| `BuildlinkClient.TierTraitsSorted` | src/lib/gw2buildlinkApiClient.ts:123-126 | a tier lists exactly its major traits, each as often as it occurs, sorted by order |
| `BuildlinkClient.PositionOf` | src/lib/gw2buildlinkApiClient.ts:142 | the first place holding the id, or none when no place does |
| `BuildlinkClient.FirstNamed` | src/lib/gw2buildlinkApiClient.ts:154 | the first trait whose lower-cased name matches, or none |
| `BuildlinkClient.TierChoice` | src/lib/gw2buildlinkApiClient.ts:133-164 | an entry is at most the tier size |
| `BuildlinkClient.TierChoiceMeaning` | src/lib/gw2buildlinkApiClient.ts:133-164 | a non-zero entry is one plus the first place of the chosen id in the tier; zero exactly when nothing is chosen or the tier lacks it |
| `BuildlinkClient.ResolveTraitChoices` | src/lib/gw2buildlinkApiClient.ts:108-169 | the result is, per tier, the choice the specification function gives |
| `BuildlinkClient.NoSelectionNoChoice` | src/lib/gw2buildlinkApiClient.ts:114 | no selection gives `[0, 0, 0]` |
| `BuildlinkClient.ChoiceWithinTier` | src/lib/gw2buildlinkApiClient.ts:139-164 | an entry lies between 0 and the tier size, and a non-zero entry points at a major trait of that tier with the chosen id |
| `BuildlinkClient.TraitNamesIgnoreCase` | src/lib/gw2buildlinkApiClient.ts:154 | trait names match regardless of case |
| `BuildlinkClient.UnknownNameGivesZero` | src/lib/gw2buildlinkApiClient.ts:152-163 | a name no major trait has, or one found only outside the tier, gives 0 |
| `BuildlinkClient.Flip` | src/lib/gw2buildlinkApiClient.ts:67 | each pair with its two ids swapped, in order |
| `BuildlinkClient.LastWith` | src/lib/gw2buildlinkApiClient.ts:65-68 | the index of the last pair with the key, or none |
| `BuildlinkClient.LastWins` | src/lib/gw2buildlinkApiClient.ts:65-68 | definition; its meaning is stated by `LastWinsLookup` |
| `BuildlinkClient.LastWinsLookup` | src/lib/gw2buildlinkApiClient.ts:65-68 | a key is in the map exactly when a pair has it, and maps to the last such pair's value |
| `BuildlinkClient.BuildPaletteMaps` | src/lib/gw2buildlinkApiClient.ts:60-70 | palette to skill and skill to palette, a later pair overwriting an earlier one |
| `BuildlinkClient.FreshDetails` | src/lib/gw2buildlinkApiClient.ts:50-93 | details exist exactly for a known profession, with its id, name and code, and empty maps when the fetch failed or had no pairs |
| `BuildlinkClient.CacheAfterValid` | src/lib/gw2buildlinkApiClient.ts:44-80 | a lookup keeps every cache entry a known profession's details under its id, and never drops or changes an entry |
| `BuildlinkClient.CachedDetailsAreStable` | src/lib/gw2buildlinkApiClient.ts:44-48 | once fetched successfully, later lookups answer from the cache whatever a new fetch would give |
| `BuildlinkClient.FirstSkillNamed` | src/lib/gw2buildlinkApiClient.ts:231 | the first skill whose lower-cased name matches, or none |
| `BuildlinkClient.PaletteFor` | src/lib/gw2buildlinkApiClient.ts:185-245 | a name is returned only with a skill id, and for a number it is that skill's looked-up name |
| `BuildlinkClient.SkillIdTakesPrecedence` | src/lib/gw2buildlinkApiClient.ts:188-204 | a number that is a skill id is read as one, even if it is also a palette id |
| `BuildlinkClient.UnknownNumberIsIdentity` | src/lib/gw2buildlinkApiClient.ts:224-226 | a number neither map knows is both palette and skill |
| `BuildlinkClient.PaletteRoundTrip` | src/lib/gw2buildlinkApiClient.ts:185-222 | for a pair last for both its ids, the skill resolves to the palette and the palette back to the skill |
| `BuildlinkClient.UnknownSkillNameGivesZero` | src/lib/gw2buildlinkApiClient.ts:244-245 | an unknown skill name gives palette 0 |
| `BuildlinkClient.LocalClient.constructor` | src/lib/gw2buildlinkApiClient.ts:9 | the cache starts empty |
| `BuildlinkClient.LocalClient.GetProfessionDetails` | src/lib/gw2buildlinkApiClient.ts:42-94 | the answer is the cached or fresh details, and the cache becomes its value after the lookup |
| `BuildlinkClient.LocalClient.ResolveSkillPalette` | src/lib/gw2buildlinkApiClient.ts:171-246 | a falsy value gives palette 0 and leaves the cache; otherwise the palette decision on the details, with the cache updated |
| `BuildlinkClient.LoadNamedIds` | src/lib/gw2buildlinkApiClient.ts:276-308 | one entry per requested id: the looked-up id and name, or the bare id when the lookup fails |
| `BuildlinkClient.NamedOf` | src/lib/gw2buildlinkApiClient.ts:280-285 | a failed lookup leaves the bare id without a name |
| `WikiScraper.DecodeEntities` | scripts/wiki-scraper.js:37-42 | definition; its meaning is stated by `DecodesEveryEntity`, `DecodesOneEntity` and `AmpersandDecodedLast` |
| `WikiScraper.DecodesEveryEntity` | scripts/wiki-scraper.js:37-42 | text made of any number of entities with `&`-free text between them decodes to the same text with each entity replaced by its character |
| `WikiScraper.DecodesOneEntity` | scripts/wiki-scraper.js:37-42 | one entity between text without `&` decodes to its character and nothing else |
| `WikiScraper.AmpersandDecodedLast` | scripts/wiki-scraper.js:37-42 | `&amp;lt;` decodes to `&lt;`, not `<` |
| `WikiScraper.DecodeWithoutAmpersand` | scripts/wiki-scraper.js:37-42 | text without `&` is unchanged |
| `WikiScraper.FactMatchesSymmetric` | scripts/wiki-scraper.js:306-317 | the match test does not depend on which fact is the override |
| `WikiScraper.FirstMatch` | scripts/wiki-scraper.js:306-317 | the first fact the override matches, or none |
| `WikiScraper.CombineFacts` | scripts/wiki-scraper.js:321-325 | the override's fields win, but a missing or empty text keeps the old one |
| `WikiScraper.ApplyOverride` | scripts/wiki-scraper.js:306-329 | definition; its meaning is stated by `ApplyOverrideMeaning` |
| `WikiScraper.ApplyOverrideMeaning` | scripts/wiki-scraper.js:304-329 | only the first match is replaced; with no match the fact is appended |
| `WikiScraper.MergeFacts` | scripts/wiki-scraper.js:301-330 | definition; its meaning is stated by `MergeFactsShape` and `MergeFactsAppends` |
| `WikiScraper.MergeFactsShape` | scripts/wiki-scraper.js:301-329 | the merged facts start with the base facts' types in order and add one fact per unmatched override |
| `WikiScraper.MergeFactsAppends` | scripts/wiki-scraper.js:319-329 | with no match anywhere, the override facts are appended in order |
| `WikiScraper.MergeOverrideSpec` | scripts/wiki-scraper.js:292-336 | without override facts, the override itself; the other fields are always the override's |
| `WikiScraper.MergeOverride` | scripts/wiki-scraper.js:292-336 | the loop's result is the merge specification |
| `WikiScraper.StatusSet` | scripts/wiki-scraper.js:134-142 | exactly the truthy statuses of the override's facts: each one is in the set, and each member is one of them |
| `WikiScraper.KeepModeFacts` | scripts/wiki-scraper.js:148-153 | exactly the facts without a status, with their mode's status, or with neither other mode's status |
| `WikiScraper.KeepModeFactsInOrder` | scripts/wiki-scraper.js:148-153 | the filter keeps the fact order and count: a concatenation filters part by part, one fact stays iff it passes, each kept fact appears as often as in the input |
| `WikiScraper.DropPveStatuses` | scripts/wiki-scraper.js:157 | exactly the facts whose lower-cased status is not a PvE status |
| `WikiScraper.DropPveStatusesInOrder` | scripts/wiki-scraper.js:157 | the filter keeps the fact order and count, as for the mode filter |
| `WikiScraper.SplitModes` | scripts/wiki-scraper.js:131 | one mode per piece of the comma split (at least one), each the piece trimmed and lower-cased |
| `WikiScraper.SplitModesTrimmed` | scripts/wiki-scraper.js:131 | no mode holds a comma or starts or ends with white space |
| `WikiScraper.WithOverrides` | scripts/wiki-scraper.js:118-127 | name and base facts unchanged |
| `WikiScraper.EnrichItem` | scripts/wiki-scraper.js:113-181 | name and base facts unchanged; without splits or overrides the item is unchanged; PvE is the merged PvE override when there is one, else the item's own |
| `WikiScraper.NoCommaNoFilter` | scripts/wiki-scraper.js:130 | without a comma in the split string nothing is filtered |
| `WikiScraper.WvwFromBaseFacts` | scripts/wiki-scraper.js:154-159 | a WvW split without WvW data gives the base facts minus PvE statuses |
| `WikiScraper.WvwFilterRule` | scripts/wiki-scraper.js:145-153 | in WvW data, a fact with a status stays iff it is a WvW status or neither a PvE nor a PvP one |
| `WikiScraper.RestrictMode` | scripts/wiki-scraper.js:145-177 | definition; its meaning is stated by `EnrichWvw`, `WvwFilterRule`, `WvwFromBaseFacts` and their PvP counterparts |
| `WikiScraper.EnrichWvw` | scripts/wiki-scraper.js:145-153 | with a WvW split and WvW override facts, the WvW data is the merged override with its facts filtered by the WvW rule |
| `WikiScraper.EnrichPvp` | scripts/wiki-scraper.js:162-171 | with a PvP split and PvP override facts, the PvP data is the merged override with its facts filtered by the PvP rule, whatever the WvW step did |
| `WikiScraper.PvpFilterRule` | scripts/wiki-scraper.js:162-171 | in PvP data, a fact with a status stays iff it is a PvP status or neither a PvE nor a WvW one |
| `WikiScraper.PvpFromBaseFacts` | scripts/wiki-scraper.js:172-177 | a PvP split without PvP data gives the base facts minus PvE statuses |
| `WikiScraper.EnrichItems` | scripts/wiki-scraper.js:91-185 | one enriched item per input, in order, each from the splits of its name |
| `WikiScraper.GetSplitStats` | scripts/wiki-scraper.js:343-361 | the totals and per-mode counts of the items |
| `WikiScraper.SplitStatsBounds` | scripts/wiki-scraper.js:343-361 | each per-mode count is at most the any-split count, which is at most the total and at most their sum |
| `AuditTraits.TraitsWithStats` | scripts/audit-passive-traits.js:13-15 | exactly the traits with an AttributeAdjust fact |
| `AuditTraits.TraitsWithStatsInOrder` | scripts/audit-passive-traits.js:13-15 | the filter keeps the trait order and count: a concatenation filters part by part, one trait stays iff it has a stat fact, each kept trait appears as often as in the input |
| `AuditTraits.StatFacts` | scripts/audit-passive-traits.js:38 | exactly the AttributeAdjust facts |
| `AuditTraits.StatFactsInOrder` | scripts/audit-passive-traits.js:38 | the stat facts keep the fact order and count, as for the trait filter |
| `AuditTraits.StatTexts` | scripts/audit-passive-traits.js:39 | one `+value target` text per fact, in fact order |
| `AuditTraits.JoinedStatsCount` | scripts/audit-passive-traits.js:39 | when each stat text holds one `+`, the joined text holds one `+` per stat fact |
| `AuditTraits.FindSpec` | scripts/audit-passive-traits.js:41 | a found specialization has the trait's id; none means no specialization has it |
| `AuditTraits.InfoOf` | scripts/audit-passive-traits.js:32-56 | the report line keeps id, name and description; a found specialization gives its name and profession and an unknown one `Unknown` for both; the stats text is the stat facts' texts joined with `, ` |
| `AuditTraits.InfosOf` | scripts/audit-passive-traits.js:31-56 | one report line per trait, in order |
| `AuditTraits.ClassifyTraits` | scripts/audit-passive-traits.js:13-66 | the two lists are the passive and the conditional lines of the stat traits, in order |
| `AuditTraits.ClassificationPartitions` | scripts/audit-passive-traits.js:58-65 | every line lands in exactly one list, passive ones passing the test and conditional ones failing it |
| `AuditTraits.MissingDescriptionIsConditional` | scripts/audit-passive-traits.js:32 | a trait without a description is never passive |
| `AuditTraits.PassiveRule` | scripts/audit-passive-traits.js:35-36 | passive iff the description says "is increased" or "are increased" with no conditional keyword |
| `AuditTraits.ClassificationIgnoresCase` | scripts/audit-passive-traits.js:32 | the test does not depend on the description's case |
| `JsStrings.LowerIdempotent` | src/lib/gw2buildlinkApiClient.ts:34 | lower-casing twice is lower-casing once |
| `JsStrings.ReplaceAllOneChar` | src/lib/buildEncoder.ts:13 | a global one-character replace is the character-wise swap |
| `JsStrings.ReplaceCharRemoves` | src/lib/buildEncoder.ts:13 | a global replace of a character leaves none unless the replacement has it |
| `JsStrings.Repeat` | src/lib/buildEncoder.ts:28 | n copies of the character |
| `JsStrings.TrimStart` | src/lib/textParser.ts:42 | no leading white space, and a suffix of the input |
| `JsStrings.TrimEnd` | src/lib/textParser.ts:42 | no trailing white space, and a prefix of the input |
| `JsStrings.Split` | scripts/wiki-scraper.js:131 | at least one piece, none holding the separator |
| `JsStrings.SplitJoin` | scripts/wiki-scraper.js:131 | joining the pieces with the separator gives the text back |
| `JsStrings.ReplacePairRemoves` | src/lib/textParser.ts:27 | a global replace of a two-character pattern leaves no occurrence when the replacement cannot start or complete one |
| `JsStrings.ReplaceCharKeepsNoPair` | src/lib/textParser.ts:28 | replacing one character by such a text creates no new two-character occurrence |
| `JsStrings.NatToStringDigits` | src/lib/gw2buildlinkApiClient.ts:251 | a natural number prints as digits that read back as the number |
| `JsStrings.ParseIntOfNat` | src/lib/gw2buildlinkApiClient.ts:251 | `parseInt` reads back what `String` printed |

## Left out

- Network, storage and timing: `fetch` in `getProfessionDetails` and in `fetchWikiEditPage`, the `gw2Api` lookups, `setTimeout` delays and `console` logging. Their results are parameters.
- `scrapeSkillSplits` and `scrapeTraitSplits`: they call the wiki fetch and `extractCompetitiveSplits` of `wiki-parser.js`; wiki-parser.js is not part of this model. The enrichment takes the splits of each name as a parameter.
- The `wpTextbox1` extraction in `fetchWikiEditPage` is not modelled; the entity decoding of what it extracts is.
- `resolveSpecialization` and `getSpecializationById`: pass-throughs to a remote lookup. The trait resolution takes the specialization record as input.
- `getPetById`: it returns its argument unchanged.
- `pako`, `JSON.stringify` and `JSON.parse` are opaque functions. Their round trip is a predicate that the lemmas require.
- `BuildEncoder.EncodeBuild`: the `try`/`catch` that logs and rethrows is not modelled. The modelled chain throws only past engine argument limits, in `String.fromCharCode(...compressed)`, that a build's deflated size does not reach.
- `URL.toString` and `window.location` are modelled by a record with the query string already split into pairs. Percent-encoding of query values is not modelled.
- The React hooks of `StatsPanel` are left out: `useMemo`, `useEffect` and the store. The rune's bonus strings are an input.
- `StatsPanel.GetDerivedStat`: crit chance, crit damage and condition and boon duration are floating-point values formatted with `toFixed`, so the model returns a `Percent` marker for them. The bar percentage and `Math.round`/`toLocaleString` formatting are left out for the same reason.
- JavaScript numbers are modelled as unbounded integers, and `parseInt`'s `NaN` as `None`. Totals cannot overflow in the source's ranges.
- `JsStrings.Lower` folds ASCII letters only. Non-ASCII case mappings of `toLowerCase` are not modelled.
- Lookups of prototype keys such as `constructor` in the source's plain-object tables are not modelled. The model's tables contain only their listed keys.
- `WikiScraper.StatusSet`: the source compares lower-cased statuses against sets of statuses as written. The model keeps that (a capitalised override status never matches), but does not model a `status` that is not a string.
- `WikiScraper.GetSplitStats`: `withAnySplit` is the size of a `Set` of item objects. The model counts positions, which is the same whenever the array holds no object twice.
- `WikiScraper.EnrichItem`: the source's shallow copies share override objects, so filtering one mode's facts could be seen through another reference. The model works on values and has no aliasing.
- `BuildlinkClient.SortByOrder`: the source sorts each tier's array in place. The model sorts a value; it is sorted, a permutation and stable (`SortKeepsTies`), as the stable `Array.prototype.sort` of ES2019 gives.
- The report printing of the audit script, and the `isMinor` flag, which only the printout uses beyond being stored.
- `test-decode.js` and the UI components (`TraitPanel`, `SkillPicker`, `SkillBar`, `BuildExport`, `Tooltip`, `Sidebar`, `BuildPreviewTabs`, `ProfessionSelector`, `App`) are not part of this model.

=== FILE: audit_traits.dfy ===
/**
 * The passive-trait audit (scripts/audit-passive-traits.js): among the traits
 * with an `AttributeAdjust` fact, those whose description says a stat "is
 * increased" or "are increased" with no conditional keyword are likely
 * passive, and all the others are likely conditional. Reading the JSON data
 * files and printing the report are left out; the data are parameters.
 */
module AuditTraits {
  import opened Wrappers
  import opened JsStrings

  /** A fact of a trait: its `type`, and the `value` and `target` of an attribute bonus. */
  datatype TraitFact = TraitFact(kind: string, value: Option<int>, target: Option<string>)

  datatype TraitRecord = TraitRecord(id: int, name: string, description: Option<string>,
                                     specialization: Option<int>, facts: Option<seq<TraitFact>>)

  datatype SpecRecord = SpecRecord(id: int, name: string, profession: string, minorTraits: Option<seq<int>>)

  /** One line of the report. `isMinor` is missing when the specialization or its minor-trait list is. */
  datatype TraitInfo = TraitInfo(id: int, name: string, spec: string, profession: string, stats: string,
                                 description: Option<string>, isMinor: Option<bool>,
                                 hasIncreased: bool, hasConditionalKeyword: bool)

  /** The words that mark a bonus as conditional, in the order the script lists them. */
  const ConditionalKeywords: seq<string> := [
    "while", "when", "wielding", "with a", "under", "above", "below",
    "threshold", "against", "on foes", "on strike", "per ", "based on",
    "affected by", "during", "grants", "gain ", "attuned to", "in shroud",
    "each ", "for each", "if ", "using", "equipped", "activat", "combat only"
  ]

  predicate IsAttributeAdjust(f: TraitFact) {
    f.kind == "AttributeAdjust"
  }

  /** A trait the audit looks at: it has facts and one of them is an `AttributeAdjust`. */
  predicate HasStatFact(t: TraitRecord) {
    t.facts.Some? && exists k :: 0 <= k < |t.facts.value| && IsAttributeAdjust(t.facts.value[k])
  }

  /** `traits.filter(…)`: the traits with a stat fact. */
  function TraitsWithStats(traits: seq<TraitRecord>): (r: seq<TraitRecord>)
    ensures |r| <= |traits|
    ensures forall t :: t in r <==> t in traits && HasStatFact(t)
  {
    Filter(traits, HasStatFact)
  }

  /** The filter keeps the input order and the count of each trait: it works part by part, and one trait stays exactly when it has a stat fact. */
  lemma TraitsWithStatsInOrder(a: seq<TraitRecord>, b: seq<TraitRecord>, t: TraitRecord)
    ensures TraitsWithStats(a + b) == TraitsWithStats(a) + TraitsWithStats(b)
    ensures TraitsWithStats([t]) == if HasStatFact(t) then [t] else []
    ensures forall x :: multiset(TraitsWithStats(a))[x] == if HasStatFact(x) then multiset(a)[x] else 0
  {
    FilterCount(a, HasStatFact);
    FilterConcat(a, b, HasStatFact);
    FilterOne(t, HasStatFact);
  }

  /** `(t.description || '').toLowerCase()`. */
  function LoweredDescription(t: TraitRecord): string {
    if t.description.Some? then Lower(t.description.value) else ""
  }

  predicate HasIncreased(desc: string) {
    Contains(desc, "is increased") || Contains(desc, "are increased")
  }

  predicate HasConditionalKeyword(desc: string) {
    exists k :: 0 <= k < |ConditionalKeywords| && Contains(desc, ConditionalKeywords[k])
  }

  /** The `AttributeAdjust` facts. */
  function StatFacts(facts: seq<TraitFact>): (r: seq<TraitFact>)
    ensures |r| <= |facts|
    ensures forall f :: f in r <==> f in facts && IsAttributeAdjust(f)
  {
    Filter(facts, IsAttributeAdjust)
  }

  /** The stat facts keep the fact order and count: part by part, and one fact stays exactly when it is an `AttributeAdjust`. */
  lemma StatFactsInOrder(a: seq<TraitFact>, b: seq<TraitFact>, f: TraitFact)
    ensures StatFacts(a + b) == StatFacts(a) + StatFacts(b)
    ensures StatFacts([f]) == if IsAttributeAdjust(f) then [f] else []
    ensures forall x :: multiset(StatFacts(a))[x] == if IsAttributeAdjust(x) then multiset(a)[x] else 0
  {
    FilterCount(a, IsAttributeAdjust);
    FilterConcat(a, b, IsAttributeAdjust);
    FilterOne(f, IsAttributeAdjust);
  }

  /** `String(x)` of an optional field: `undefined` when it is missing. */
  function OrUndefined(s: Option<string>): string {
    if s.Some? then s.value else "undefined"
  }

  /** `` `+${f.value} ${f.target}` ``. */
  function StatText(f: TraitFact): (r: string)
    ensures r != [] && r[0] == '+'
  {
    "+" + OrUndefined(if f.value.Some? then Some(IntToString(f.value.value)) else None) + " " + OrUndefined(f.target)
  }

  function StatTexts(facts: seq<TraitFact>): (r: seq<string>)
    ensures |r| == |facts| && forall k :: 0 <= k < |facts| ==> r[k] == StatText(facts[k])
  {
    seq(|facts|, k requires 0 <= k < |facts| => StatText(facts[k]))
  }

  /** How many `+` the joined texts start with: one per text, since a separator has none. */
  function PlusCount(s: string): nat {
    if s == [] then 0 else PlusCount(s[1..]) + (if s[0] == '+' then 1 else 0)
  }

  lemma {:induction false} PlusCountConcat(a: string, b: string)
    ensures PlusCount(a + b) == PlusCount(a) + PlusCount(b)
    decreases |a|
  {
    if a != [] {
      assert (a + b)[1..] == a[1..] + b;
      PlusCountConcat(a[1..], b);
    } else {
      assert a + b == b;
    }
  }

  /**
   * The stats line holds one `+` per stat fact when neither values nor
   * targets carry one: one `+value target` entry per `AttributeAdjust` fact.
   */
  lemma {:induction false} JoinedStatsCount(facts: seq<TraitFact>)
    requires forall k :: 0 <= k < |facts| ==> PlusCount(StatText(facts[k])) == 1
    ensures PlusCount(Join(StatTexts(facts), ", ")) == |facts|
    decreases |facts|
  {
    var texts := StatTexts(facts);
    if |facts| > 1 {
      JoinedStatsCount(facts[1..]);
      assert StatTexts(facts[1..]) == texts[1..];
      PlusCountConcat(texts[0] + ", ", Join(texts[1..], ", "));
      PlusCountConcat(texts[0], ", ");
      assert PlusCount(", ") == 0;
    }
  }

  /** `specs.find(s => s.id === t.specialization)`. */
  function FindSpec(specs: seq<SpecRecord>, id: Option<int>): (r: Option<SpecRecord>)
    ensures r.Some? ==> r.value in specs && id == Some(r.value.id)
    ensures r.None? ==> forall s :: s in specs ==> id != Some(s.id)
  {
    if specs == [] then None
    else if id == Some(specs[0].id) then Some(specs[0])
    else FindSpec(specs[1..], id)
  }

  /** The report line of one trait. */
  function InfoOf(t: TraitRecord, specs: seq<SpecRecord>): (info: TraitInfo)
    ensures info.id == t.id && info.name == t.name && info.description == t.description
    ensures FindSpec(specs, t.specialization).None? ==> info.spec == "Unknown" && info.profession == "Unknown" && info.isMinor.None?
    ensures FindSpec(specs, t.specialization).Some? ==>
      var spec := FindSpec(specs, t.specialization).value;
      info.spec == spec.name && info.profession == spec.profession
    ensures info.stats == Join(StatTexts(StatFacts(t.facts.GetOr([]))), ", ")
    ensures info.hasIncreased == HasIncreased(LoweredDescription(t))
    ensures info.hasConditionalKeyword == HasConditionalKeyword(LoweredDescription(t))
  {
    var desc := LoweredDescription(t);
    var spec := FindSpec(specs, t.specialization);
    var stats := Join(StatTexts(StatFacts(t.facts.GetOr([]))), ", ");
    TraitInfo(t.id, t.name,
              if spec.Some? then spec.value.name else "Unknown",
              if spec.Some? then spec.value.profession else "Unknown",
              stats, t.description,
              if spec.Some? && spec.value.minorTraits.Some? then Some(t.id in spec.value.minorTraits.value) else None,
              HasIncreased(desc), HasConditionalKeyword(desc))
  }

  /** The test that sends a trait to the likely-passive list. */
  predicate LikelyPassive(info: TraitInfo) {
    info.hasIncreased && !info.hasConditionalKeyword
  }

  /** The report line of every trait, in trait order. */
  function InfosOf(traits: seq<TraitRecord>, specs: seq<SpecRecord>): (infos: seq<TraitInfo>)
    ensures |infos| == |traits| && forall k :: 0 <= k < |traits| ==> infos[k] == InfoOf(traits[k], specs)
  {
    seq(|traits|, k requires 0 <= k < |traits| => InfoOf(traits[k], specs))
  }

  /** The report lines that pass the passive test, in their order. */
  function PassiveOf(infos: seq<TraitInfo>): seq<TraitInfo> {
    if infos == [] then []
    else
      var n := |infos| - 1;
      PassiveOf(infos[..n]) + (if LikelyPassive(infos[n]) then [infos[n]] else [])
  }

  /** The report lines that fail the passive test, in their order. */
  function ConditionalOf(infos: seq<TraitInfo>): seq<TraitInfo> {
    if infos == [] then []
    else
      var n := |infos| - 1;
      ConditionalOf(infos[..n]) + (if LikelyPassive(infos[n]) then [] else [infos[n]])
  }

  /** The unfolding step of the classification loop: the lists of a prefix one line longer, in terms of the shorter prefix. */
  lemma ListsGrow(infos: seq<TraitInfo>, i: nat)
    requires i < |infos|
    ensures PassiveOf(infos[..i + 1]) == PassiveOf(infos[..i]) + (if LikelyPassive(infos[i]) then [infos[i]] else [])
    ensures ConditionalOf(infos[..i + 1]) == ConditionalOf(infos[..i]) + (if LikelyPassive(infos[i]) then [] else [infos[i]])
  {
    assert infos[..i + 1][..i] == infos[..i];
  }

  /**
   * The `forEach` over the traits with stats: each report line goes to the
   * likely-passive or to the likely-conditional list, in trait order.
   */
  method ClassifyTraits(traits: seq<TraitRecord>, specs: seq<SpecRecord>)
    returns (likelyPassive: seq<TraitInfo>, likelyConditional: seq<TraitInfo>)
    ensures likelyPassive == PassiveOf(InfosOf(TraitsWithStats(traits), specs))
    ensures likelyConditional == ConditionalOf(InfosOf(TraitsWithStats(traits), specs))
  {
    var traitsWithStats := TraitsWithStats(traits);
    ghost var infos := InfosOf(traitsWithStats, specs);
    likelyPassive, likelyConditional := [], [];
    for i := 0 to |traitsWithStats|
      invariant likelyPassive == PassiveOf(infos[..i])
      invariant likelyConditional == ConditionalOf(infos[..i])
    {
      var t := traitsWithStats[i];
      var traitInfo := InfoOf(t, specs);
      var hasIncreased, hasConditionalKeyword := traitInfo.hasIncreased, traitInfo.hasConditionalKeyword;
      ListsGrow(infos, i);
      if hasIncreased && !hasConditionalKeyword {
        likelyPassive := likelyPassive + [traitInfo];
      } else if hasConditionalKeyword {
        likelyConditional := likelyConditional + [traitInfo];
      } else {
        likelyConditional := likelyConditional + [traitInfo];
      }
    }
    assert infos[..|infos|] == infos;
  }

  /**
   * Every classified trait lands in exactly one list: the two lists together
   * hold each report line once, the passive ones pass the test and the
   * conditional ones fail it.
   */
  lemma ClassificationPartitions(infos: seq<TraitInfo>)
    ensures |PassiveOf(infos)| + |ConditionalOf(infos)| == |infos|
    ensures multiset(PassiveOf(infos)) + multiset(ConditionalOf(infos)) == multiset(infos)
    ensures forall info :: info in PassiveOf(infos) ==> LikelyPassive(info)
    ensures forall info :: info in ConditionalOf(infos) ==> !LikelyPassive(info)
  {
    PartitionKeepsEveryLine(infos);
    PartitionFollowsTest(infos);
  }

  lemma {:induction false} PartitionKeepsEveryLine(infos: seq<TraitInfo>)
    ensures multiset(PassiveOf(infos)) + multiset(ConditionalOf(infos)) == multiset(infos)
  {
    if infos != [] {
      var n := |infos| - 1;
      PartitionKeepsEveryLine(infos[..n]);
      var info := infos[n];
      var p, c := PassiveOf(infos[..n]), ConditionalOf(infos[..n]);
      assert infos == infos[..n] + [info];
      assert multiset(infos) == multiset(infos[..n]) + multiset{info};
      if LikelyPassive(info) {
        assert multiset(PassiveOf(infos)) == multiset(p) + multiset{info};
        assert ConditionalOf(infos) == c;
      } else {
        assert PassiveOf(infos) == p;
        assert multiset(ConditionalOf(infos)) == multiset(c) + multiset{info};
      }
    }
  }

  lemma {:induction false} PartitionFollowsTest(infos: seq<TraitInfo>)
    ensures forall info :: info in PassiveOf(infos) ==> LikelyPassive(info)
    ensures forall info :: info in ConditionalOf(infos) ==> !LikelyPassive(info)
  {
    if infos != [] {
      PartitionFollowsTest(infos[..|infos| - 1]);
    }
  }

  /** A trait without a description can never be passive. */
  lemma MissingDescriptionIsConditional(t: TraitRecord, specs: seq<SpecRecord>)
    requires t.description.None?
    ensures !LikelyPassive(InfoOf(t, specs))
  {
    assert !Contains("", "is increased") && !Contains("", "are increased");
  }

  /** The passive test on a description: a stat increase, no conditional keyword. */
  lemma PassiveRule(t: TraitRecord, specs: seq<SpecRecord>)
    ensures LikelyPassive(InfoOf(t, specs)) <==>
      ((Contains(LoweredDescription(t), "is increased") || Contains(LoweredDescription(t), "are increased"))
       && forall k :: 0 <= k < |ConditionalKeywords| ==> !Contains(LoweredDescription(t), ConditionalKeywords[k]))
  {
  }

  /** The description test ignores case. */
  lemma ClassificationIgnoresCase(t: TraitRecord, u: TraitRecord, specs: seq<SpecRecord>)
    requires t.description.Some? && u.description.Some? && Lower(t.description.value) == Lower(u.description.value)
    ensures LikelyPassive(InfoOf(t, specs)) <==> LikelyPassive(InfoOf(u, specs))
  {
  }
}

=== FILE: base64.dfy ===
/**
 * The browser's `btoa` and `atob`: base 64 encoding with the standard alphabet
 * of section 4 of RFC 4648 over a "binary string" (one character per byte),
 * and its inverse, the forgiving decoder of the HTML standard, which drops
 * ASCII whitespace, accepts input with or without its padding and fails on
 * anything outside the alphabet.
 */
module Base64 {
  import opened Wrappers

  type Byte = b: int | 0 <= b < 256

  /** The DOMException `atob` and `btoa` throw. */
  datatype DomError = InvalidCharacterError

  // ---------------------------------------------------------------- alphabet

  /** The character of a 6-bit value in the standard alphabet (A-Z, a-z, 0-9, +, /). */
  function SextetChar(v: int): (c: char)
    requires 0 <= v < 64
    ensures IsAlphabetChar(c)
  {
    if v < 26 then ('A' as int + v) as char
    else if v < 52 then ('a' as int + (v - 26)) as char
    else if v < 62 then ('0' as int + (v - 52)) as char
    else if v == 62 then '+'
    else '/'
  }

  predicate IsAlphabetChar(c: char) {
    ('A' <= c <= 'Z') || ('a' <= c <= 'z') || ('0' <= c <= '9') || c == '+' || c == '/'
  }

  predicate IsAlphabetText(s: string) {
    forall k :: 0 <= k < |s| ==> IsAlphabetChar(s[k])
  }

  /** The 6-bit value of an alphabet character: the inverse of `SextetChar`. */
  function CharSextet(c: char): (v: int)
    requires IsAlphabetChar(c)
    ensures 0 <= v < 64 && SextetChar(v) == c
  {
    if 'A' <= c <= 'Z' then c as int - 'A' as int
    else if 'a' <= c <= 'z' then c as int - 'a' as int + 26
    else if '0' <= c <= '9' then c as int - '0' as int + 52
    else if c == '+' then 62
    else 63
  }

  lemma SextetCharInverse(v: int)
    requires 0 <= v < 64
    ensures IsAlphabetChar(SextetChar(v)) && CharSextet(SextetChar(v)) == v
  {
  }

  // ---------------------------------------------------------------- binary strings

  /** `String.fromCharCode(...bytes)`: one character per byte. */
  function BinaryString(b: seq<Byte>): (r: string)
    ensures |r| == |b|
    ensures forall k :: 0 <= k < |b| ==> r[k] as int == b[k]
  {
    seq(|b|, k requires 0 <= k < |b| => b[k] as char)
  }

  predicate IsBinaryString(s: string) {
    forall k :: 0 <= k < |s| ==> s[k] as int < 256
  }

  function CharCodes(s: string): (b: seq<Byte>)
    requires IsBinaryString(s)
    ensures BinaryString(b) == s
  {
    seq(|s|, k requires 0 <= k < |s| => s[k] as int)
  }

  // ---------------------------------------------------------------- encoding

  /** The four characters of three bytes. */
  function Quad(b0: Byte, b1: Byte, b2: Byte): (r: string)
    ensures |r| == 4 && IsAlphabetText(r)
  {
    [SextetChar(b0 / 4), SextetChar((b0 % 4) * 16 + b1 / 16),
     SextetChar((b1 % 16) * 4 + b2 / 64), SextetChar(b2 % 64)]
  }

  /** The encoding without its trailing `=` characters. */
  function Unpadded(b: seq<Byte>): (r: string)
    ensures IsAlphabetText(r)
    decreases |b|
  {
    if |b| == 0 then []
    else if |b| == 1 then Pair(b[0])
    else if |b| == 2 then Triple(b[0], b[1])
    else Quad(b[0], b[1], b[2]) + Unpadded(b[3..])
  }

  /** The two characters of a final single byte. */
  function Pair(b0: Byte): (r: string)
    ensures |r| == 2 && IsAlphabetText(r)
  {
    [SextetChar(b0 / 4), SextetChar((b0 % 4) * 16)]
  }

  /** The three characters of a final two bytes. */
  function Triple(b0: Byte, b1: Byte): (r: string)
    ensures |r| == 3 && IsAlphabetText(r)
  {
    [SextetChar(b0 / 4), SextetChar((b0 % 4) * 16 + b1 / 16), SextetChar((b1 % 16) * 4)]
  }

  /**
   * Groups of three bytes give four characters and a final one or two bytes
   * give two or three, so the padding is what completes the last group.
   */
  lemma {:induction false} UnpaddedLength(b: seq<Byte>)
    ensures |Unpadded(b)| % 4 != 1
    ensures (4 - |Unpadded(b)| % 4) % 4 == |Padding(|b|)|
    decreases |b|
  {
    if |b| >= 3 {
      var rest := b[3..];
      UnpaddedLength(rest);
      assert Unpadded(b) == Quad(b[0], b[1], b[2]) + Unpadded(rest);
      ModStep(|rest|, |Unpadded(rest)|);
      assert Padding(|b|) == Padding(|rest|);
    }
  }

  lemma ModStep(n: nat, m: nat)
    ensures (n + 3) % 3 == n % 3 && (m + 4) % 4 == m % 4
  {
  }

  /** The `=` characters that complete the last group of four. */
  function Padding(n: nat): string {
    if n % 3 == 1 then "==" else if n % 3 == 2 then "=" else ""
  }

  /** Base 64 text of a byte sequence, padded to a multiple of four characters. */
  function EncodeBytes(b: seq<Byte>): (r: string)
    ensures |r| % 4 == 0
  {
    PaddedLength(b);
    Unpadded(b) + Padding(|b|)
  }

  /** The padding completes the last group: the encoding is a whole number of groups of four. */
  lemma PaddedLength(b: seq<Byte>)
    ensures |Unpadded(b) + Padding(|b|)| % 4 == 0
  {
    UnpaddedLength(b);
    PaddingCompletes(|Unpadded(b)|, |Padding(|b|)|);
  }

  lemma PaddingCompletes(m: nat, p: nat)
    requires (4 - m % 4) % 4 == p
    ensures (m + p) % 4 == 0
  {
  }

  /** `btoa(s)`: fails on a character above 255, otherwise encodes the character codes. */
  function Btoa(s: string): Result<string, DomError> {
    if IsBinaryString(s) then Ok(EncodeBytes(CharCodes(s))) else Err(InvalidCharacterError)
  }

  /** `btoa` of a binary string never throws, and encodes exactly its bytes. */
  lemma BtoaOfBinary(b: seq<Byte>)
    ensures Btoa(BinaryString(b)) == Ok(EncodeBytes(b))
  {
    assert CharCodes(BinaryString(b)) == b;
  }

  // ---------------------------------------------------------------- decoding

  predicate IsAsciiWhitespace(c: char) {
    c == '\t' || c == '\n' || c == '\U{000C}' || c == '\r' || c == ' '
  }

  function RemoveAsciiWhitespace(s: string): (r: string)
    ensures |r| <= |s|
    ensures forall c :: c in r ==> c in s && !IsAsciiWhitespace(c)
  {
    if s == [] then []
    else if IsAsciiWhitespace(s[0]) then RemoveAsciiWhitespace(s[1..])
    else [s[0]] + RemoveAsciiWhitespace(s[1..])
  }

  lemma {:induction false} RemoveAsciiWhitespaceNone(s: string)
    requires forall k :: 0 <= k < |s| ==> !IsAsciiWhitespace(s[k])
    ensures RemoveAsciiWhitespace(s) == s
  {
    if s != [] {
      RemoveAsciiWhitespaceNone(s[1..]);
      assert s == [s[0]] + s[1..];
    }
  }

  /** Drops one or two trailing `=` (applied only when the length is a multiple of four). */
  function StripPadding(t: string): string {
    if |t| >= 2 && t[|t| - 2..] == "==" then t[..|t| - 2]
    else if |t| >= 1 && t[|t| - 1] == '=' then t[..|t| - 1]
    else t
  }

  /** Bytes of padding-free alphabet text whose length is not 1 more than a multiple of four. */
  function DecodeSextets(u: string): (b: seq<Byte>)
    requires IsAlphabetText(u) && |u| % 4 != 1
    decreases |u|
  {
    if |u| == 0 then []
    else
      var c0 := CharSextet(u[0]);
      var c1 := CharSextet(u[1]);
      if |u| == 2 then [c0 * 4 + c1 / 16]
      else
        var c2 := CharSextet(u[2]);
        if |u| == 3 then [c0 * 4 + c1 / 16, (c1 % 16) * 16 + c2 / 4]
        else
          var c3 := CharSextet(u[3]);
          [c0 * 4 + c1 / 16, (c1 % 16) * 16 + c2 / 4, (c2 % 4) * 64 + c3] + DecodeSextets(u[4..])
  }

  /**
   * `atob(s)`: remove ASCII whitespace; if the length is a multiple of four drop
   * one or two trailing `=`; fail when the length leaves remainder 1 or a
   * character is outside the alphabet; otherwise the decoded bytes as a binary string.
   */
  function Atob(s: string): (r: Result<string, DomError>)
    ensures r.Ok? ==> IsBinaryString(r.value)
  {
    var t := RemoveAsciiWhitespace(s);
    var u := if |t| % 4 == 0 then StripPadding(t) else t;
    if |u| % 4 == 1 || !IsAlphabetText(u) then Err(InvalidCharacterError)
    else Ok(BinaryString(DecodeSextets(u)))
  }

  // ---------------------------------------------------------------- round trip

  lemma QuadDecodes(b0: Byte, b1: Byte, b2: Byte)
    ensures var q := Quad(b0, b1, b2);
      IsAlphabetText(q) &&
      var c0, c1, c2, c3 := CharSextet(q[0]), CharSextet(q[1]), CharSextet(q[2]), CharSextet(q[3]);
      c0 * 4 + c1 / 16 == b0 && (c1 % 16) * 16 + c2 / 4 == b1 && (c2 % 4) * 64 + c3 == b2
  {
    var q := Quad(b0, b1, b2);
    SextetCharInverse(b0 / 4);
    SextetCharInverse((b0 % 4) * 16 + b1 / 16);
    SextetCharInverse((b1 % 16) * 4 + b2 / 64);
    SextetCharInverse(b2 % 64);
  }

  /** The bytes of one full group of four characters followed by more text. */
  lemma DecodeGroup(q: string, rest: string)
    requires |q| == 4 && IsAlphabetText(q) && IsAlphabetText(rest) && |rest| % 4 != 1
    ensures IsAlphabetText(q + rest) && |q + rest| % 4 != 1
    ensures var c0, c1, c2, c3 := CharSextet(q[0]), CharSextet(q[1]), CharSextet(q[2]), CharSextet(q[3]);
      DecodeSextets(q + rest)
      == [c0 * 4 + c1 / 16, (c1 % 16) * 16 + c2 / 4, (c2 % 4) * 64 + c3] + DecodeSextets(rest)
  {
    var u := q + rest;
    assert u[4..] == rest;
    assert u[0] == q[0] && u[1] == q[1] && u[2] == q[2] && u[3] == q[3];
  }

  lemma DecodeShortTail(b: seq<Byte>)
    requires 1 <= |b| <= 2
    ensures IsAlphabetText(Unpadded(b)) && |Unpadded(b)| % 4 != 1
    ensures DecodeSextets(Unpadded(b)) == b
  {
    SextetCharInverse(b[0] / 4);
    if |b| == 1 {
      SextetCharInverse((b[0] % 4) * 16);
    } else {
      SextetCharInverse((b[0] % 4) * 16 + b[1] / 16);
      SextetCharInverse((b[1] % 16) * 4);
    }
  }

  /** A group of four characters made of three bytes decodes back to those bytes, whatever follows. */
  lemma QuadGroupDecodes(b0: Byte, b1: Byte, b2: Byte, rest: string)
    requires IsAlphabetText(rest) && |rest| % 4 != 1
    ensures IsAlphabetText(Quad(b0, b1, b2) + rest) && |Quad(b0, b1, b2) + rest| % 4 != 1
    ensures DecodeSextets(Quad(b0, b1, b2) + rest) == [b0, b1, b2] + DecodeSextets(rest)
  {
    QuadDecodes(b0, b1, b2);
    DecodeGroup(Quad(b0, b1, b2), rest);
  }

  /** Decoding the unpadded text gives back every byte. */
  lemma {:induction false} UnpaddedDecodes(b: seq<Byte>)
    ensures |Unpadded(b)| % 4 != 1
    ensures DecodeSextets(Unpadded(b)) == b
    decreases |b|
  {
    UnpaddedLength(b);
    if 1 <= |b| <= 2 {
      DecodeShortTail(b);
    } else if |b| >= 3 {
      var rest := Unpadded(b[3..]);
      assert Unpadded(b) == Quad(b[0], b[1], b[2]) + rest;
      UnpaddedDecodes(b[3..]);
      QuadGroupDecodes(b[0], b[1], b[2], rest);
      assert b == [b[0], b[1], b[2]] + b[3..];
    }
  }

  /** Padded base 64 text holds no ASCII whitespace. */
  lemma EncodeHasNoWhitespace(b: seq<Byte>)
    ensures RemoveAsciiWhitespace(EncodeBytes(b)) == EncodeBytes(b)
  {
    var e := EncodeBytes(b);
    var u := Unpadded(b);
    forall k | 0 <= k < |e| ensures !IsAsciiWhitespace(e[k]) {
      if k < |u| { assert e[k] == u[k]; }
    }
    RemoveAsciiWhitespaceNone(e);
  }

  /** Stripping the padding of the encoding leaves exactly the unpadded text. */
  lemma StripPaddingOfEncode(b: seq<Byte>)
    ensures StripPadding(EncodeBytes(b)) == Unpadded(b)
  {
    var u := Unpadded(b);
    if |b| > 0 {
      assert |u| > 0;
    }
    StripPaddingOfPadded(u, Padding(|b|));
  }

  /** Alphabet text followed by at most two `=` loses exactly those `=`. */
  lemma StripPaddingOfPadded(u: string, pad: string)
    requires IsAlphabetText(u) && (pad == "" || pad == "=" || pad == "==")
    requires pad != "" ==> |u| > 0
    ensures StripPadding(u + pad) == u
  {
    var e := u + pad;
    if pad == "==" {
      assert e[|e| - 2..] == "==";
      assert e[..|e| - 2] == u;
    } else if pad == "=" {
      assert e[|e| - 2..] != "==" by { assert e[|e| - 2] == u[|u| - 1]; }
      assert e[..|e| - 1] == u;
    } else {
      assert e == u;
      if |u| >= 1 {
        assert IsAlphabetChar(u[|u| - 1]);
        if |u| >= 2 { assert e[|e| - 2..][1] == u[|u| - 1]; }
      }
    }
  }

  /** `atob` undoes `btoa` on every binary string: the decoded bytes are the encoded ones. */
  lemma AtobInvertsEncode(b: seq<Byte>)
    ensures Atob(EncodeBytes(b)) == Ok(BinaryString(b))
  {
    EncodeHasNoWhitespace(b);
    StripPaddingOfEncode(b);
    UnpaddedDecodes(b);
  }
}

=== FILE: build_encoder.dfy ===
/**
 * The share-token envelope of a build (src/lib/buildEncoder.ts): the build is
 * serialized as JSON, deflated, written in base 64 (section 4 of RFC 4648) and
 * made URL-safe by the substitution of section 5 of RFC 4648 with the padding
 * dropped (which section 3.2 of RFC 4648 allows). Decoding undoes each step and
 * copies the decoded characters into a byte array one by one.
 *
 * `JSON.stringify`/`JSON.parse` and `pako.deflate`/`pako.inflate` are libraries
 * the model does not look inside: they are the fields of a `Codecs` record, and
 * what is assumed of them is stated as a predicate the lemmas require.
 */
module BuildEncoder {
  import opened Wrappers
  import opened JsStrings
  import opened Base64
  import opened Gw2Types

  /**
   * The libraries the encoder calls. `parse` answers `None` where `JSON.parse`
   * throws; `inflate` answers `None` where `pako.inflate` throws on a corrupt stream.
   */
  datatype Codecs = Codecs(
    stringify: BuildData -> string,
    parse: string -> Option<BuildData>,
    deflate: string -> seq<Byte>,
    inflate: seq<Byte> -> Option<string>)

  /** zlib decompression undoes compression. */
  ghost predicate InflateInvertsDeflate(x: Codecs) {
    forall s :: x.inflate(x.deflate(s)) == Some(s)
  }

  /** Reading back the JSON text of a build gives the build. */
  ghost predicate ParseInvertsStringify(x: Codecs) {
    forall b :: x.parse(x.stringify(b)) == Some(b)
  }

  /** Why decoding throws; the source rethrows each of them unchanged. */
  datatype DecodeError = InvalidBase64 | CorruptStream | MalformedJson

  // ---------------------------------------------------------------- URL-safe alphabet

  /** `+` becomes `-`, `/` becomes `_`, and every `=` is dropped. */
  function UrlSafe(base64: string): (token: string)
    ensures '+' !in token && '/' !in token && '=' !in token
  {
    var s1 := ReplaceAll(base64, "+", "-");
    var s2 := ReplaceAll(s1, "/", "_");
    var s3 := ReplaceAll(s2, "=", "");
    ReplaceCharRemoves(base64, '+', "-");
    ReplaceAllKeepsOut(s1, "/", "_", '+');
    ReplaceCharRemoves(s1, '/', "_");
    ReplaceAllKeepsOut(s2, "=", "", '+');
    ReplaceAllKeepsOut(s2, "=", "", '/');
    ReplaceCharRemoves(s2, '=', "");
    s3
  }

  /** `-` becomes `+` and `_` becomes `/`. */
  function RestoreStandard(encoded: string): (base64: string)
    ensures |base64| == |encoded|
    ensures '-' !in base64 && '_' !in base64
  {
    ReplaceAllOneChar(encoded, '-', '+');
    ReplaceAllOneChar(ReplaceAll(encoded, "-", "+"), '_', '/');
    ReplaceAll(ReplaceAll(encoded, "-", "+"), "_", "/")
  }

  /** Appends `=` until the length is a multiple of four. */
  function Pad(base64: string): (padded: string)
    ensures base64 <= padded && |padded| % 4 == 0 && |padded| - |base64| <= 3
    ensures forall k :: |base64| <= k < |padded| ==> padded[k] == '='
  {
    base64 + Repeat('=', (4 - |base64| % 4) % 4)
  }

  // ---------------------------------------------------------------- encoding

  /** `encodeBuild`: JSON, deflate, base 64, URL-safe alphabet without padding. */
  function EncodeBuild(x: Codecs, build: BuildData): (token: string)
    ensures '+' !in token && '/' !in token && '=' !in token
  {
    var compressed := x.deflate(x.stringify(build));
    BtoaOfBinary(compressed);
    UrlSafe(Btoa(BinaryString(compressed)).value)
  }

  // ---------------------------------------------------------------- decoding

  /** The byte-array copy of the decoded binary string (each code stored modulo 256, as a `Uint8Array` stores it). */
  method BinaryToBytes(binary: string) returns (bytes: array<Byte>)
    ensures bytes.Length == |binary|
    ensures forall k :: 0 <= k < |binary| ==> bytes[k] == binary[k] as int % 256
    ensures IsBinaryString(binary) ==> bytes[..] == CharCodes(binary)
  {
    bytes := new Byte[|binary|];
    var i := 0;
    while i < |binary|
      invariant 0 <= i <= |binary|
      invariant forall k :: 0 <= k < i ==> bytes[k] == binary[k] as int % 256
    {
      bytes[i] := binary[i] as int % 256;
      i := i + 1;
    }
  }

  /** What `decodeBuild` returns or throws. */
  function DecodeSpec(x: Codecs, encoded: string): Result<BuildData, DecodeError> {
    match Atob(Pad(RestoreStandard(encoded)))
    case Err(_) => Err(InvalidBase64)
    case Ok(binary) => InflateAndParse(x, CharCodes(binary))
  }

  function InflateAndParse(x: Codecs, bytes: seq<Byte>): Result<BuildData, DecodeError> {
    match x.inflate(bytes)
    case None => Err(CorruptStream)
    case Some(json) => ParseJson(x, json)
  }

  function ParseJson(x: Codecs, json: string): Result<BuildData, DecodeError> {
    match x.parse(json)
    case None => Err(MalformedJson)
    case Some(b) => Ok(b)
  }

  /**
   * `decodeBuild`: restore the standard alphabet and the padding, `atob`, copy
   * into bytes, inflate and parse; the first step that fails decides the error
   * and no partial build is returned.
   */
  method DecodeBuild(x: Codecs, encoded: string) returns (r: Result<BuildData, DecodeError>)
    ensures r == DecodeSpec(x, encoded)
    ensures r.Err? ==> (r.error == InvalidBase64 <==> Atob(Pad(RestoreStandard(encoded))).Err?)
  {
    var base64 := RestoreStandard(encoded);
    var padded := Pad(base64);
    var binary := Atob(padded);
    if binary.Err? {
      return Err(InvalidBase64);
    }
    var bytes := BinaryToBytes(binary.value);
    var decompressed := x.inflate(bytes[..]);
    if decompressed.None? {
      return Err(CorruptStream);
    }
    var parsed := x.parse(decompressed.value);
    if parsed.None? {
      return Err(MalformedJson);
    }
    return Ok(parsed.value);
  }

  // ---------------------------------------------------------------- round trip

  /** On padded base 64 text the URL-safe form is the unpadded text with `+` and `/` swapped. */
  lemma UrlSafeOfEncoding(b: seq<Byte>)
    ensures UrlSafe(EncodeBytes(b)) == SwapChar(SwapChar(Unpadded(b), '+', '-'), '/', '_')
  {
    var u := Unpadded(b);
    var p := Padding(|b|);
    var u1 := SwapChar(u, '+', '-');
    assert EncodeBytes(b) == u + p;
    ReplaceAllOneChar(u + p, '+', '-');
    SwapOfPadded(u, p, '+', '-');
    ReplaceAllOneChar(u1 + p, '/', '_');
    SwapOfPadded(u1, p, '/', '_');
    SwappedHasNoPadding(u);
    DropPadding(SwapChar(u1, '/', '_'), p);
  }

  /** Swapping a character other than `=` passes over the padding. */
  lemma SwapOfPadded(u: string, p: string, c: char, d: char)
    requires c != '=' && (p == "" || p == "=" || p == "==")
    ensures SwapChar(u + p, c, d) == SwapChar(u, c, d) + p
  {
  }

  /** The swapped alphabet text holds no `=`. */
  lemma SwappedHasNoPadding(u: string)
    requires IsAlphabetText(u)
    ensures '=' !in SwapChar(SwapChar(u, '+', '-'), '/', '_')
  {
    var w := SwapChar(SwapChar(u, '+', '-'), '/', '_');
    forall k | 0 <= k < |w| ensures w[k] != '=' {
      assert IsAlphabetChar(u[k]);
    }
  }

  /** Dropping every `=` removes exactly the padding after text that has none. */
  lemma DropPadding(w: string, p: string)
    requires '=' !in w && (p == "" || p == "=" || p == "==")
    ensures ReplaceAll(w + p, "=", "") == w
  {
    ReplaceAllSkipsPrefix(w, p, "=", "");
    assert ReplaceAll(p, "=", "") == [] by {
      if p == "=" {
        assert ReplaceAll(p, "=", "") == "" + ReplaceAll(p[1..], "=", "");
      } else if p == "==" {
        assert ReplaceAll(p, "=", "") == "" + ReplaceAll(p[1..], "=", "");
        assert p[1..] == "=";
        assert ReplaceAll(p[1..], "=", "") == "" + ReplaceAll(p[2..], "=", "");
      }
    }
    assert w + [] == w;
  }

  /** Letters, digits, `-` and `_`: the alphabet of section 5 of RFC 4648. */
  predicate IsUrlSafeText(s: string) {
    forall k :: 0 <= k < |s| ==> ('A' <= s[k] <= 'Z') || ('a' <= s[k] <= 'z') || ('0' <= s[k] <= '9') || s[k] == '-' || s[k] == '_'
  }

  /** On unpadded standard base 64 text the URL-safe form is the character-wise swap, with no `=` to drop. */
  lemma UrlSafeOfAlphabetText(t: string)
    requires IsAlphabetText(t)
    ensures UrlSafe(t) == SwapChar(SwapChar(t, '+', '-'), '/', '_')
  {
    ReplaceAllOneChar(t, '+', '-');
    ReplaceAllOneChar(SwapChar(t, '+', '-'), '/', '_');
    var w := SwapChar(SwapChar(t, '+', '-'), '/', '_');
    assert '=' !in w by {
      forall k | 0 <= k < |w| ensures w[k] != '=' {
        assert IsAlphabetChar(t[k]);
      }
    }
    ContainsChar(w, '=');
    ReplaceAllAbsent(w, "=", "");
  }

  /** Restoring the standard alphabet undoes the substitution on any unpadded base 64 text ... */
  lemma RestoreInvertsUrlSafe(t: string)
    requires IsAlphabetText(t)
    ensures IsUrlSafeText(UrlSafe(t))
    ensures RestoreStandard(UrlSafe(t)) == t
  {
    UrlSafeOfAlphabetText(t);
    var w := SwapChar(SwapChar(t, '+', '-'), '/', '_');
    ReplaceAllOneChar(w, '-', '+');
    ReplaceAllOneChar(SwapChar(w, '-', '+'), '_', '/');
    var back := SwapChar(SwapChar(w, '-', '+'), '_', '/');
    forall k | 0 <= k < |t| ensures back[k] == t[k] && w[k] != '=' {
      assert IsAlphabetChar(t[k]);
    }
  }

  /** ... and the substitution undoes the restoring on any URL-safe token. */
  lemma UrlSafeInvertsRestore(token: string)
    requires IsUrlSafeText(token)
    ensures IsAlphabetText(RestoreStandard(token))
    ensures UrlSafe(RestoreStandard(token)) == token
  {
    ReplaceAllOneChar(token, '-', '+');
    ReplaceAllOneChar(SwapChar(token, '-', '+'), '_', '/');
    var t := SwapChar(SwapChar(token, '-', '+'), '_', '/');
    assert IsAlphabetText(t);
    UrlSafeOfAlphabetText(t);
    var w := SwapChar(SwapChar(t, '+', '-'), '/', '_');
    forall k | 0 <= k < |token| ensures w[k] == token[k] {
    }
  }

  /** Restoring the alphabet and the padding gives back exactly the padded base 64 text. */
  lemma RestorePadUndoesUrlSafe(b: seq<Byte>)
    ensures Pad(RestoreStandard(UrlSafe(EncodeBytes(b)))) == EncodeBytes(b)
  {
    var u := Unpadded(b);
    UrlSafeOfEncoding(b);
    UrlSafeOfAlphabetText(u);
    RestoreInvertsUrlSafe(u);
    PadOfUnpadded(b);
  }

  /** Padding the unpadded text restores the `=` the encoder wrote. */
  lemma PadOfUnpadded(b: seq<Byte>)
    ensures Pad(Unpadded(b)) == EncodeBytes(b)
  {
    var u := Unpadded(b);
    UnpaddedLength(b);
    var p := Padding(|b|);
    assert Repeat('=', |p|) == p;
  }

  /**
   * Decoding a token of this encoder gives what `JSON.parse` makes of the
   * build's JSON text, whenever inflate undoes deflate; when, moreover, parse
   * undoes stringify, it gives back the build itself.
   */
  lemma DecodeInvertsEncode(x: Codecs, build: BuildData)
    requires InflateInvertsDeflate(x)
    ensures DecodeSpec(x, EncodeBuild(x, build)) == ParseJson(x, x.stringify(build))
    ensures ParseInvertsStringify(x) ==> DecodeSpec(x, EncodeBuild(x, build)) == Ok(build)
  {
    var json := x.stringify(build);
    var compressed := x.deflate(json);
    BtoaOfBinary(compressed);
    RestorePadUndoesUrlSafe(compressed);
    AtobInvertsEncode(compressed);
    assert CharCodes(BinaryString(compressed)) == compressed;
    assert x.inflate(compressed) == Some(json);
  }

  // ---------------------------------------------------------------- page URL

  /** A page address: the query string is already split into its name/value pairs. */
  datatype Url = Url(origin: string, path: string, search: seq<(string, string)>, hash: string)

  /** `URLSearchParams.get`: the value of the first pair with that name. */
  function GetParam(search: seq<(string, string)>, name: string): (r: Option<string>)
    ensures r.Some? <==> exists k :: 0 <= k < |search| && search[k].0 == name
  {
    if search == [] then None
    else if search[0].0 == name then Some(search[0].1)
    else GetParam(search[1..], name)
  }

  /** The pairs whose name is not `name`, in order. */
  function Without(search: seq<(string, string)>, name: string): (r: seq<(string, string)>)
    ensures forall k :: 0 <= k < |r| ==> r[k].0 != name
  {
    if search == [] then []
    else if search[0].0 == name then Without(search[1..], name)
    else [search[0]] + Without(search[1..], name)
  }

  /**
   * `URLSearchParams.set`: the first pair with that name takes the value and the
   * later ones are removed; without such a pair one is appended.
   */
  function SetParam(search: seq<(string, string)>, name: string, value: string): seq<(string, string)> {
    if search == [] then [(name, value)]
    else if search[0].0 == name then [(name, value)] + Without(search[1..], name)
    else [search[0]] + SetParam(search[1..], name, value)
  }

  /** After `set`, the name reads back the value and every other pair is kept in its order. */
  lemma {:induction false} SetParamEffect(search: seq<(string, string)>, name: string, value: string)
    ensures GetParam(SetParam(search, name, value), name) == Some(value)
    ensures Without(SetParam(search, name, value), name) == Without(search, name)
    ensures forall other :: other != name ==>
      GetParam(SetParam(search, name, value), other) == GetParam(search, other)
  {
    if search != [] && search[0].0 != name {
      SetParamEffect(search[1..], name, value);
    } else if search != [] {
      WithoutLookup(search[1..], name);
    }
  }

  /** Removing one name leaves the lookups of the other names alone. */
  lemma {:induction false} WithoutLookup(search: seq<(string, string)>, name: string)
    ensures Without(Without(search, name), name) == Without(search, name)
    ensures forall other :: other != name ==> GetParam(Without(search, name), other) == GetParam(search, other)
  {
    if search != [] {
      WithoutLookup(search[1..], name);
    }
  }

  /** `getShareableUrl`: the current address with the `build` parameter set to the token. */
  function GetShareableUrl(x: Codecs, location: Url, build: BuildData): (r: Url)
    ensures r.origin == location.origin && r.path == location.path && r.hash == location.hash
    ensures GetParam(r.search, "build") == Some(EncodeBuild(x, build))
    ensures Without(r.search, "build") == Without(location.search, "build")
  {
    SetParamEffect(location.search, "build", EncodeBuild(x, build));
    location.(search := SetParam(location.search, "build", EncodeBuild(x, build)))
  }

  /**
   * `loadBuildFromUrl`: no build when the `build` parameter is absent or empty
   * (an empty string is falsy) or when decoding throws; otherwise the decoded build.
   */
  function LoadBuildFromUrl(x: Codecs, search: seq<(string, string)>): (r: Option<BuildData>)
    ensures r.Some? <==>
      (GetParam(search, "build").Some? && GetParam(search, "build").value != ""
       && DecodeSpec(x, GetParam(search, "build").value).Ok?)
    ensures r.Some? ==> Ok(r.value) == DecodeSpec(x, GetParam(search, "build").value)
  {
    match GetParam(search, "build")
    case None => None
    case Some(param) =>
      if param == "" then None
      else
        match DecodeSpec(x, param)
        case Ok(b) => Some(b)
        case Err(_) => None
  }

  /** A token of this encoder is never empty when the compressed stream is not. */
  lemma EncodeBuildNonEmpty(x: Codecs, build: BuildData)
    requires x.deflate(x.stringify(build)) != []
    ensures EncodeBuild(x, build) != ""
  {
    var compressed := x.deflate(x.stringify(build));
    BtoaOfBinary(compressed);
    UrlSafeOfEncoding(compressed);
    assert |Unpadded(compressed)| >= 2;
  }

  /** Loading the shareable address of a build gives back the build. */
  lemma LoadInvertsShare(x: Codecs, location: Url, build: BuildData)
    requires InflateInvertsDeflate(x) && ParseInvertsStringify(x)
    requires x.deflate(x.stringify(build)) != []
    ensures LoadBuildFromUrl(x, GetShareableUrl(x, location, build).search) == Some(build)
  {
    EncodeBuildNonEmpty(x, build);
    DecodeInvertsEncode(x, build);
  }
}

=== FILE: buildlink_client.dfy ===
/**
 * The client the build-link library calls to turn a build into numeric codes
 * and back (src/lib/gw2buildlinkApiClient.ts), answered from local data:
 * profession codes, the position of a chosen trait within its tier, the
 * palette slot of a skill, and pet and legend codes. Every remote lookup the
 * client makes is a parameter here.
 */
module BuildlinkClient {
  import opened Wrappers
  import opened JsStrings
  import opened Gw2Types

  /** A `number | string` argument. */
  datatype Scalar = Num(n: int) | Str(s: string)

  /** `String(value)`. */
  function Text(v: Scalar): string {
    match v
    case Num(n) => IntToString(n)
    case Str(s) => s
  }

  /** A `number | string | null | undefined` argument is truthy unless it is `0`, `""` or absent. */
  predicate Truthy(v: Option<Scalar>) {
    match v
    case None => false
    case Some(Num(n)) => n != 0
    case Some(Str(s)) => s != []
  }

  // ---------------------------------------------------------------- professions

  /** What `resolveProfession` returns: the profession's name twice and its code. */
  datatype ProfessionSummary = ProfessionSummary(id: string, name: string, code: int)

  function SummaryOf(p: Profession): ProfessionSummary {
    ProfessionSummary(ProfessionName(p), ProfessionName(p), ProfessionIndex(p) + 1)
  }

  /** The keys of the profession table: each name and its code as a digit string. */
  const ProfessionTable: seq<(string, Profession)> := [
    ("Guardian", Guardian), ("1", Guardian),
    ("Warrior", Warrior), ("2", Warrior),
    ("Engineer", Engineer), ("3", Engineer),
    ("Ranger", Ranger), ("4", Ranger),
    ("Thief", Thief), ("5", Thief),
    ("Elementalist", Elementalist), ("6", Elementalist),
    ("Mesmer", Mesmer), ("7", Mesmer),
    ("Necromancer", Necromancer), ("8", Necromancer),
    ("Revenant", Revenant), ("9", Revenant)
  ]

  /**
   * `resolveProfession`: the table entry under the argument as written, else
   * under the argument in lower case; an unknown key throws.
   */
  function ResolveProfession(profession: Scalar): (r: Result<ProfessionSummary, string>)
    ensures r.Ok? ==> exists p :: r.value == SummaryOf(p)
    ensures r.Err? ==> r.error == "Unknown profession: " + Text(profession)
  {
    var key := Lower(Text(profession));
    match FindKey(ProfessionTable, Text(profession))
    case Some(p) => Ok(SummaryOf(p))
    case None =>
      match FindKey(ProfessionTable, key)
      case Some(p) => Ok(SummaryOf(p))
      case None => Err("Unknown profession: " + Text(profession))
  }

  /** A table key is a capitalised name or a single digit. */
  predicate KeyShape(key: string) {
    key != [] && (('A' <= key[0] <= 'Z') || (|key| == 1 && IsDigit(key[0])))
  }

  lemma TableKeysShaped()
    ensures forall k :: 0 <= k < |ProfessionTable| ==> KeyShape(ProfessionTable[k].0)
  {
  }

  /** The lower-case retry never finds a key that the argument as written missed. */
  lemma LowerCaseRetryAddsNothing(s: string)
    ensures FindKey(ProfessionTable, Lower(s)).Some? ==> FindKey(ProfessionTable, s).Some?
  {
    var p := FindKey(ProfessionTable, Lower(s));
    if p.Some? {
      TableKeysShaped();
      var k :| 0 <= k < |ProfessionTable| && ProfessionTable[k] == (Lower(s), p.value);
      assert KeyShape(Lower(s));
      assert Lower(s)[0] == LowerChar(s[0]);
      assert |s| == 1 && IsDigit(s[0]);
      assert Lower(s) == s by {
        assert Lower(s) == [LowerChar(s[0])] + Lower(s[1..]);
      }
    }
  }

  /** Only the exact keys resolve: a profession name in lower case, such as `guardian`, throws. */
  lemma ResolveOnlyExactKeys(s: string)
    ensures ResolveProfession(Str(s)).Ok? <==> FindKey(ProfessionTable, s).Some?
    ensures s != [] && 'A' <= s[0] <= 'Z' ==> ResolveProfession(Str(Lower(s))).Err?
  {
    ResolveAsWritten(s);
    if s != [] && 'A' <= s[0] <= 'Z' {
      LowerCaseNameFails(s);
    }
  }

  lemma ResolveAsWritten(s: string)
    ensures ResolveProfession(Str(s)).Ok? <==> FindKey(ProfessionTable, s).Some?
  {
    LowerCaseRetryAddsNothing(s);
  }

  lemma LowerCaseNameFails(s: string)
    requires s != [] && 'A' <= s[0] <= 'Z'
    ensures ResolveProfession(Str(Lower(s))).Err?
  {
    var t := Lower(s);
    assert t[0] == LowerChar(s[0]);
    TableKeysShaped();
    assert FindKey(ProfessionTable, t).None?;
    ResolveAsWritten(t);
  }

  /** Row `2i` of the table holds the name of the `i`-th profession, row `2i + 1` its code. */
  function RowOf(i: nat, isCode: bool): (string, Profession)
    requires i < 9
  {
    (if isCode then [DigitChar(i + 1)] else ProfessionName(Professions[i]), Professions[i])
  }

  lemma TableRows()
    ensures |ProfessionTable| == 18
    ensures forall k :: 0 <= k < 18 ==> ProfessionTable[k] == RowOf(k / 2, k % 2 == 1)
  {
  }

  /** The name and the code of a profession resolve to it. */
  lemma FindNamedRow(i: nat, isCode: bool)
    requires i < 9
    ensures FindKey(ProfessionTable, RowOf(i, isCode).0) == Some(Professions[i])
  {
    if isCode {
      FindCodeRow(i);
    } else {
      FindNameRow(i);
    }
  }

  lemma FindNameRow(i: nat)
    requires i < 9
    ensures FindKey(ProfessionTable, ProfessionName(Professions[i])) == Some(Professions[i])
  {
    TableRows();
    var key := ProfessionName(Professions[i]);
    assert ProfessionTable[2 * i].0 == key;
    var r := FindKey(ProfessionTable, key);
    var j :| 0 <= j < 18 && ProfessionTable[j] == (key, r.value);
    var row := RowOf(j / 2, j % 2 == 1);
    assert row == (key, r.value);
    NameStartsUpper(Professions[i]);
    assert j % 2 == 0;
    NamesInjective(Professions[j / 2], Professions[i]);
  }

  lemma NamesInjective(p: Profession, q: Profession)
    requires ProfessionName(p) == ProfessionName(q)
    ensures p == q
  {
    ProfessionsClosed();
  }

  lemma FindCodeRow(i: nat)
    requires i < 9
    ensures FindKey(ProfessionTable, [DigitChar(i + 1)]) == Some(Professions[i])
  {
    TableRows();
    var key := [DigitChar(i + 1)];
    assert ProfessionTable[2 * i + 1].0 == key;
    var r := FindKey(ProfessionTable, key);
    var j :| 0 <= j < 18 && ProfessionTable[j] == (key, r.value);
    assert j % 2 == 1 by {
      if j % 2 == 0 { NameStartsUpper(Professions[j / 2]); }
    }
    assert j / 2 == i;
  }

  lemma NameStartsUpper(p: Profession)
    ensures ProfessionName(p) != [] && 'A' <= ProfessionName(p)[0] <= 'Z'
  {
  }

  lemma ResolveOfFound(v: Scalar, p: Profession)
    requires FindKey(ProfessionTable, Text(v)) == Some(p)
    ensures ResolveProfession(v) == Ok(SummaryOf(p))
  {
  }

  /** Each profession's name and its code resolve to the same record, with codes 1 to 9 in list order. */
  lemma ProfessionNameAndCodeAgree(p: Profession)
    ensures ResolveProfession(Str(ProfessionName(p))) == Ok(SummaryOf(p))
    ensures ResolveProfession(Num(ProfessionIndex(p) + 1)) == Ok(SummaryOf(p))
    ensures 1 <= SummaryOf(p).code <= 9 && Professions[SummaryOf(p).code - 1] == p
  {
    var i := ProfessionIndex(p);
    FindNamedRow(i, false);
    ResolveOfFound(Str(ProfessionName(p)), p);
    FindNamedRow(i, true);
    assert Text(Num(i + 1)) == [DigitChar(i + 1)];
    ResolveOfFound(Num(i + 1), p);
  }

  // ---------------------------------------------------------------- pets and legends

  /** The number itself, or `parseInt(String(value), 10)`, with `None` for `NaN`. */
  function IdOf(value: Scalar): Option<int> {
    match value
    case Num(n) => Some(n)
    case Str(s) => ParseInt(s)
  }

  /** The numeric code of a pet or legend argument: `0` when it is falsy, else its id. */
  function NumericCode(value: Option<Scalar>): (code: Option<int>)
    ensures !Truthy(value) ==> code == Some(0)
  {
    if !Truthy(value) then Some(0) else IdOf(value.value)
  }

  /** A code given as a number and the same code given as decimal text resolve alike. */
  lemma NumericCodeOfText(n: nat)
    ensures NumericCode(Some(Str(NatToString(n)))) == NumericCode(Some(Num(n))) == Some(n)
  {
    NatToStringDigits(n);
    ParseIntOfNat(n);
  }

  /** An id, as `resolvePet`, `resolveWeapon` and `resolveOverrideSkill` return it. */
  datatype IdRef = IdRef(id: Option<int>)
  datatype LegendRef = LegendRef(code: Option<int>)

  /** `resolvePet`: `{id: 0}` for a falsy argument, else its numeric code. */
  function ResolvePet(value: Option<Scalar>): (r: IdRef)
    ensures !Truthy(value) ==> r.id == Some(0)
  {
    IdRef(NumericCode(value))
  }

  /** `resolveLegend`: `{code: 0}` for a falsy argument, else its numeric code. */
  function ResolveLegend(value: Option<Scalar>): (r: LegendRef)
    ensures !Truthy(value) ==> r.code == Some(0)
  {
    LegendRef(NumericCode(value))
  }

  /** `resolveWeapon`: the numeric code, with no special case for a falsy argument. */
  function ResolveWeapon(value: Scalar): (r: IdRef)
    ensures value.Num? ==> r.id == Some(value.n)
  {
    IdRef(IdOf(value))
  }

  /** `resolveOverrideSkill`: the same reading as `resolveWeapon`. */
  function ResolveOverrideSkill(value: Scalar): (r: IdRef)
    ensures value.Num? ==> r.id == Some(value.n)
  {
    IdRef(IdOf(value))
  }

  /**
   * On a truthy argument the four resolvers agree; they differ only on the
   * empty string, which pets and legends read as `0` and weapons and override
   * skills as `NaN`.
   */
  lemma ResolversAgreeWhenTruthy(v: Scalar)
    ensures Truthy(Some(v)) ==>
      ResolveWeapon(v).id == ResolveOverrideSkill(v).id == ResolvePet(Some(v)).id == ResolveLegend(Some(v)).code
    ensures ResolveWeapon(Num(0)).id == ResolvePet(Some(Num(0))).id == Some(0)
    ensures ResolveWeapon(Str("")).id == None && ResolvePet(Some(Str(""))).id == Some(0)
  {
    assert TrimStart("") == "";
  }

  // ---------------------------------------------------------------- trait choices

  /** A trait as the trait list of a specialization describes it. */
  datatype TraitInfo = TraitInfo(id: int, name: string, tier: int, order: int)

  /** What `resolveSpecialization` returns. */
  datatype Specialization = Specialization(id: int, name: string, profession: string, majorTraits: seq<int>)

  /** `all.filter(t => spec.major_traits.includes(t.id))`: the major traits, in list order. */
  function MajorTraits(spec: Specialization, all: seq<TraitInfo>): (major: seq<TraitInfo>)
    ensures |major| <= |all|
    ensures forall t :: t in major <==> t in all && t.id in spec.majorTraits
  {
    if all == [] then []
    else (if all[0].id in spec.majorTraits then [all[0]] else []) + MajorTraits(spec, all[1..])
  }

  /** `major.filter(t => t.tier === tier)`: the traits of one tier, in list order. */
  function OfTier(major: seq<TraitInfo>, tier: int): (r: seq<TraitInfo>)
    ensures |r| <= |major|
    ensures forall t :: t in r <==> t in major && t.tier == tier
  {
    if major == [] then []
    else (if major[0].tier == tier then [major[0]] else []) + OfTier(major[1..], tier)
  }

  predicate SortedByOrder(s: seq<TraitInfo>) {
    forall i, j :: 0 <= i < j < |s| ==> s[i].order <= s[j].order
  }

  /** Insert `t` after every element whose order is not larger, which keeps equal orders in arrival order. */
  function InsertByOrder(sorted: seq<TraitInfo>, t: TraitInfo): (r: seq<TraitInfo>)
    requires SortedByOrder(sorted)
    ensures SortedByOrder(r) && multiset(r) == multiset(sorted) + multiset{t}
  {
    if sorted == [] || t.order < sorted[0].order then [t] + sorted
    else
      var rest := InsertByOrder(sorted[1..], t);
      InsertBehindHead(sorted, t, rest);
      [sorted[0]] + rest
  }

  /** The head of a sorted list is at most every element of the rest with one more element added. */
  lemma HeadBelowRest(sorted: seq<TraitInfo>, t: TraitInfo, rest: seq<TraitInfo>)
    requires SortedByOrder(sorted) && sorted != [] && sorted[0].order <= t.order
    requires multiset(rest) == multiset(sorted[1..]) + multiset{t}
    ensures forall x :: x in rest ==> sorted[0].order <= x.order
  {
    forall x | x in rest
      ensures sorted[0].order <= x.order
    {
      assert x in multiset(rest);
      if x != t {
        assert x in multiset(sorted[1..]);
        assert x in sorted[1..];
      }
    }
  }

  lemma InsertBehindHead(sorted: seq<TraitInfo>, t: TraitInfo, rest: seq<TraitInfo>)
    requires SortedByOrder(sorted) && sorted != [] && sorted[0].order <= t.order
    requires SortedByOrder(rest) && multiset(rest) == multiset(sorted[1..]) + multiset{t}
    ensures SortedByOrder([sorted[0]] + rest)
    ensures multiset([sorted[0]] + rest) == multiset(sorted) + multiset{t}
  {
    assert sorted == [sorted[0]] + sorted[1..];
    HeadBelowRest(sorted, t, rest);
    var r := [sorted[0]] + rest;
    forall i, j | 0 <= i < j < |r|
      ensures r[i].order <= r[j].order
    {
      assert r[j] == rest[j - 1] && rest[j - 1] in rest;
      if i > 0 {
        assert r[i] == rest[i - 1];
      }
    }
  }

  /** `list.sort((a, b) => a.order - b.order)`, the stable sort by order. */
  function SortByOrder(s: seq<TraitInfo>): (r: seq<TraitInfo>)
    ensures SortedByOrder(r) && multiset(r) == multiset(s)
  {
    if s == [] then []
    else
      var n := |s| - 1;
      assert s == s[..n] + [s[n]];
      InsertByOrder(SortByOrder(s[..n]), s[n])
  }

  /** The test "has order `v`", as a function value for `Filter`. */
  function HasOrder(v: int): TraitInfo -> bool {
    (t: TraitInfo) => t.order == v
  }

  /** Inserting keeps the elements of each order in their old order, with `t` after those of its own. */
  lemma {:induction false} InsertKeepsTies(sorted: seq<TraitInfo>, t: TraitInfo, v: int)
    requires SortedByOrder(sorted)
    ensures Filter(InsertByOrder(sorted, t), HasOrder(v)) == Filter(sorted, HasOrder(v)) + Filter([t], HasOrder(v))
  {
    if sorted == [] || t.order < sorted[0].order {
      InsertInFrontKeepsTies(sorted, t, v);
    } else {
      var rest := InsertByOrder(sorted[1..], t);
      assert InsertByOrder(sorted, t) == [sorted[0]] + rest;
      InsertKeepsTies(sorted[1..], t, v);
      FilterConcat([sorted[0]], rest, HasOrder(v));
      FilterConcat([sorted[0]], sorted[1..], HasOrder(v));
      assert sorted == [sorted[0]] + sorted[1..];
    }
  }

  /** An element placed in front of larger orders is the only one of its order. */
  lemma InsertInFrontKeepsTies(sorted: seq<TraitInfo>, t: TraitInfo, v: int)
    requires SortedByOrder(sorted) && (sorted == [] || t.order < sorted[0].order)
    ensures Filter([t] + sorted, HasOrder(v)) == Filter(sorted, HasOrder(v)) + Filter([t], HasOrder(v))
  {
    FilterConcat([t], sorted, HasOrder(v));
    FilterOne(t, HasOrder(v));
    if t.order == v {
      forall x | x in sorted ensures !HasOrder(v)(x) {
        var i :| 0 <= i < |sorted| && sorted[i] == x;
        assert sorted[0].order <= sorted[i].order;
      }
      FilterNone(sorted, HasOrder(v));
    }
  }

  /** The sort is stable: the elements of any one order come out in the order they went in. */
  lemma {:induction false} SortKeepsTies(s: seq<TraitInfo>, v: int)
    ensures Filter(SortByOrder(s), HasOrder(v)) == Filter(s, HasOrder(v))
  {
    if s != [] {
      var n := |s| - 1;
      SortKeepsTies(s[..n], v);
      InsertKeepsTies(SortByOrder(s[..n]), s[n], v);
      assert s == s[..n] + [s[n]];
      FilterConcat(s[..n], [s[n]], HasOrder(v));
    }
  }

  /** The major traits of one tier in order: `traitsByTier[tier - 1]`. */
  function TierTraits(major: seq<TraitInfo>, tier: int): seq<TraitInfo> {
    SortByOrder(OfTier(major, tier))
  }

  /** A tier lists exactly the major traits of that tier, each as often as they occur, sorted by order. */
  lemma TierTraitsSorted(major: seq<TraitInfo>, tier: int)
    ensures SortedByOrder(TierTraits(major, tier))
    ensures multiset(TierTraits(major, tier)) == multiset(OfTier(major, tier))
    ensures forall t :: t in TierTraits(major, tier) <==> t in major && t.tier == tier
  {
    var kept := OfTier(major, tier);
    var r := SortByOrder(kept);
    assert forall t :: t in r <==> t in multiset(r);
    assert forall t :: t in kept <==> t in multiset(kept);
  }

  /** `findIndex(t => t.id === id)`. */
  function PositionOf(tier: seq<TraitInfo>, id: int): (k: Option<nat>)
    ensures k.Some? ==> (k.value < |tier| && tier[k.value].id == id
                         && forall j :: 0 <= j < k.value ==> tier[j].id != id)
    ensures k.None? ==> forall j :: 0 <= j < |tier| ==> tier[j].id != id
  {
    if tier == [] then None
    else if tier[0].id == id then Some(0)
    else match PositionOf(tier[1..], id)
      case Some(k) => Some(k + 1)
      case None => None
  }

  /** `find(t => t.name.toLowerCase() === lowered)`: the index of the first trait with that name. */
  function FirstNamed(major: seq<TraitInfo>, lowered: string): (k: Option<nat>)
    ensures k.Some? ==> (k.value < |major| && Lower(major[k.value].name) == lowered
                         && forall j :: 0 <= j < k.value ==> Lower(major[j].name) != lowered)
    ensures k.None? ==> forall j :: 0 <= j < |major| ==> Lower(major[j].name) != lowered
  {
    if major == [] then None
    else if Lower(major[0].name) == lowered then Some(0)
    else match FirstNamed(major[1..], lowered)
      case Some(k) => Some(k + 1)
      case None => None
  }

  /** The trait id a selection stands for: a number is an id, a name is looked up among the major traits. */
  function ChosenId(major: seq<TraitInfo>, input: Option<Scalar>): Option<int> {
    if !Truthy(input) then None
    else match input.value
      case Num(n) => Some(n)
      case Str(s) =>
        match FirstNamed(major, Lower(s))
        case Some(k) => Some(major[k].id)
        case None => None
  }

  /** One entry of the result: one plus the chosen trait's place in its tier, or `0`. */
  function TierChoice(tier: seq<TraitInfo>, major: seq<TraitInfo>, input: Option<Scalar>): (c: nat)
    ensures c <= |tier|
  {
    match ChosenId(major, input)
    case None => 0
    case Some(id) =>
      match PositionOf(tier, id)
      case Some(k) => k + 1
      case None => 0
  }

  /**
   * A non-zero entry is one plus the first place in the tier of the chosen id;
   * the entry is `0` exactly when nothing is chosen or the tier lacks the id.
   */
  lemma TierChoiceMeaning(tier: seq<TraitInfo>, major: seq<TraitInfo>, input: Option<Scalar>)
    ensures var c := TierChoice(tier, major, input);
      && (c > 0 ==> (ChosenId(major, input) == Some(tier[c - 1].id)
                     && forall j :: 0 <= j < c - 1 ==> tier[j].id != tier[c - 1].id))
      && (c == 0 <==> (ChosenId(major, input).None?
                       || forall j :: 0 <= j < |tier| ==> tier[j].id != ChosenId(major, input).value))
  {
  }

  /** The selection at position `i` of the optional triple; a short list reads as `undefined`. */
  function InputAt(traits: Option<seq<Option<Scalar>>>, i: nat): Option<Scalar> {
    if traits.Some? && i < |traits.value| then traits.value[i] else None
  }

  /** What `resolveTraitChoices` returns: one entry per tier. */
  function ExpectedChoices(spec: Specialization, traits: Option<seq<Option<Scalar>>>,
                           allTraits: seq<TraitInfo>): seq<int> {
    var major := MajorTraits(spec, allTraits);
    seq(3, i requires 0 <= i < 3 => TierChoice(TierTraits(major, i + 1), major, InputAt(traits, i)))
  }

  /**
   * `resolveTraitChoices`: for each of the three tiers, the 1-based place of
   * the chosen trait among that tier's major traits sorted by order, or `0`.
   */
  method ResolveTraitChoices(spec: Specialization, traits: Option<seq<Option<Scalar>>>,
                             allTraits: seq<TraitInfo>) returns (result: seq<int>)
    ensures result == ExpectedChoices(spec, traits, allTraits)
  {
    if traits.None? {
      NoSelectionNoChoice(spec, allTraits);
      return [0, 0, 0];
    }
    result := [0, 0, 0];
    var major := MajorTraits(spec, allTraits);
    var byTier := seq(3, k => TierTraits(major, k + 1));
    ghost var expected := ExpectedChoices(spec, traits, allTraits);
    assert |expected| == 3;
    for i := 0 to 3
      invariant |result| == 3
      invariant forall k :: 0 <= k < i ==> result[k] == expected[k]
    {
      var input := if i < |traits.value| then traits.value[i] else None;
      assert input == InputAt(traits, i);
      var choice := TierChoice(byTier[i], major, input);
      assert choice == expected[i];
      result := result[i := choice];
    }
  }

  /** Without a selection every entry is `0`. */
  lemma NoSelectionNoChoice(spec: Specialization, allTraits: seq<TraitInfo>)
    ensures ExpectedChoices(spec, None, allTraits) == [0, 0, 0]
  {
    var choices := ExpectedChoices(spec, None, allTraits);
    forall i | 0 <= i < 3 ensures choices[i] == 0 {
      assert InputAt(None, i) == None;
      assert ChosenId(MajorTraits(spec, allTraits), None) == None;
    }
  }

  /**
   * An entry lies between `0` and the size of its tier, and a non-zero entry
   * points at a major trait of that tier carrying the chosen id.
   */
  lemma ChoiceWithinTier(spec: Specialization, allTraits: seq<TraitInfo>, tierNo: int, input: Option<Scalar>)
    ensures var major := MajorTraits(spec, allTraits);
      var tier := TierTraits(major, tierNo);
      var c := TierChoice(tier, major, input);
      0 <= c <= |tier|
      && (c > 0 ==> tier[c - 1] in allTraits && tier[c - 1].id in spec.majorTraits
                    && tier[c - 1].tier == tierNo && ChosenId(major, input) == Some(tier[c - 1].id))
  {
    var major := MajorTraits(spec, allTraits);
    var tier := TierTraits(major, tierNo);
    var c := TierChoice(tier, major, input);
    TierTraitsSorted(major, tierNo);
    TierChoiceMeaning(tier, major, input);
    if c > 0 {
      assert tier[c - 1] in tier;
    }
  }

  /** Trait names are matched without regard to case. */
  lemma TraitNamesIgnoreCase(major: seq<TraitInfo>, s: string)
    ensures ChosenId(major, Some(Str(s))) == ChosenId(major, Some(Str(Lower(s))))
  {
    LowerIdempotent(s);
  }

  /** A name that no major trait carries, or one found in another tier, gives `0`. */
  lemma UnknownNameGivesZero(major: seq<TraitInfo>, tier: seq<TraitInfo>, s: string)
    requires forall t :: t in major ==> Lower(t.name) != Lower(s) || forall u :: u in tier ==> u.id != t.id
    ensures TierChoice(tier, major, Some(Str(s))) == 0
  {
    TierChoiceMeaning(tier, major, Some(Str(s)));
  }

  // ---------------------------------------------------------------- palettes

  /** `(paletteId, skillId)` pairs keyed the other way round: `(skillId, paletteId)`. */
  function Flip(pairs: seq<(int, int)>): (r: seq<(int, int)>)
    ensures |r| == |pairs| && forall k :: 0 <= k < |pairs| ==> r[k] == (pairs[k].1, pairs[k].0)
  {
    seq(|pairs|, k requires 0 <= k < |pairs| => (pairs[k].1, pairs[k].0))
  }

  /** The map that `map.set(key, value)` over the pairs in order leaves: a later pair overwrites. */
  function LastWins(pairs: seq<(int, int)>): map<int, int> {
    if pairs == [] then map[]
    else
      var n := |pairs| - 1;
      LastWins(pairs[..n])[pairs[n].0 := pairs[n].1]
  }

  /** The index of the last pair with the given key. */
  function LastWith(pairs: seq<(int, int)>, key: int): (j: Option<nat>)
    ensures j.Some? ==> (j.value < |pairs| && pairs[j.value].0 == key
                         && forall k :: j.value < k < |pairs| ==> pairs[k].0 != key)
    ensures j.None? ==> forall k :: 0 <= k < |pairs| ==> pairs[k].0 != key
  {
    if pairs == [] then None
    else
      var n := |pairs| - 1;
      if pairs[n].0 == key then Some(n)
      else
        var j := LastWith(pairs[..n], key);
        assert forall k :: 0 <= k < n ==> pairs[..n][k] == pairs[k];
        j
  }

  /** A key is in the map exactly when some pair carries it, and it maps to the value of the last such pair. */
  lemma {:induction false} LastWinsLookup(pairs: seq<(int, int)>, key: int)
    ensures key in LastWins(pairs) <==> LastWith(pairs, key).Some?
    ensures key in LastWins(pairs) ==> LastWins(pairs)[key] == pairs[LastWith(pairs, key).value].1
  {
    if pairs != [] {
      var n := |pairs| - 1;
      LastWinsLookup(pairs[..n], key);
      if pairs[n].0 != key {
        var j := LastWith(pairs[..n], key);
        if j.Some? {
          assert pairs[..n][j.value] == pairs[j.value];
        }
      }
    }
  }

  /**
   * The palette loop of `getProfessionDetails`: for each `[paletteId, skillId]`
   * pair, `paletteById.set(paletteId, …)` and `paletteBySkillId.set(skillId, paletteId)`.
   */
  method BuildPaletteMaps(pairs: seq<(int, int)>) returns (paletteById: map<int, int>, paletteBySkillId: map<int, int>)
    ensures paletteById == LastWins(pairs)
    ensures paletteBySkillId == LastWins(Flip(pairs))
  {
    paletteById, paletteBySkillId := map[], map[];
    for i := 0 to |pairs|
      invariant paletteById == LastWins(pairs[..i])
      invariant paletteBySkillId == LastWins(Flip(pairs)[..i])
    {
      var (paletteId, skillId) := pairs[i];
      assert pairs[..i + 1][..i] == pairs[..i];
      assert Flip(pairs)[..i + 1][..i] == Flip(pairs)[..i];
      paletteById := paletteById[paletteId := skillId];
      paletteBySkillId := paletteBySkillId[skillId := paletteId];
    }
    assert pairs[..|pairs|] == pairs;
    assert Flip(pairs)[..|pairs|] == Flip(pairs);
  }

  /** What `getProfessionDetails` returns: the profession and its two palette maps. */
  datatype ProfessionDetails = ProfessionDetails(
    id: string, code: int, name: string, paletteById: map<int, int>, paletteBySkillId: map<int, int>)

  /** The outcome of fetching a profession: a failed request, or its `skills_by_palette` list if it has one. */
  datatype FetchOutcome = FetchFailed | Fetched(skillsByPalette: Option<seq<(int, int)>>)

  /** The details of a profession that is not cached yet: they need a known profession. */
  function FreshDetails(id: string, fetched: FetchOutcome): (r: Result<ProfessionDetails, string>)
    ensures r.Ok? <==> ResolveProfession(Str(id)).Ok?
    ensures r.Ok? ==> r.value.id == id && r.value.name == id && r.value.code == ResolveProfession(Str(id)).value.code
    ensures r.Ok? && (fetched.FetchFailed? || fetched.skillsByPalette.None?) ==>
      r.value.paletteById == map[] && r.value.paletteBySkillId == map[]
  {
    match ResolveProfession(Str(id))
    case Err(e) => Err(e)
    case Ok(summary) =>
      var pairs := if fetched.Fetched? && fetched.skillsByPalette.Some? then fetched.skillsByPalette.value else [];
      Ok(ProfessionDetails(id, summary.code, id, LastWins(pairs), LastWins(Flip(pairs))))
  }

  /** The details of one profession: the cached entry if there is one, else fresh ones. */
  function DetailsFor(cache: map<string, ProfessionDetails>, id: string, fetched: FetchOutcome): Result<ProfessionDetails, string> {
    if id in cache then Ok(cache[id]) else FreshDetails(id, fetched)
  }

  /** The cache after a lookup: fresh details are kept only when the fetch succeeded. */
  function CacheAfter(cache: map<string, ProfessionDetails>, id: string, fetched: FetchOutcome): map<string, ProfessionDetails> {
    if id !in cache && fetched.Fetched? && FreshDetails(id, fetched).Ok? then cache[id := FreshDetails(id, fetched).value]
    else cache
  }

  /** Every cached entry is the details of a known profession, filed under its own id. */
  predicate CacheValid(cache: map<string, ProfessionDetails>) {
    forall id :: id in cache ==>
      (cache[id].id == id && ResolveProfession(Str(id)).Ok?
       && cache[id].code == ResolveProfession(Str(id)).value.code)
  }

  /** A lookup keeps the cache valid and only ever adds to it. */
  lemma CacheAfterValid(cache: map<string, ProfessionDetails>, id: string, fetched: FetchOutcome)
    requires CacheValid(cache)
    ensures CacheValid(CacheAfter(cache, id, fetched))
    ensures forall k :: k in cache ==> k in CacheAfter(cache, id, fetched) && CacheAfter(cache, id, fetched)[k] == cache[k]
  {
    if id !in cache && fetched.Fetched? && FreshDetails(id, fetched).Ok? {
      var d := FreshDetails(id, fetched).value;
      var after := cache[id := d];
      forall k | k in after
        ensures after[k].id == k && ResolveProfession(Str(k)).Ok? && after[k].code == ResolveProfession(Str(k)).value.code
      {
        if k != id {
          assert after[k] == cache[k];
        }
      }
    }
  }

  /** Once fetched, a profession's details are answered from the cache, whatever a later fetch would give. */
  lemma CachedDetailsAreStable(cache: map<string, ProfessionDetails>, id: string, first: FetchOutcome, later: FetchOutcome)
    requires first.Fetched? && DetailsFor(cache, id, first).Ok?
    ensures DetailsFor(CacheAfter(cache, id, first), id, later) == DetailsFor(cache, id, first)
  {
  }

  /** What `resolveSkillPalette` returns. */
  datatype PaletteRef = PaletteRef(paletteId: int, skillId: Option<int>, name: Option<string>)

  /** A skill of the profession, as `getSkills` lists it. */
  datatype SkillInfo = SkillInfo(id: int, name: string)

  /** The first skill whose name matches, ignoring case. */
  function FirstSkillNamed(skills: seq<SkillInfo>, lowered: string): (k: Option<nat>)
    ensures k.Some? ==> (k.value < |skills| && Lower(skills[k.value].name) == lowered
                         && forall j :: 0 <= j < k.value ==> Lower(skills[j].name) != lowered)
    ensures k.None? ==> forall j :: 0 <= j < |skills| ==> Lower(skills[j].name) != lowered
  {
    if skills == [] then None
    else if Lower(skills[0].name) == lowered then Some(0)
    else match FirstSkillNamed(skills[1..], lowered)
      case Some(k) => Some(k + 1)
      case None => None
  }

  /**
   * The decision of `resolveSkillPalette` once the details are known. A number
   * is tried as a skill id, then as a palette id, and is otherwise both; a name
   * is looked up among the profession's skills. `skillName` is the skill lookup,
   * `None` when it fails.
   */
  function PaletteFor(d: ProfessionDetails, value: Scalar, skillName: int -> Option<string>,
                      skills: seq<SkillInfo>): (r: PaletteRef)
    ensures r.name.Some? ==> r.skillId.Some?
    ensures value.Num? && r.name.Some? ==> r.name == skillName(r.skillId.value)
  {
    match value
    case Num(v) =>
      if v in d.paletteBySkillId then PaletteRef(d.paletteBySkillId[v], Some(v), skillName(v))
      else if v in d.paletteById then
        var skillId := d.paletteById[v];
        PaletteRef(v, Some(skillId), skillName(skillId))
      else PaletteRef(v, Some(v), None)
    case Str(s) =>
      match FirstSkillNamed(skills, Lower(s))
      case Some(k) =>
        var found := skills[k];
        var mapped := if found.id in d.paletteBySkillId then d.paletteBySkillId[found.id] else 0;
        PaletteRef(if mapped != 0 then mapped else found.id, Some(found.id), Some(found.name))
      case None => PaletteRef(0, None, None)
  }

  /** A number that is a skill id is read as one, even when it is also a palette id. */
  lemma SkillIdTakesPrecedence(d: ProfessionDetails, v: int, skillName: int -> Option<string>, skills: seq<SkillInfo>)
    requires v in d.paletteBySkillId
    ensures PaletteFor(d, Num(v), skillName, skills).paletteId == d.paletteBySkillId[v]
    ensures PaletteFor(d, Num(v), skillName, skills).skillId == Some(v)
  {
  }

  /** A number that neither map knows stands for itself as palette and as skill. */
  lemma UnknownNumberIsIdentity(d: ProfessionDetails, v: int, skillName: int -> Option<string>, skills: seq<SkillInfo>)
    requires v !in d.paletteBySkillId && v !in d.paletteById
    ensures PaletteFor(d, Num(v), skillName, skills) == PaletteRef(v, Some(v), None)
  {
  }

  /**
   * Encoding then decoding: when a pair is the last one for its palette and for
   * its skill, and the palette id is not also a skill id, the skill resolves to
   * the palette and the palette back to the skill.
   */
  lemma PaletteRoundTrip(pairs: seq<(int, int)>, j: nat, d: ProfessionDetails,
                         skillName: int -> Option<string>, skills: seq<SkillInfo>)
    requires j < |pairs| && d.paletteById == LastWins(pairs) && d.paletteBySkillId == LastWins(Flip(pairs))
    requires forall k :: j < k < |pairs| ==> pairs[k].0 != pairs[j].0 && pairs[k].1 != pairs[j].1
    requires pairs[j].0 !in d.paletteBySkillId
    ensures PaletteFor(d, Num(pairs[j].1), skillName, skills).paletteId == pairs[j].0
    ensures PaletteFor(d, Num(pairs[j].0), skillName, skills).skillId == Some(pairs[j].1)
  {
    var (p, sk) := pairs[j];
    LastWinsLookup(pairs, p);
    LastWinsLookup(Flip(pairs), sk);
    assert Flip(pairs)[j] == (sk, p);
    assert LastWith(pairs, p) == Some(j) by {
      var m := LastWith(pairs, p);
      assert m.Some? && m.value >= j;
    }
    assert LastWith(Flip(pairs), sk) == Some(j) by {
      var m := LastWith(Flip(pairs), sk);
      assert m.Some? && m.value >= j;
    }
  }

  /** A name that no skill of the profession carries resolves to palette `0`. */
  lemma UnknownSkillNameGivesZero(d: ProfessionDetails, s: string, skillName: int -> Option<string>, skills: seq<SkillInfo>)
    requires forall k :: 0 <= k < |skills| ==> Lower(skills[k].name) != Lower(s)
    ensures PaletteFor(d, Str(s), skillName, skills) == PaletteRef(0, None, None)
  {
  }

  // ---------------------------------------------------------------- the client

  /** `LocalGw2ApiClient`: its one piece of state is the cache of profession details. */
  class LocalClient {
    var professionDetailsCache: map<string, ProfessionDetails>

    predicate Valid()
      reads this
    {
      CacheValid(professionDetailsCache)
    }

    constructor ()
      ensures Valid() && professionDetailsCache == map[]
    {
      professionDetailsCache := map[];
    }

    /**
     * `getProfessionDetails`: the cached details, or details built from the
     * fetched palette pairs, cached only when the fetch succeeded; an unknown
     * profession throws.
     */
    method GetProfessionDetails(id: string, fetched: FetchOutcome) returns (r: Result<ProfessionDetails, string>)
      requires Valid()
      modifies this
      ensures Valid()
      ensures r == DetailsFor(old(professionDetailsCache), id, fetched)
      ensures professionDetailsCache == CacheAfter(old(professionDetailsCache), id, fetched)
    {
      if id in professionDetailsCache {
        return Ok(professionDetailsCache[id]);
      }
      var summary := ResolveProfession(Str(id));
      if summary.Err? {
        return Err(summary.error);
      }
      var pairs := if fetched.Fetched? && fetched.skillsByPalette.Some? then fetched.skillsByPalette.value else [];
      var paletteById, paletteBySkillId := BuildPaletteMaps(pairs);
      var details := ProfessionDetails(id, summary.value.code, id, paletteById, paletteBySkillId);
      if fetched.Fetched? {
        professionDetailsCache := professionDetailsCache[id := details];
      }
      r := Ok(details);
      CacheAfterValid(old(professionDetailsCache), id, fetched);
    }

    /**
     * `resolveSkillPalette`: palette `0` for a falsy value without touching the
     * cache; otherwise the decision of `PaletteFor` on the profession's details.
     */
    method ResolveSkillPalette(professionId: string, value: Option<Scalar>, fetched: FetchOutcome,
                               skillName: int -> Option<string>, skills: seq<SkillInfo>)
      returns (r: Result<PaletteRef, string>)
      requires Valid()
      modifies this
      ensures Valid()
      ensures !Truthy(value) ==> r == Ok(PaletteRef(0, None, None)) && professionDetailsCache == old(professionDetailsCache)
      ensures Truthy(value) ==> professionDetailsCache == CacheAfter(old(professionDetailsCache), professionId, fetched)
      ensures Truthy(value) ==> r == match DetailsFor(old(professionDetailsCache), professionId, fetched)
        case Ok(d) => Ok(PaletteFor(d, value.value, skillName, skills))
        case Err(e) => Err(e)
    {
      if !Truthy(value) {
        return Ok(PaletteRef(0, None, None));
      }
      var details := GetProfessionDetails(professionId, fetched);
      match details
      case Err(e) => r := Err(e);
      case Ok(d) => r := Ok(PaletteFor(d, value.value, skillName, skills));
    }
  }

  // ---------------------------------------------------------------- names of traits and skills

  /** An id with the name the lookup found for it, if any. */
  datatype NamedId = NamedId(id: int, name: Option<string>)

  /**
   * `getTraitData` and `getSkillData`: one entry per requested id, the looked-up
   * id and name when the lookup succeeds and the bare id when it fails.
   */
  method LoadNamedIds(ids: seq<int>, lookup: int -> Option<(int, string)>) returns (result: map<int, NamedId>)
    ensures result.Keys == set k | 0 <= k < |ids| :: ids[k]
    ensures forall id :: id in result ==> result[id] == NamedOf(id, lookup)
  {
    result := map[];
    for i := 0 to |ids|
      invariant result.Keys == set k | 0 <= k < i :: ids[k]
      invariant forall id :: id in result ==> result[id] == NamedOf(id, lookup)
    {
      result := result[ids[i] := NamedOf(ids[i], lookup)];
    }
  }

  function NamedOf(id: int, lookup: int -> Option<(int, string)>): (r: NamedId)
    ensures lookup(id).None? ==> r == NamedId(id, None)
  {
    match lookup(id)
    case Some((foundId, name)) => NamedId(foundId, Some(name))
    case None => NamedId(id, None)
  }
}

=== FILE: gw2_types.dfy ===
/**
 * The closed enumerations, constant lists and record shapes of a build
 * (src/types/gw2.ts). Names are kept as the source spells them; each
 * enumeration comes with the text it has in the serialized build.
 */
module Gw2Types {
  import opened Wrappers

  predicate Distinct<T(==)>(s: seq<T>) {
    forall i, j :: 0 <= i < j < |s| ==> s[i] != s[j]
  }

  // ---------------------------------------------------------------- professions

  datatype Profession =
    | Guardian | Warrior | Engineer | Ranger | Thief
    | Elementalist | Mesmer | Necromancer | Revenant

  /** The professions in the order the source lists them. */
  const Professions: seq<Profession> :=
    [Guardian, Warrior, Engineer, Ranger, Thief, Elementalist, Mesmer, Necromancer, Revenant]

  function ProfessionName(p: Profession): string {
    match p
    case Guardian => "Guardian"
    case Warrior => "Warrior"
    case Engineer => "Engineer"
    case Ranger => "Ranger"
    case Thief => "Thief"
    case Elementalist => "Elementalist"
    case Mesmer => "Mesmer"
    case Necromancer => "Necromancer"
    case Revenant => "Revenant"
  }

  /** Where a profession stands in the list (its 1-based profession code is one more). */
  function ProfessionIndex(p: Profession): (i: nat)
    ensures i < |Professions| && Professions[i] == p
  {
    match p
    case Guardian => 0
    case Warrior => 1
    case Engineer => 2
    case Ranger => 3
    case Thief => 4
    case Elementalist => 5
    case Mesmer => 6
    case Necromancer => 7
    case Revenant => 8
  }

  /** Exactly nine professions, each listed once, with nine different names. */
  lemma ProfessionsClosed()
    ensures |Professions| == 9 && Distinct(Professions)
    ensures forall p: Profession :: p in Professions
    ensures forall p, q: Profession :: ProfessionName(p) == ProfessionName(q) ==> p == q
  {
    forall p: Profession ensures p in Professions {
      assert Professions[ProfessionIndex(p)] == p;
    }
  }

  datatype WeightClass = Heavy | Medium | Light

  // ---------------------------------------------------------------- game modes

  datatype GameMode = PvE | PvP | WvW

  const GameModes: seq<GameMode> := [PvE, PvP, WvW]

  function GameModeName(m: GameMode): string {
    match m
    case PvE => "PvE"
    case PvP => "PvP"
    case WvW => "WvW"
  }

  /** Exactly three game modes with three different names. */
  lemma GameModesClosed()
    ensures |GameModes| == 3 && Distinct(GameModes)
    ensures forall m: GameMode :: m in GameModes
    ensures forall m, n: GameMode :: GameModeName(m) == GameModeName(n) ==> m == n
  {
    forall m: GameMode ensures m in GameModes {
      assert GameModes[if m == PvE then 0 else if m == PvP then 1 else 2] == m;
    }
  }

  // ---------------------------------------------------------------- equipment slots

  /** The union ArmorSlot | WeaponSlot | TrinketSlot of the source. */
  datatype Slot =
    | Helm | Shoulders | Coat | Gloves | Leggings | Boots
    | MainHand1 | OffHand1 | MainHand2 | OffHand2
    | Backpack | Accessory1 | Accessory2 | Amulet | Ring1 | Ring2

  const ArmorSlots: seq<Slot> := [Helm, Shoulders, Coat, Gloves, Leggings, Boots]
  const WeaponSlots: seq<Slot> := [MainHand1, OffHand1, MainHand2, OffHand2]
  const TrinketSlots: seq<Slot> := [Backpack, Accessory1, Accessory2, Amulet, Ring1, Ring2]

  function SlotName(s: Slot): string {
    match s
    case Helm => "Helm"
    case Shoulders => "Shoulders"
    case Coat => "Coat"
    case Gloves => "Gloves"
    case Leggings => "Leggings"
    case Boots => "Boots"
    case MainHand1 => "MainHand1"
    case OffHand1 => "OffHand1"
    case MainHand2 => "MainHand2"
    case OffHand2 => "OffHand2"
    case Backpack => "Backpack"
    case Accessory1 => "Accessory1"
    case Accessory2 => "Accessory2"
    case Amulet => "Amulet"
    case Ring1 => "Ring1"
    case Ring2 => "Ring2"
  }

  /** The text to slot lookup that a serialized build goes through. */
  function ParseSlot(name: string): (r: Option<Slot>)
    ensures r.Some? ==> SlotName(r.value) == name
  {
    if name == "Helm" then Some(Helm)
    else if name == "Shoulders" then Some(Shoulders)
    else if name == "Coat" then Some(Coat)
    else if name == "Gloves" then Some(Gloves)
    else if name == "Leggings" then Some(Leggings)
    else if name == "Boots" then Some(Boots)
    else if name == "MainHand1" then Some(MainHand1)
    else if name == "OffHand1" then Some(OffHand1)
    else if name == "MainHand2" then Some(MainHand2)
    else if name == "OffHand2" then Some(OffHand2)
    else if name == "Backpack" then Some(Backpack)
    else if name == "Accessory1" then Some(Accessory1)
    else if name == "Accessory2" then Some(Accessory2)
    else if name == "Amulet" then Some(Amulet)
    else if name == "Ring1" then Some(Ring1)
    else if name == "Ring2" then Some(Ring2)
    else None
  }

  /** Where a slot stands in the armor, weapon, trinket listing. */
  function SlotIndex(s: Slot): (i: nat)
    ensures i < 16 && (ArmorSlots + WeaponSlots + TrinketSlots)[i] == s
  {
    match s
    case Helm => 0
    case Shoulders => 1
    case Coat => 2
    case Gloves => 3
    case Leggings => 4
    case Boots => 5
    case MainHand1 => 6
    case OffHand1 => 7
    case MainHand2 => 8
    case OffHand2 => 9
    case Backpack => 10
    case Accessory1 => 11
    case Accessory2 => 12
    case Amulet => 13
    case Ring1 => 14
    case Ring2 => 15
  }

  /**
   * Six armor, four weapon and six trinket slots: sixteen in all, every slot in
   * exactly one group, and sixteen different names (so a name identifies its slot).
   */
  lemma SlotsPartitioned()
    ensures |ArmorSlots| == 6 && |WeaponSlots| == 4 && |TrinketSlots| == 6
    ensures Distinct(ArmorSlots + WeaponSlots + TrinketSlots)
    ensures forall s: Slot :: s in ArmorSlots + WeaponSlots + TrinketSlots
    ensures forall s: Slot :: ParseSlot(SlotName(s)) == Some(s)
  {
    var all := ArmorSlots + WeaponSlots + TrinketSlots;
    forall i, j | 0 <= i < j < |all| ensures all[i] != all[j] {
      SlotIndexOfListing(i);
      SlotIndexOfListing(j);
    }
    forall s: Slot ensures s in all {
      assert all[SlotIndex(s)] == s;
    }
    forall s: Slot ensures ParseSlot(SlotName(s)) == Some(s) {
      SlotNameParses(s);
    }
  }

  /** The slot at place `i` of the listing has index `i`. */
  lemma SlotIndexOfListing(i: nat)
    requires i < 16
    ensures SlotIndex((ArmorSlots + WeaponSlots + TrinketSlots)[i]) == i
  {
  }

  lemma SlotNameParses(s: Slot)
    ensures ParseSlot(SlotName(s)) == Some(s)
  {
    if s.Helm? || s.Shoulders? || s.Coat? || s.Gloves? || s.Leggings? || s.Boots? {
    } else if s.MainHand1? || s.OffHand1? || s.MainHand2? || s.OffHand2? {
    } else if s.Backpack? || s.Accessory1? || s.Accessory2? {
    } else {
    }
  }

  // ---------------------------------------------------------------- stat combos, infusions, ids

  /** The stat combination names the build type admits. */
  const StatCombos: seq<string> := [
    "Berserker", "Assassin", "Marauder", "Viper", "Sinister",
    "Celestial", "Diviner", "Harrier", "Minstrel", "Magi",
    "Soldier", "Cavalier", "Nomad", "Trailblazer", "Seraph",
    "Commander", "Vigilant", "Crusader", "Marshal", "Grieving",
    "Plaguedoctor", "Giver", "Dragon", "Ritualist", "Demolisher"
  ]

  datatype InfusionType =
    | Mighty | Precise | Malign | Expertise | Resilient | Vital | Healing | Concentration

  const Infusions: seq<InfusionType> :=
    [Mighty, Precise, Malign, Expertise, Resilient, Vital, Healing, Concentration]

  function InfusionName(i: InfusionType): string {
    match i
    case Mighty => "Mighty"
    case Precise => "Precise"
    case Malign => "Malign"
    case Expertise => "Expertise"
    case Resilient => "Resilient"
    case Vital => "Vital"
    case Healing => "Healing"
    case Concentration => "Concentration"
  }

  /** Exactly eight infusion types, each listed once. */
  lemma InfusionsClosed()
    ensures |Infusions| == 8 && Distinct(Infusions)
    ensures forall i: InfusionType :: i in Infusions
  {
    forall i: InfusionType ensures i in Infusions {
      var k := match i
        case Mighty => 0 case Precise => 1 case Malign => 2 case Expertise => 3
        case Resilient => 4 case Vital => 5 case Healing => 6 case Concentration => 7;
      assert Infusions[k] == i;
    }
  }

  const RuneIds: seq<nat> := [
    24836, 24723, 67339, 24818, 24848, 83338, 24800, 24842, 24762, 70600, 24765, 24687
  ]

  const RelicIds: seq<nat> := [
    100916, 100942, 100047, 100153, 100611, 101500, 100733, 100611, 100819, 100713, 100922, 100770
  ]

  /** The relic list names item 100611 twice (Akeem and Dragonhunter), so it is not duplicate-free. */
  lemma RelicIdsRepeat()
    ensures !Distinct(RelicIds)
    ensures RelicIds[4] == RelicIds[7] == 100611
  {
    assert RelicIds[4] == RelicIds[7];
  }

  // ---------------------------------------------------------------- build records

  /**
   * One equipped item. The slot, the combo and the infusions are names as text:
   * a build decoded from a link is never checked against the unions above, so
   * the stat calculator looks each one up by name and must cope with names its
   * tables lack. `weaponType` is read by the stat calculator although the
   * `Equipment` interface of the source does not declare it.
   */
  datatype Equipment = Equipment(
    slot: string,
    stat: string,
    upgrade: Option<string>,
    infusion1: Option<string>,
    infusion2: Option<string>,
    infusion3: Option<string>,
    weaponType: Option<string>)

  datatype SkillSelection = SkillSelection(
    heal: Option<int>,
    utility1: Option<int>,
    utility2: Option<int>,
    utility3: Option<int>,
    elite: Option<int>)

  /** A tier-choice triple: always three positions, each nullable on its own. */
  type TraitChoices = (Option<int>, Option<int>, Option<int>)

  datatype TraitSelection = TraitSelection(
    spec1: Option<int>,
    spec1Choices: Option<TraitChoices>,
    spec2: Option<int>,
    spec2Choices: Option<TraitChoices>,
    spec3: Option<int>,
    spec3Choices: Option<TraitChoices>)

  datatype BuildData = BuildData(
    profession: Profession,
    gameMode: GameMode,
    equipment: seq<Equipment>,
    skills: SkillSelection,
    traits: TraitSelection,
    runeId: Option<int>,
    relicId: Option<int>)
}

=== FILE: js_strings.dfy ===
/**
 * The JavaScript string operations the modelled code relies on, written out:
 * `toLowerCase`, the `\s` / `trim` whitespace class, line terminators (what `.`
 * in a regular expression refuses), `includes`, literal global `replace`,
 * `split` on one character, decimal printing of numbers and `parseInt(_, 10)`.
 */
module JsStrings {
  import opened Wrappers

  // ---------------------------------------------------------------- characters

  /** `toLowerCase` on one character; only ASCII letters are folded. */
  function LowerChar(c: char): char {
    if 'A' <= c <= 'Z' then (c as int + 32) as char else c
  }

  function Lower(s: string): (r: string)
    ensures |r| == |s| && forall i :: 0 <= i < |s| ==> r[i] == LowerChar(s[i])
  {
    if s == [] then [] else [LowerChar(s[0])] + Lower(s[1..])
  }

  /** Lower-casing twice is lower-casing once. */
  lemma {:induction false} LowerIdempotent(s: string)
    ensures Lower(Lower(s)) == Lower(s)
  {
    if s != [] {
      LowerIdempotent(s[1..]);
      assert Lower(s)[1..] == Lower(s[1..]);
    }
  }

  /** ECMAScript LineTerminator: the characters `.` does not match. */
  predicate IsLineTerminator(c: char) {
    c == '\n' || c == '\r' || c == '\U{2028}' || c == '\U{2029}'
  }

  /** ECMAScript WhiteSpace or LineTerminator: the class `\s` and what `trim` removes. */
  predicate IsSpace(c: char) {
    || IsLineTerminator(c)
    || c == '\t' || c == '\U{000B}' || c == '\U{000C}' || c == ' '
    || c == '\U{00A0}' || c == '\U{FEFF}' || c == '\U{1680}'
    || ('\U{2000}' <= c <= '\U{200A}')
    || c == '\U{202F}' || c == '\U{205F}' || c == '\U{3000}'
  }

  /** The regular-expression class `\d` (ASCII digits only). */
  predicate IsDigit(c: char) {
    '0' <= c <= '9'
  }

  /** The regular-expression class `\w`: ASCII letters, digits and underscore. */
  predicate IsWordChar(c: char) {
    ('a' <= c <= 'z') || ('A' <= c <= 'Z') || IsDigit(c) || c == '_'
  }

  // ---------------------------------------------------------------- searching

  /** What is left of a concatenation after its first part. */
  lemma DropAppend(a: string, b: string)
    ensures (a + b)[|a|..] == b
  {
  }

  /** Dropping twice is dropping the sum. */
  lemma DropDrop(s: string, a: nat, b: nat)
    requires a + b <= |s|
    ensures s[a..][b..] == s[a + b..]
  {
  }

  /** `s.includes(sub)`. */
  predicate Contains(s: string, sub: string)
    decreases |s|
  {
    sub <= s || (s != [] && Contains(s[1..], sub))
  }

  lemma {:induction false} ContainsChar(s: string, c: char)
    ensures Contains(s, [c]) <==> c in s
  {
    if s != [] {
      ContainsChar(s[1..], c);
      assert s == [s[0]] + s[1..];
    }
  }

  /** Text holding a pattern holds the pattern's first character. */
  lemma {:induction false} ContainsFirstChar(s: string, sub: string)
    requires sub != [] && Contains(s, sub)
    ensures sub[0] in s
    decreases |s|
  {
    if !(sub <= s) {
      ContainsFirstChar(s[1..], sub);
    }
  }

  /** `s.replace(/pat/g, rep)` for a pattern without metacharacters: leftmost, non-overlapping. */
  function ReplaceAll(s: string, pat: string, rep: string): string
    requires pat != []
    decreases |s|
  {
    if pat <= s then rep + ReplaceAll(s[|pat|..], pat, rep)
    else if s == [] then []
    else [s[0]] + ReplaceAll(s[1..], pat, rep)
  }

  /** Without an occurrence of the pattern, a global replace changes nothing. */
  lemma {:induction false} ReplaceAllAbsent(s: string, pat: string, rep: string)
    requires pat != [] && !Contains(s, pat)
    ensures ReplaceAll(s, pat, rep) == s
  {
    if s != [] {
      ReplaceAllAbsent(s[1..], pat, rep);
      assert s == [s[0]] + s[1..];
    }
  }

  /** Replacing every occurrence of one character leaves none behind, unless the replacement brings it back. */
  lemma {:induction false} ReplaceCharRemoves(s: string, c: char, rep: string)
    requires c !in rep
    ensures c !in ReplaceAll(s, [c], rep)
  {
    if [c] <= s {
      ReplaceCharRemoves(s[1..], c, rep);
    } else if s != [] {
      ReplaceCharRemoves(s[1..], c, rep);
    }
  }

  /** A global replace never introduces a character that neither the text nor the replacement has. */
  lemma {:induction false} ReplaceAllKeepsOut(s: string, pat: string, rep: string, c: char)
    requires pat != [] && c !in s && c !in rep
    ensures c !in ReplaceAll(s, pat, rep)
  {
    if pat <= s {
      ReplaceAllKeepsOut(s[|pat|..], pat, rep, c);
    } else if s != [] {
      ReplaceAllKeepsOut(s[1..], pat, rep, c);
    }
  }

  /** Every occurrence of `c` turned into `d`, character by character. */
  function SwapChar(s: string, c: char, d: char): (r: string)
    ensures |r| == |s|
  {
    seq(|s|, k requires 0 <= k < |s| => if s[k] == c then d else s[k])
  }

  /** A global replace of one character by one character is the character-wise swap. */
  lemma {:induction false} ReplaceAllOneChar(s: string, c: char, d: char)
    ensures ReplaceAll(s, [c], [d]) == SwapChar(s, c, d)
    decreases |s|
  {
    if s != [] {
      ReplaceAllOneChar(s[1..], c, d);
      assert SwapChar(s, c, d) == [if s[0] == c then d else s[0]] + SwapChar(s[1..], c, d);
    }
  }

  /** A global replace passes over a prefix that lacks the pattern's first character. */
  lemma {:induction false} ReplaceAllSkipsPrefix(w: string, p: string, pat: string, rep: string)
    requires pat != [] && pat[0] !in w
    ensures ReplaceAll(w + p, pat, rep) == w + ReplaceAll(p, pat, rep)
    decreases |w|
  {
    if w != [] {
      ReplaceAllSkipsPrefix(w[1..], p, pat, rep);
      assert (w + p)[0] == w[0] && (w + p)[1..] == w[1..] + p;
      assert !(pat <= w + p);
      assert ReplaceAll(w + p, pat, rep) == [w[0]] + ReplaceAll(w[1..] + p, pat, rep);
      assert w == [w[0]] + w[1..];
    } else {
      assert w + p == p;
    }
  }

  /** A pattern whose first character occurs once, at a known place, is replaced there only. */
  lemma ReplaceAllOnce(a: string, pat: string, rep: string, b: string)
    requires pat != [] && pat[0] !in a && pat[0] !in b
    ensures ReplaceAll(a + pat + b, pat, rep) == a + rep + b
  {
    assert a + pat + b == a + (pat + b);
    ReplaceAllSkipsPrefix(a, pat + b, pat, rep);
    assert (pat + b)[|pat|..] == b;
    ReplaceAllSkipsPrefix(b, [], pat, rep);
    assert b + [] == b;
    assert ReplaceAll([], pat, rep) == [];
  }

  /** No `a` in `s` is directly followed by `b`. */
  predicate NoPair(s: string, a: char, b: char) {
    forall k :: 0 <= k < |s| - 1 ==> !(s[k] == a && s[k + 1] == b)
  }

  /** Holding a two-character pattern is holding the pair at some position. */
  lemma {:induction false} ContainsPair(s: string, a: char, b: char)
    ensures Contains(s, [a, b]) <==> !NoPair(s, a, b)
    decreases |s|
  {
    if s != [] {
      ContainsPair(s[1..], a, b);
      assert [a, b] <= s <==> |s| >= 2 && s[0] == a && s[1] == b;
      assert NoPair(s, a, b) <==> !(|s| >= 2 && s[0] == a && s[1] == b) && NoPair(s[1..], a, b) by {
        assert forall k :: 1 <= k < |s| ==> s[k] == s[1..][k - 1];
      }
    }
  }

  /** Two texts without the pair are without it together unless the first ends in `a` and the second starts with `b`. */
  lemma NoPairConcat(x: string, y: string, a: char, b: char)
    requires NoPair(x, a, b) && NoPair(y, a, b)
    requires x == [] || y == [] || !(x[|x| - 1] == a && y[0] == b)
    ensures NoPair(x + y, a, b)
  {
    var s := x + y;
    forall k | 0 <= k < |s| - 1
      ensures !(s[k] == a && s[k + 1] == b)
    {
      if k + 1 < |x| {
        assert s[k] == x[k] && s[k + 1] == x[k + 1];
      } else if k + 1 == |x| {
        assert s[k] == x[|x| - 1] && s[k + 1] == y[0];
      } else {
        assert s[k] == y[k - |x|] && s[k + 1] == y[k - |x| + 1];
      }
    }
  }

  /**
   * A global replace of a two-character pattern leaves none behind when the
   * replacement neither holds its first character nor starts with its second.
   */
  lemma {:induction false} ReplacePairRemoves(s: string, a: char, b: char, rep: string)
    requires rep != [] && a !in rep && rep[0] != b
    ensures NoPair(ReplaceAll(s, [a, b], rep), a, b)
    decreases |s|
  {
    var pat := [a, b];
    if pat <= s {
      ReplacePairRemoves(s[2..], a, b, rep);
      NoPairConcat(rep, ReplaceAll(s[2..], pat, rep), a, b);
    } else if s != [] {
      var u := s[1..];
      var r := ReplaceAll(u, pat, rep);
      ReplacePairRemoves(u, a, b, rep);
      if s[0] == a && r != [] {
        if pat <= u {
          assert r[0] == rep[0];
        } else {
          assert r[0] == u[0] == s[1];
        }
      }
      NoPairConcat([s[0]], r, a, b);
    }
  }

  /**
   * A global replace of one character by a text holding neither `a` nor `b`
   * creates no `a` followed by `b`.
   */
  lemma {:induction false} ReplaceCharKeepsNoPair(s: string, c: char, rep: string, a: char, b: char)
    requires rep != [] && a !in rep && b !in rep && NoPair(s, a, b)
    ensures NoPair(ReplaceAll(s, [c], rep), a, b)
    decreases |s|
  {
    if s != [] {
      var u := s[1..];
      var r := ReplaceAll(u, [c], rep);
      assert NoPair(u, a, b) by {
        assert forall k :: 0 <= k < |u| ==> u[k] == s[k + 1];
      }
      ReplaceCharKeepsNoPair(u, c, rep, a, b);
      if [c] <= s {
        NoPairConcat(rep, r, a, b);
      } else {
        if s[0] == a && r != [] {
          if [c] <= u {
            assert r[0] == rep[0];
          } else {
            assert r[0] == u[0] == s[1];
          }
        }
        NoPairConcat([s[0]], r, a, b);
      }
    }
  }

  /** `c.repeat(n)`. */
  function Repeat(c: char, n: nat): (r: string)
    ensures |r| == n && forall k :: 0 <= k < n ==> r[k] == c
  {
    seq(n, _ => c)
  }

  // ---------------------------------------------------------------- trimming

  function TrimStart(s: string): (r: string)
    ensures r == [] || !IsSpace(r[0])
    ensures |r| <= |s| && r == s[|s| - |r|..]
  {
    if s != [] && IsSpace(s[0]) then TrimStart(s[1..]) else s
  }

  function TrimEnd(s: string): (r: string)
    ensures r == [] || !IsSpace(r[|r| - 1])
    ensures r <= s
  {
    if s != [] && IsSpace(s[|s| - 1]) then TrimEnd(s[..|s| - 1]) else s
  }

  /** `s.trim()`. */
  function Trim(s: string): (r: string)
    ensures r == [] || (!IsSpace(r[0]) && !IsSpace(r[|r| - 1]))
  {
    var u := TrimStart(s);
    var r := TrimEnd(u);
    assert r != [] ==> r[0] == u[0];
    r
  }

  /** Trimming adds no character. */
  lemma TrimKeepsOut(s: string, c: char)
    requires c !in s
    ensures c !in Trim(s)
  {
  }

  /** Lower-casing adds no character other than a small letter. */
  lemma LowerKeepsOut(s: string, c: char)
    requires !('a' <= c <= 'z') && c !in s
    ensures c !in Lower(s)
  {
  }

  /** Lower-casing keeps a trimmed text trimmed. */
  lemma LowerKeepsTrimmed(s: string)
    requires s != [] && !IsSpace(s[0]) && !IsSpace(s[|s| - 1])
    ensures !IsSpace(Lower(s)[0]) && !IsSpace(Lower(s)[|s| - 1])
  {
    LowerCharKeepsSpace(s[0]);
    LowerCharKeepsSpace(s[|s| - 1]);
  }

  lemma LowerCharKeepsSpace(c: char)
    ensures IsSpace(LowerChar(c)) <==> IsSpace(c)
  {
    if 'A' <= c <= 'Z' {
      assert 'a' <= LowerChar(c) <= 'z';
    }
  }

  // ---------------------------------------------------------------- splitting

  /** `parts.join(sep)`. */
  function Join(parts: seq<string>, sep: string): string {
    if parts == [] then ""
    else if |parts| == 1 then parts[0]
    else parts[0] + sep + Join(parts[1..], sep)
  }

  /** `s.split(sep)` for a one-character separator: always at least one piece. */
  function Split(s: string, sep: char): (r: seq<string>)
    ensures |r| >= 1
    ensures forall k :: 0 <= k < |r| ==> sep !in r[k]
  {
    if s == [] then [""]
    else
      var rest := Split(s[1..], sep);
      if s[0] == sep then [""] + rest else [[s[0]] + rest[0]] + rest[1..]
  }

  /** Joining the pieces of a split with the separator gives the text back. */
  lemma {:induction false} SplitJoin(s: string, sep: char)
    ensures Join(Split(s, sep), [sep]) == s
  {
    if s != [] {
      var rest := Split(s[1..], sep);
      SplitJoin(s[1..], sep);
      assert s == [s[0]] + s[1..];
      if s[0] == sep {
        assert ([""] + rest)[1..] == rest;
      } else {
        var parts := [[s[0]] + rest[0]] + rest[1..];
        if |rest| > 1 {
          assert parts[1..] == rest[1..];
          assert Join(parts, [sep]) == [s[0]] + (rest[0] + [sep] + Join(rest[1..], [sep]));
        }
      }
    }
  }

  // ---------------------------------------------------------------- numbers

  function DigitChar(d: nat): char
    requires d < 10
  {
    ('0' as int + d) as char
  }

  function DigitValue(c: char): nat
    requires IsDigit(c)
  {
    c as int - '0' as int
  }

  /** Decimal text of a natural number, as `String(n)` prints it. */
  function NatToString(n: nat): (r: string)
    decreases n
  {
    if n < 10 then [DigitChar(n)] else NatToString(n / 10) + [DigitChar(n % 10)]
  }

  /** `String(i)` for an integer. */
  function IntToString(i: int): string {
    if i < 0 then "-" + NatToString(-i) else NatToString(i)
  }

  predicate AllDigits(s: string) {
    forall k :: 0 <= k < |s| ==> IsDigit(s[k])
  }

  /** The value of a run of decimal digits, as `parseInt(digits, 10)` reads it. */
  function DigitsValue(s: string): nat
    requires AllDigits(s)
    decreases |s|
  {
    if s == [] then 0 else DigitsValue(s[..|s| - 1]) * 10 + DigitValue(s[|s| - 1])
  }

  /** Printing a natural number gives a non-empty digit run that reads back as the number. */
  lemma {:induction false} NatToStringDigits(n: nat)
    ensures NatToString(n) != [] && AllDigits(NatToString(n))
    ensures DigitsValue(NatToString(n)) == n
    decreases n
  {
    if n >= 10 {
      NatToStringDigits(n / 10);
      var s := NatToString(n);
      assert s[..|s| - 1] == NatToString(n / 10);
    }
  }

  /** A number of two or more digits never prints as a single character. */
  lemma {:induction false} NatToStringLength(n: nat)
    ensures |NatToString(n)| == 1 <==> n < 10
    decreases n
  {
    if n >= 10 {
      NatToStringLength(n / 10);
    }
  }

  /** Length of the run of decimal digits at the start of `s`. */
  function DigitRun(s: string): (k: nat)
    ensures k <= |s| && AllDigits(s[..k])
    ensures k == |s| || !IsDigit(s[k])
  {
    if s != [] && IsDigit(s[0]) then
      var k := 1 + DigitRun(s[1..]);
      assert s[..k] == [s[0]] + s[1..][..k - 1];
      k
    else 0
  }

  lemma {:induction false} DigitRunAll(s: string)
    requires AllDigits(s)
    ensures DigitRun(s) == |s|
  {
    if s != [] {
      DigitRunAll(s[1..]);
    }
  }

  /** A digit run stops where the digits stop. */
  lemma {:induction false} DigitRunOfConcat(d: string, rest: string)
    requires AllDigits(d) && (rest == [] || !IsDigit(rest[0]))
    ensures DigitRun(d + rest) == |d|
    decreases |d|
  {
    if d == [] {
      assert d + rest == rest;
    } else {
      DigitRunOfConcat(d[1..], rest);
      assert (d + rest)[1..] == d[1..] + rest;
    }
  }

  /** Length of the run of `\w` characters at the start of `s` (what a greedy `\w+` takes). */
  function WordRun(s: string): (k: nat)
    ensures k <= |s| && (forall i :: 0 <= i < k ==> IsWordChar(s[i]))
    ensures k == |s| || !IsWordChar(s[k])
  {
    if s != [] && IsWordChar(s[0]) then
      var k := 1 + WordRun(s[1..]);
      assert forall i :: 1 <= i < k ==> s[i] == s[1..][i - 1];
      k
    else 0
  }

  lemma {:induction false} WordRunOfConcat(w: string, rest: string)
    requires (forall i :: 0 <= i < |w| ==> IsWordChar(w[i])) && (rest == [] || !IsWordChar(rest[0]))
    ensures WordRun(w + rest) == |w|
    decreases |w|
  {
    if w == [] {
      assert w + rest == rest;
    } else {
      WordRunOfConcat(w[1..], rest);
      assert (w + rest)[1..] == w[1..] + rest;
    }
  }

  /** Length of the run of `\s` characters at the start of `s` (what a greedy `\s+` takes). */
  function SpaceRun(s: string): (k: nat)
    ensures k <= |s| && (forall i :: 0 <= i < k ==> IsSpace(s[i]))
    ensures k == |s| || !IsSpace(s[k])
  {
    if s != [] && IsSpace(s[0]) then
      var k := 1 + SpaceRun(s[1..]);
      assert forall i :: 1 <= i < k ==> s[i] == s[1..][i - 1];
      k
    else 0
  }

  /** Length of the run of characters `.` accepts at the start of `s` (what a greedy `.+` takes). */
  function NonTerminatorRun(s: string): (k: nat)
    ensures k <= |s| && (forall i :: 0 <= i < k ==> !IsLineTerminator(s[i]))
    ensures k == |s| || IsLineTerminator(s[k])
  {
    if s != [] && !IsLineTerminator(s[0]) then
      var k := 1 + NonTerminatorRun(s[1..]);
      assert forall i :: 1 <= i < k ==> s[i] == s[1..][i - 1];
      k
    else 0
  }

  /** The longest run of digits at the start of `u`, read as a number; `None` when there is none. */
  function LeadingNumber(u: string): Option<nat> {
    var k := DigitRun(u);
    if k == 0 then None else Some(DigitsValue(u[..k]))
  }

  /**
   * `parseInt(s, 10)`: skip leading whitespace, read an optional sign and the
   * longest run of decimal digits; `None` stands for `NaN` (no digit found).
   */
  function ParseInt(s: string): Option<int> {
    SignedNumber(TrimStart(s))
  }

  /** An optional sign followed by the leading digit run of what is left. */
  function SignedNumber(t: string): Option<int> {
    if t != [] && t[0] == '-' then
      match LeadingNumber(t[1..])
      case None => None
      case Some(v) => Some(-(v as int))
    else if t != [] && t[0] == '+' then LeadingNumber(t[1..])
    else LeadingNumber(t)
  }

  /** `parseInt` reads back what `String` printed for any natural number. */
  lemma {:induction false} ParseIntOfNat(n: nat)
    ensures ParseInt(NatToString(n)) == Some(n as int)
  {
    var s := NatToString(n);
    NatToStringDigits(n);
    LeadingNumberOfDigits(s);
    DigitStartsNumber(s);
  }

  /** Text that starts with a digit is neither trimmed nor read as signed. */
  lemma DigitStartsNumber(s: string)
    requires s != [] && IsDigit(s[0])
    ensures TrimStart(s) == s && SignedNumber(s) == LeadingNumber(s)
  {
    assert !IsSpace(s[0]);
  }

  lemma {:induction false} LeadingNumberOfDigits(s: string)
    requires s != [] && AllDigits(s)
    ensures LeadingNumber(s) == Some(DigitsValue(s))
  {
    DigitRunAll(s);
    assert s[..|s|] == s;
  }
}

=== FILE: mode_utils.dfy ===
/**
 * Game-mode resolution (src/lib/modeUtils.ts): a skill or trait carries a
 * default version and optional PvE, PvP and WvW versions; the active game mode
 * picks its own version when it exists and the default otherwise.
 */
module ModeUtils {
  import opened Wrappers
  import opened JsStrings
  import opened Gw2Types

  /** The keys of a mode bundle. */
  datatype ModeKey = Default | Pve | Pvp | Wvw

  function ModeKeyName(k: ModeKey): string {
    match k
    case Default => "default"
    case Pve => "pve"
    case Pvp => "pvp"
    case Wvw => "wvw"
  }

  /** A default version and one optional version per game mode. */
  datatype ModeBundle<T> = ModeBundle(default: T, pve: Option<T>, pvp: Option<T>, wvw: Option<T>)

  /** `bundle[key]`: the default is always there, the mode versions may be missing. */
  function Lookup<T>(bundle: ModeBundle<T>, key: ModeKey): Option<T> {
    match key
    case Default => Some(bundle.default)
    case Pve => bundle.pve
    case Pvp => bundle.pvp
    case Wvw => bundle.wvw
  }

  /** `gameModeToKey`: each game mode to its key, and no game mode to `default`. */
  function GameModeToKey(gameMode: Option<GameMode>): (key: ModeKey)
    ensures key == Default <==> gameMode.None?
  {
    match gameMode
    case None => Default
    case Some(PvE) => Pve
    case Some(PvP) => Pvp
    case Some(WvW) => Wvw
  }

  /** The key of a game mode is its name in lower case. */
  lemma GameModeKeyIsLowerName(m: GameMode)
    ensures ModeKeyName(GameModeToKey(Some(m))) == Lower(GameModeName(m))
  {
    var name := GameModeName(m);
    assert |name| == 3;
    assert Lower(name[2..]) == [LowerChar(name[2])] by { assert name[2..][1..] == []; }
    assert Lower(name[1..]) == [LowerChar(name[1])] + Lower(name[2..]) by { assert name[1..][1..] == name[2..]; }
    assert Lower(name) == [LowerChar(name[0])] + Lower(name[1..]);
  }

  /** Different game modes get different keys. */
  lemma GameModeToKeyInjective(m: GameMode, n: GameMode)
    requires GameModeToKey(Some(m)) == GameModeToKey(Some(n))
    ensures m == n
  {
  }

  /** `resolveMode`: the version for the mode's key when there is one, else the default. */
  function ResolveMode<T>(bundle: ModeBundle<T>, gameMode: Option<GameMode>): (r: T)
    ensures gameMode.None? ==> r == bundle.default
    ensures var v := Lookup(bundle, GameModeToKey(gameMode));
      r == (if v.Some? then v.value else bundle.default)
  {
    var key := GameModeToKey(gameMode);
    if key == Default then bundle.default
    else Lookup(bundle, key).GetOr(bundle.default)
  }

  /** The resolved version is the default or one of the mode versions that exist. */
  lemma ResolveModeChoices<T>(bundle: ModeBundle<T>, gameMode: Option<GameMode>)
    ensures var r := ResolveMode(bundle, gameMode);
      r == bundle.default || Some(r) == bundle.pve || Some(r) == bundle.pvp || Some(r) == bundle.wvw
    ensures bundle.pve.None? && bundle.pvp.None? && bundle.wvw.None? ==>
      ResolveMode(bundle, gameMode) == bundle.default
  {
  }

  /** A skill and a trait as the bundles of their per-mode data. */
  datatype SkillWithModes<D> = SkillWithModes(id: int, modes: ModeBundle<D>)
  datatype TraitWithModes<D> = TraitWithModes(id: int, modes: ModeBundle<D>)

  /** `resolveSkillMode`: `resolveMode` applied to the skill's bundle. */
  function ResolveSkillMode<D>(skill: SkillWithModes<D>, gameMode: Option<GameMode>): (r: D)
    ensures gameMode.None? ==> r == skill.modes.default
    ensures r == ResolveMode(skill.modes, gameMode)
  {
    ResolveMode(skill.modes, gameMode)
  }

  /** `resolveTraitMode`: `resolveMode` applied to the trait's bundle. */
  function ResolveTraitMode<D>(traitEntry: TraitWithModes<D>, gameMode: Option<GameMode>): (r: D)
    ensures gameMode.None? ==> r == traitEntry.modes.default
    ensures r == ResolveMode(traitEntry.modes, gameMode)
  {
    ResolveMode(traitEntry.modes, gameMode)
  }
}

=== FILE: stat_tables.dfy ===
/**
 * Attribute points an ascended item adds per slot (src/lib/statTables.ts):
 * one row of five values per armor slot, per trinket slot, and for a one- or
 * two-handed weapon, and the test that tells a weapon slot by its name.
 */
module StatTables {
  import opened Wrappers
  import opened Gw2Types

  /**
   * The points of one slot: the major and minor value of a three-attribute
   * combo, of a four-attribute combo, and the value of a nine-attribute combo.
   */
  datatype SlotStatValues = SlotStatValues(major3: int, minor3: int, major4: int, minor4: int, major9: int)

  /** `ASCENDED_ARMOR_STATS`: defined exactly on the armor slots. */
  function ArmorStats(s: Slot): Option<SlotStatValues> {
    match s
    case Helm => Some(SlotStatValues(63, 45, 54, 30, 30))
    case Shoulders => Some(SlotStatValues(47, 34, 40, 22, 22))
    case Coat => Some(SlotStatValues(141, 101, 121, 67, 67))
    case Gloves => Some(SlotStatValues(47, 34, 40, 22, 22))
    case Leggings => Some(SlotStatValues(94, 67, 81, 44, 44))
    case Boots => Some(SlotStatValues(47, 34, 40, 22, 22))
    case _ => None
  }

  /** `ASCENDED_TRINKET_STATS`: defined exactly on the trinket slots. */
  function TrinketStats(s: Slot): Option<SlotStatValues> {
    match s
    case Amulet => Some(SlotStatValues(157, 108, 133, 71, 72))
    case Ring1 => Some(SlotStatValues(126, 85, 106, 56, 57))
    case Ring2 => Some(SlotStatValues(126, 85, 106, 56, 57))
    case Accessory1 => Some(SlotStatValues(110, 74, 92, 49, 50))
    case Accessory2 => Some(SlotStatValues(110, 74, 92, 49, 50))
    case Backpack => Some(SlotStatValues(63, 40, 52, 27, 28))
    case _ => None
  }

  /** `ASCENDED_WEAPON_STATS`: only a one-handed and a two-handed row. */
  function WeaponStats(twoHanded: bool): SlotStatValues {
    if twoHanded then SlotStatValues(251, 179, 215, 118, 118)
    else SlotStatValues(125, 90, 108, 59, 59)
  }

  /** `isWeaponSlot`: the name is one of the four weapon slot names. */
  function IsWeaponSlot(slot: string): (r: bool)
    ensures r ==> ParseSlot(slot).Some? && ParseSlot(slot).value in WeaponSlots
  {
    slot == "MainHand1" || slot == "MainHand2" || slot == "OffHand1" || slot == "OffHand2"
  }

  /** A slot name passes the weapon test exactly when it names one of the weapon slots. */
  lemma IsWeaponSlotExact(s: Slot)
    ensures IsWeaponSlot(SlotName(s)) <==> s in WeaponSlots
  {
  }

  /** Every armor slot and every trinket slot has a row, and no other slot has one. */
  lemma TablesCoverTheirSlots(s: Slot)
    ensures ArmorStats(s).Some? <==> s in ArmorSlots
    ensures TrinketStats(s).Some? <==> s in TrinketSlots
  {
  }

  predicate MajorExceedsMinor(v: SlotStatValues) {
    v.major3 > v.minor3 && v.major4 > v.minor4
  }

  /** In every row the major value of a combo exceeds its minor value. */
  lemma EveryRowMajorExceedsMinor(s: Slot, twoHanded: bool)
    ensures ArmorStats(s).Some? ==> MajorExceedsMinor(ArmorStats(s).value)
    ensures TrinketStats(s).Some? ==> MajorExceedsMinor(TrinketStats(s).value)
    ensures MajorExceedsMinor(WeaponStats(twoHanded))
  {
  }

  /** Paired slots carry the same row. */
  lemma PairedSlotsEqual()
    ensures TrinketStats(Ring1) == TrinketStats(Ring2)
    ensures TrinketStats(Accessory1) == TrinketStats(Accessory2)
    ensures ArmorStats(Shoulders) == ArmorStats(Gloves) == ArmorStats(Boots)
  {
  }

  /** Each column of the two-handed row is at least the one-handed column. */
  lemma TwoHandedDominates()
    ensures var one, two := WeaponStats(false), WeaponStats(true);
      two.major3 >= one.major3 && two.minor3 >= one.minor3 && two.major4 >= one.major4
      && two.minor4 >= one.minor4 && two.major9 >= one.major9
  {
  }
}

=== FILE: stats_panel.dfy ===
/**
 * The attribute totals of the stat summary (src/components/StatsPanel.tsx):
 * base attributes, plus the points of every equipped item spread over its stat
 * combo by the combo's size, plus +5 per infusion, plus the bonuses of the
 * rune read from text such as "+25 Power" or "(4): +10% Boon Duration". The
 * integer Armor and Health derived from Toughness and Vitality come last.
 *
 * The list of two-handed weapon types, the base health and base armor tables
 * and the profession's weight class are not part of this model's sources and
 * are parameters.
 */
module StatsPanel {
  import opened Wrappers
  import opened JsStrings
  import opened Gw2Types
  import opened StatTables

  datatype Attribute =
    | Power | Toughness | Vitality | Precision | Ferocity
    | ConditionDamage | HealingPower | Expertise | BoonDuration

  /** `BASE_ATTRIBUTES`. */
  function BaseValue(a: Attribute): int {
    match a
    case Power => 1000
    case Toughness => 1000
    case Vitality => 1000
    case Precision => 1000
    case _ => 0
  }

  /** `INFUSION_BONUSES`: each infusion name with the one attribute it adds 5 to. */
  const InfusionTable: seq<(string, Attribute)> := [
    ("Mighty", Power),
    ("Precise", Precision),
    ("Malign", ConditionDamage),
    ("Expertise", Attribute.Expertise),
    ("Resilient", Toughness),
    ("Vital", Vitality),
    ("Healing", HealingPower),
    ("Concentration", BoonDuration)
  ]

  function InfusionAttribute(name: string): Option<Attribute> {
    FindKey(InfusionTable, name)
  }

  /** Where an infusion type stands in the union's listing and in the table. */
  function InfusionIndex(i: InfusionType): (k: nat)
    ensures k < |Infusions| == |InfusionTable| && Infusions[k] == i && InfusionTable[k].0 == InfusionName(i)
  {
    match i
    case Mighty => 0
    case Precise => 1
    case Malign => 2
    case Expertise => 3
    case Resilient => 4
    case Vital => 5
    case Healing => 6
    case Concentration => 7
  }

  /** Each row of the infusion table is the one its name finds. */
  lemma InfusionRowFound(k: nat)
    requires k < |InfusionTable|
    ensures InfusionAttribute(InfusionTable[k].0) == Some(InfusionTable[k].1)
  {
    FindKeyAt(InfusionTable, k);
  }

  /**
   * The table's names are exactly the names of the infusion union, and no two
   * infusion types add to the same attribute.
   */
  lemma InfusionTableMatchesUnion()
    ensures forall i: InfusionType :: InfusionAttribute(InfusionName(i)).Some?
    ensures forall name :: InfusionAttribute(name).Some? ==> exists i: InfusionType :: InfusionName(i) == name
    ensures forall i: InfusionType, j: InfusionType ::
      i != j ==> InfusionAttribute(InfusionName(i)) != InfusionAttribute(InfusionName(j))
  {
    forall i: InfusionType ensures InfusionAttribute(InfusionName(i)) == Some(InfusionTable[InfusionIndex(i)].1) {
      InfusionRowFound(InfusionIndex(i));
    }
    InfusionsClosed();
    forall name | InfusionAttribute(name).Some?
      ensures exists i: InfusionType :: InfusionName(i) == name
    {
      var k :| 0 <= k < |InfusionTable| && InfusionTable[k] == (name, InfusionAttribute(name).value);
      assert InfusionIndex(Infusions[k]) == k;
      assert InfusionName(Infusions[k]) == name;
    }
    forall p, q | 0 <= p < q < |InfusionTable| ensures InfusionTable[p].1 != InfusionTable[q].1 {
      InfusionRowRank(p);
      InfusionRowRank(q);
    }
  }

  /** The place of an attribute in the infusion table's attribute column. */
  function InfusionRank(a: Attribute): nat {
    match a
    case Power => 0
    case Precision => 1
    case ConditionDamage => 2
    case Expertise => 3
    case Toughness => 4
    case Vitality => 5
    case HealingPower => 6
    case BoonDuration => 7
    case Ferocity => 8
  }

  lemma InfusionRowRank(k: nat)
    requires k < |InfusionTable|
    ensures InfusionRank(InfusionTable[k].1) == k
  {
  }

  /** `STAT_COMBOS`: each combo name with its attributes, the major one first. */
  const ComboTable: seq<(string, seq<Attribute>)> := [
    ("Berserker", [Power, Precision, Ferocity]),
    ("Assassin", [Precision, Power, Ferocity]),
    ("Marauder", [Power, Precision, Vitality, Ferocity]),
    ("Viper", [Power, ConditionDamage, Precision, Attribute.Expertise]),
    ("Sinister", [ConditionDamage, Power, Precision]),
    ("Celestial", [Power, Precision, Toughness, Vitality, ConditionDamage, HealingPower, Attribute.Expertise, BoonDuration, Ferocity]),
    ("Diviner", [Power, BoonDuration, Precision, Ferocity]),
    ("Harrier", [Power, HealingPower, BoonDuration]),
    ("Minstrel", [Toughness, HealingPower, Vitality, BoonDuration]),
    ("Magi", [HealingPower, Precision, Vitality]),
    ("Soldier", [Power, Toughness, Vitality]),
    ("Cavalier", [Toughness, Power, Ferocity]),
    ("Nomad", [Toughness, Vitality, HealingPower]),
    ("Trailblazer", [Toughness, ConditionDamage, Vitality, Attribute.Expertise]),
    ("Seraph", [Precision, ConditionDamage, BoonDuration, HealingPower]),
    ("Commander", [Power, Precision, Toughness, BoonDuration]),
    ("Vigilant", [Power, Toughness, BoonDuration, Attribute.Expertise]),
    ("Crusader", [Power, Toughness, Ferocity, HealingPower]),
    ("Marshal", [Power, HealingPower, Precision, ConditionDamage]),
    ("Grieving", [Power, ConditionDamage, Precision, Ferocity]),
    ("Plaguedoctor", [Vitality, ConditionDamage, HealingPower, BoonDuration]),
    ("Giver", [Toughness, BoonDuration, HealingPower]),
    ("Dragon", [Power, Ferocity, Precision, Vitality]),
    ("Ritualist", [Vitality, ConditionDamage, BoonDuration, Attribute.Expertise]),
    ("Demolisher", [Power, Precision, Toughness, Ferocity]),
    ("Zealot", [Power, Precision, HealingPower]),
    ("Valkyrie", [Power, Vitality, Ferocity]),
    ("Rampager", [Precision, Power, ConditionDamage]),
    ("Knight", [Toughness, Power, Precision]),
    ("Sentinel", [Vitality, Power, Toughness]),
    ("Shaman", [Vitality, ConditionDamage, HealingPower]),
    ("Carrion", [ConditionDamage, Power, Vitality]),
    ("Rabid", [ConditionDamage, Precision, Toughness]),
    ("Dire", [ConditionDamage, Toughness, Vitality]),
    ("Cleric", [HealingPower, Power, Toughness]),
    ("Apothecary", [HealingPower, Toughness, ConditionDamage]),
    ("Wanderer", [Power, Vitality, Toughness, BoonDuration])
  ]

  function ComboOf(name: string): Option<seq<Attribute>> {
    FindKey(ComboTable, name)
  }

  /** Three, four or nine attributes, none repeated. */
  predicate WellShaped(combo: seq<Attribute>) {
    (|combo| == 3 || |combo| == 4 || |combo| == 9) && Distinct(combo)
  }

  lemma ComboRowsWellShaped()
    ensures forall k :: 0 <= k < |ComboTable| ==> WellShaped(ComboTable[k].1)
  {
  }

  /** Every combo of the table has three, four or nine different attributes. */
  lemma ComboTableShape(name: string)
    requires ComboOf(name).Some?
    ensures WellShaped(ComboOf(name).value)
  {
    ComboRowsWellShaped();
  }

  /** Every combo name a build admits has a row in the table. */
  lemma StatCombosHaveRows()
    ensures forall k :: 0 <= k < |StatCombos| ==> ComboOf(StatCombos[k]).Some?
  {
    forall k | 0 <= k < |StatCombos| ensures ComboOf(StatCombos[k]).Some? {
      assert ComboTable[k].0 == StatCombos[k];
    }
  }

  /** `STAT_NAME_MAP`: the stat names a rune bonus may end with. */
  function StatNameMap(name: string): Option<Attribute> {
    if name == "Power" then Some(Power)
    else if name == "Precision" then Some(Precision)
    else if name == "Toughness" then Some(Toughness)
    else if name == "Vitality" then Some(Vitality)
    else if name == "Ferocity" then Some(Ferocity)
    else if name == "Condition Damage" then Some(ConditionDamage)
    else if name == "Condition Duration" then Some(Attribute.Expertise)
    else if name == "Healing Power" then Some(HealingPower)
    else if name == "Expertise" then Some(Attribute.Expertise)
    else if name == "Concentration" then Some(BoonDuration)
    else if name == "Boon Duration" then Some(BoonDuration)
    else if name == "Critical Damage" then Some(Ferocity)
    else None
  }

  /** Text that starts with a character other than whitespace and holds no line terminator. */
  predicate IsOneLineName(name: string) {
    name != [] && !IsSpace(name[0]) && forall k :: 0 <= k < |name| ==> !IsLineTerminator(name[k])
  }

  /** Every stat name starts with a character other than whitespace and holds no line terminator. */
  lemma StatNamesAreOneLine(name: string)
    requires StatNameMap(name).Some?
    ensures IsOneLineName(name)
  {
    if name == "Power" || name == "Precision" || name == "Toughness" || name == "Vitality" || name == "Ferocity" {
      ShortStatNamesAreOneLine(name);
    } else if name == "Condition Damage" || name == "Condition Duration" || name == "Healing Power" || name == "Expertise" {
      ConditionStatNamesAreOneLine(name);
    } else {
      BoonStatNamesAreOneLine(name);
    }
  }

  lemma ShortStatNamesAreOneLine(name: string)
    requires name == "Power" || name == "Precision" || name == "Toughness" || name == "Vitality" || name == "Ferocity"
    ensures IsOneLineName(name)
  {
  }

  lemma ConditionStatNamesAreOneLine(name: string)
    requires name == "Condition Damage" || name == "Condition Duration" || name == "Healing Power" || name == "Expertise"
    ensures IsOneLineName(name)
  {
  }

  lemma BoonStatNamesAreOneLine(name: string)
    requires name == "Concentration" || name == "Boon Duration" || name == "Critical Damage"
    ensures IsOneLineName(name)
  {
  }

  /** `PERCENT_TO_ATTRIBUTE`: attribute points per percent, for the three attributes that have a conversion. */
  function PercentConversion(a: Attribute): Option<int> {
    match a
    case Expertise => Some(15)
    case BoonDuration => Some(15)
    case Ferocity => Some(15)
    case _ => None
  }

  // ---------------------------------------------------------------- rune bonus text

  /** The three groups of a match of `\+(\d+)(%?)\s+(.+)`. */
  datatype RuneMatch = RuneMatch(digits: string, percent: bool, statName: string)

  /** The largest position at or after `lo` that holds a character `.` accepts. */
  function LastNonTerminator(u: string, lo: nat): (q: Option<nat>)
    ensures q.Some? ==> lo <= q.value < |u| && !IsLineTerminator(u[q.value])
    ensures q.Some? ==> forall k :: q.value < k < |u| ==> IsLineTerminator(u[k])
    ensures q.None? ==> forall k :: lo <= k < |u| ==> IsLineTerminator(u[k])
    decreases |u| - lo
  {
    if lo >= |u| then None
    else
      match LastNonTerminator(u, lo + 1)
      case Some(q) => Some(q)
      case None => if IsLineTerminator(u[lo]) then None else Some(lo)
  }

  /**
   * The match of `\+(\d+)(%?)\s+(.+)` that starts at position `i`, with the
   * regular-expression engine's backtracking worked out stage by stage.
   */
  function MatchRuneAt(s: string, i: nat): (r: Option<RuneMatch>)
    requires i <= |s|
    ensures r.Some? ==> MatchedText(s, i, r.value)
  {
    if i == |s| || s[i] != '+' then None
    else
      var r := MatchDigits(s[i + 1..]);
      assert r.Some? ==> MatchedText(s, i, r.value) by {
        if r.Some? {
          MatchedAfterPlus(s, i, r.value);
        }
      }
      r
  }

  /**
   * `s` holds a match of `\+(\d+)(%?)\s+(.+)` from position `i`: a `+`, the
   * digits, a `%` when the match has one, at least one whitespace character
   * and then the (non-empty) name.
   */
  predicate MatchedText(s: string, i: nat, m: RuneMatch) {
    var p := i + 1 + |m.digits| + (if m.percent then 1 else 0);
    p <= |s| && s[i] == '+' && s[i + 1..i + 1 + |m.digits|] == m.digits
    && (m.percent ==> s[i + 1 + |m.digits|] == '%')
    && m.digits != [] && AllDigits(m.digits)
    && m.statName != [] && GapThenName(s[p..], m.statName)
  }

  /** A match of the text after a `+` is a match from the `+`. */
  lemma MatchedAfterPlus(s: string, i: nat, m: RuneMatch)
    requires i < |s| && s[i] == '+'
    requires var t := s[i + 1..]; var p := |m.digits| + (if m.percent then 1 else 0);
      p <= |t| && t[..|m.digits|] == m.digits && (m.percent ==> t[|m.digits|] == '%')
      && m.digits != [] && AllDigits(m.digits)
      && m.statName != [] && GapThenName(t[p..], m.statName)
    ensures MatchedText(s, i, m)
  {
    var t := s[i + 1..];
    var p := |m.digits| + (if m.percent then 1 else 0);
    assert t[..|m.digits|] == s[i + 1..i + 1 + |m.digits|];
    assert t[p..] == s[i + 1 + p..];
  }

  /** `u` is `gap` whitespace characters (at least one), then `name`. */
  predicate GapAndName(u: string, gap: nat, name: string) {
    1 <= gap && gap + |name| <= |u|
    && (forall k :: 0 <= k < gap ==> IsSpace(u[k]))
    && u[gap..gap + |name|] == name
  }

  predicate GapThenName(u: string, name: string) {
    exists gap :: 0 < gap <= |u| && GapAndName(u, gap, name)
  }

  /**
   * After the `+` (the text `t` that follows it): the whole digit run (a
   * shorter one would leave a digit where `%` or whitespace is needed), then
   * `%` when present.
   */
  function MatchDigits(t: string): (r: Option<RuneMatch>)
    ensures r.Some? ==> var m := r.value; var p := |m.digits| + (if m.percent then 1 else 0);
      p <= |t| && t[..|m.digits|] == m.digits && (m.percent ==> t[|m.digits|] == '%')
      && m.digits != [] && AllDigits(m.digits)
      && m.statName != [] && GapThenName(t[p..], m.statName)
  {
    var d := DigitRun(t);
    if d == 0 then None
    else
      var pct := d < |t| && t[d] == '%';
      MatchName(t[(if pct then d + 1 else d)..], t[..d], pct)
  }

  /**
   * After the digits and the optional `%` (the text `u` that follows them): at
   * least one whitespace character, then the rest of the line. When the
   * whitespace runs to the end of the text, `\s+` gives back characters until
   * `.` can take one, so the name is a single whitespace character (which no
   * stat name is).
   */
  function MatchName(u: string, digits: string, pct: bool): (r: Option<RuneMatch>)
    ensures r.Some? ==> r.value.digits == digits && r.value.percent == pct
    ensures r.Some? ==> r.value.statName != [] && GapThenName(u, r.value.statName)
  {
    var w := SpaceRun(u);
    if w == 0 then None
    else if w < |u| then
      var name := u[w..][..NonTerminatorRun(u[w..])];
      assert u[w..][0] == u[w];
      assert u[w..w + |name|] == name;
      assert GapAndName(u, w, name);
      Some(RuneMatch(digits, pct, name))
    else
      match LastNonTerminator(u, 1)
      case None => None
      case Some(q) =>
        assert u[q..q + 1] == [u[q]];
        assert GapAndName(u, q, [u[q]]);
        Some(RuneMatch(digits, pct, [u[q]]))
  }

  /** `bonus.match(...)`: the match at the first position where there is one. */
  function FirstRuneMatch(s: string, i: nat): (r: Option<RuneMatch>)
    requires i <= |s|
    ensures r.Some? ==> r.value.digits != [] && AllDigits(r.value.digits) && r.value.statName != []
    decreases |s| - i
  {
    if i == |s| then None
    else
      match MatchRuneAt(s, i)
      case Some(m) => Some(m)
      case None => FirstRuneMatch(s, i + 1)
  }

  /** The search finds the leftmost match from `i`, and finds none only when there is none. */
  lemma FirstRuneMatchLeftmost(s: string, i: nat)
    requires i <= |s|
    ensures var r := FirstRuneMatch(s, i);
      && (r.Some? ==> exists j :: FirstMatchFrom(s, i, j) && MatchRuneAt(s, j) == r)
      && (r.None? ==> forall j :: i <= j <= |s| ==> MatchRuneAt(s, j).None?)
  {
    if FirstRuneMatch(s, i).Some? {
      FirstRuneMatchFound(s, i);
    } else {
      FirstRuneMatchNone(s, i);
    }
  }

  lemma {:induction false} FirstRuneMatchFound(s: string, i: nat)
    requires i <= |s| && FirstRuneMatch(s, i).Some?
    ensures exists j :: FirstMatchFrom(s, i, j) && MatchRuneAt(s, j) == FirstRuneMatch(s, i)
    decreases |s| - i
  {
    if MatchRuneAt(s, i).Some? {
      assert FirstMatchFrom(s, i, i);
    } else {
      FirstRuneMatchFound(s, i + 1);
      var j :| FirstMatchFrom(s, i + 1, j) && MatchRuneAt(s, j) == FirstRuneMatch(s, i + 1);
      assert FirstMatchFrom(s, i, j);
    }
  }

  lemma {:induction false} FirstRuneMatchNone(s: string, i: nat)
    requires i <= |s| && FirstRuneMatch(s, i).None?
    ensures forall j :: i <= j <= |s| ==> MatchRuneAt(s, j).None?
    decreases |s| - i
  {
    if i < |s| {
      FirstRuneMatchNone(s, i + 1);
    }
  }

  /** A match starts at `j`, and none starts from `i` up to `j`: the leftmost match from `i`. */
  predicate FirstMatchFrom(s: string, i: nat, j: nat) {
    i <= j < |s| && MatchRuneAt(s, j).Some?
    && forall k :: i <= k < j ==> MatchRuneAt(s, k).None?
  }

  /** A parsed rune bonus. */
  datatype RuneBonus = RuneBonus(attribute: Attribute, value: nat, isPercent: bool)

  /**
   * `parseRuneBonus`: the first match of `\+(\d+)(%?)\s+(.+)` anywhere in the
   * text, kept only when its name is a stat name; no bonus otherwise.
   */
  function ParseRuneBonus(bonus: string): (r: Option<RuneBonus>)
    ensures r.Some? ==>
      (exists m :: FirstRuneMatch(bonus, 0) == Some(m)
        && StatNameMap(m.statName) == Some(r.value.attribute)
        && r.value.value == DigitsValue(m.digits) && r.value.isPercent == m.percent)
  {
    match FirstRuneMatch(bonus, 0)
    case None => None
    case Some(m) =>
      match StatNameMap(m.statName)
      case None => None
      case Some(a) => Some(RuneBonus(a, DigitsValue(m.digits), m.percent))
  }

  /**
   * A bonus is read from the leftmost match in the text: a `+`, the digits
   * giving its value, a `%` exactly when it is a percentage, whitespace and a
   * stat name. There is none when the text has no match, or when the name of
   * its leftmost match is not a stat name.
   */
  lemma ParseRuneBonusReadsText(bonus: string)
    ensures var r := ParseRuneBonus(bonus);
      && (r.Some? ==>
        exists i :: FirstMatchFrom(bonus, 0, i)
          && var m := MatchRuneAt(bonus, i).value;
             MatchedText(bonus, i, m) && StatNameMap(m.statName) == Some(r.value.attribute)
             && r.value.value == DigitsValue(m.digits) && r.value.isPercent == m.percent)
      && (r.None? ==>
        || (forall i :: 0 <= i <= |bonus| ==> MatchRuneAt(bonus, i).None?)
        || (exists i :: FirstMatchFrom(bonus, 0, i) && StatNameMap(MatchRuneAt(bonus, i).value.statName).None?))
  {
    FirstRuneMatchLeftmost(bonus, 0);
  }

  /** Positions without a `+` cannot start a match, so the search moves past them. */
  lemma {:induction false} FirstRuneMatchSkips(s: string, i: nat, p: nat)
    requires i <= p <= |s| && '+' !in s[i..p]
    ensures FirstRuneMatch(s, i) == FirstRuneMatch(s, p)
    decreases p - i
  {
    if i < p {
      assert s[i..p] == [s[i]] + s[i + 1..p];
      FirstRuneMatchStep(s, i);
      FirstRuneMatchSkips(s, i + 1, p);
    }
  }

  lemma FirstRuneMatchStep(s: string, i: nat)
    requires i < |s| && s[i] != '+'
    ensures FirstRuneMatch(s, i) == FirstRuneMatch(s, i + 1)
  {
    assert MatchRuneAt(s, i) == None;
  }

  /** Text without a `+` holds no rune bonus. */
  lemma NoPlusNoBonus(bonus: string)
    requires '+' !in bonus
    ensures ParseRuneBonus(bonus) == None
  {
    assert bonus[0..|bonus|] == bonus;
    FirstRuneMatchSkips(bonus, 0, |bonus|);
  }

  /** What follows the digits of a bonus: an optional `%`, one space and the stat name. */
  function RuneTail(isPercent: bool, statName: string): string {
    if isPercent then "%" + (" " + statName) else " " + statName
  }

  /** The text of a bonus as a rune describes it. */
  function BonusText(value: nat, isPercent: bool, statName: string): string {
    "+" + (NatToString(value) + RuneTail(isPercent, statName))
  }

  /** One space and a stat name give that name. */
  lemma MatchNameOfStat(digits: string, pct: bool, statName: string)
    requires IsOneLineName(statName)
    ensures MatchName(" " + statName, digits, pct) == Some(RuneMatch(digits, pct, statName))
  {
    var u := " " + statName;
    assert u[1..] == statName;
    assert SpaceRun(u) == 1;
    assert NonTerminatorRun(statName) == |statName|;
    assert statName[..|statName|] == statName;
  }

  /** A digit run, then text that does not start with a digit: the name is matched in what follows the optional `%`. */
  lemma MatchDigitsOf(digits: string, rest: string)
    requires digits != [] && AllDigits(digits) && (rest == [] || !IsDigit(rest[0]))
    ensures rest != [] && rest[0] == '%' ==> MatchDigits(digits + rest) == MatchName(rest[1..], digits, true)
    ensures rest == [] || rest[0] != '%' ==> MatchDigits(digits + rest) == MatchName(rest, digits, false)
  {
    var t := digits + rest;
    DigitRunOfConcat(digits, rest);
    assert t[..|digits|] == digits;
    DropAppend(digits, rest);
    if rest != [] {
      assert t[|digits|] == rest[0];
      DropDrop(t, |digits|, 1);
    }
  }

  /** Digits, an optional `%`, one space and a stat name match as those parts. */
  lemma MatchOfParts(digits: string, isPercent: bool, statName: string)
    requires IsOneLineName(statName)
    requires digits != [] && AllDigits(digits)
    ensures MatchDigits(digits + RuneTail(isPercent, statName)) == Some(RuneMatch(digits, isPercent, statName))
  {
    var rest := RuneTail(isPercent, statName);
    if isPercent {
      assert rest[0] == '%' && rest[1..] == " " + statName;
    } else {
      assert rest[0] == ' ';
    }
    MatchDigitsOf(digits, rest);
    MatchNameOfStat(digits, isPercent, statName);
  }

  /** The match at a bonus text is its number, its percent sign and its name. */
  lemma MatchOfBonusText(prefix: string, value: nat, isPercent: bool, statName: string)
    requires StatNameMap(statName).Some?
    ensures var s := prefix + BonusText(value, isPercent, statName);
      MatchRuneAt(s, |prefix|) == Some(RuneMatch(NatToString(value), isPercent, statName))
  {
    var digits := NatToString(value);
    var s := prefix + BonusText(value, isPercent, statName);
    var i := |prefix|;
    DropAppend(prefix, BonusText(value, isPercent, statName));
    DropAppend("+", digits + RuneTail(isPercent, statName));
    DropDrop(s, i, 1);
    assert s[i] == s[i..][0] == '+';
    NatToStringDigits(value);
    StatNamesAreOneLine(statName);
    MatchOfParts(digits, isPercent, statName);
  }

  /**
   * A bonus text read back gives its attribute, value and percent flag; the
   * match is not anchored, so any text without a `+` may come before it.
   */
  lemma ParseRuneBonusOfText(prefix: string, value: nat, isPercent: bool, statName: string)
    requires '+' !in prefix && StatNameMap(statName).Some?
    ensures ParseRuneBonus(prefix + BonusText(value, isPercent, statName))
         == Some(RuneBonus(StatNameMap(statName).value, value, isPercent))
  {
    var s := prefix + BonusText(value, isPercent, statName);
    assert s[0..|prefix|] == prefix;
    FirstRuneMatchSkips(s, 0, |prefix|);
    MatchOfBonusText(prefix, value, isPercent, statName);
    assert s[|prefix|] == '+';
    NatToStringDigits(value);
  }

  /** A flat bonus as the game writes it. */
  lemma ParseFlatBonusExample()
    ensures ParseRuneBonus("+25 Power") == Some(RuneBonus(Power, 25, false))
  {
    assert NatToString(25) == "25" by {
      assert NatToString(25) == NatToString(2) + [DigitChar(5)];
    }
    assert BonusText(25, false, "Power") == "+" + ("25" + " " + "Power");
    assert "" + BonusText(25, false, "Power") == "+25 Power";
    assert StatNameMap("Power") == Some(Power);
    ParseRuneBonusOfText("", 25, false, "Power");
  }

  /** A percent bonus after a set-count prefix, as the game writes it. */
  lemma ParsePercentBonusExample()
    ensures ParseRuneBonus("(4): +10% Boon Duration") == Some(RuneBonus(BoonDuration, 10, true))
  {
    assert NatToString(10) == "10" by {
      assert NatToString(10) == NatToString(1) + [DigitChar(0)];
    }
    assert BonusText(10, true, "Boon Duration") == "+" + ("10" + ("%" + (" " + "Boon Duration")));
    assert "(4): " + BonusText(10, true, "Boon Duration") == "(4): +10% Boon Duration";
    assert StatNameMap("Boon Duration") == Some(BoonDuration);
    assert '+' !in "(4): ";
    ParseRuneBonusOfText("(4): ", 10, true, "Boon Duration");
  }

  // ---------------------------------------------------------------- what one item adds

  /** A truthy weapon type found in the list of two-handed weapon types. */
  predicate IsTwoHanded(item: Equipment, twoHandedWeapons: seq<string>) {
    item.weaponType.Some? && item.weaponType.value != "" && item.weaponType.value in twoHandedWeapons
  }

  /**
   * The row of slot values an item draws on, or `None` when it adds nothing:
   * the second weapon set is skipped, armor and trinkets use their tables, the
   * main hand the two- or one-handed row, and the off hand the one-handed row
   * unless the main hand (the last item in that slot) holds a two-handed weapon.
   */
  function SlotValuesOf(item: Equipment, mainHand: Option<Equipment>, twoHandedWeapons: seq<string>): Option<SlotStatValues> {
    if item.slot == "MainHand2" || item.slot == "OffHand2" then None
    else match ParseSlot(item.slot)
      case None => None
      case Some(slot) =>
        if ArmorStats(slot).Some? then ArmorStats(slot)
        else if TrinketStats(slot).Some? then TrinketStats(slot)
        else if slot == MainHand1 then Some(WeaponStats(IsTwoHanded(item, twoHandedWeapons)))
        else if slot != OffHand1 then None
        else if mainHand.Some? && IsTwoHanded(mainHand.value, twoHandedWeapons) then None
        else Some(WeaponStats(false))
  }

  /** The points the attribute at `index` of a combo of `size` attributes receives. */
  function Share(size: nat, index: nat, v: SlotStatValues): int {
    if size == 9 then v.major9
    else if size == 4 then (if index < 2 then v.major4 else v.minor4)
    else if index == 0 then v.major3
    else v.minor3
  }

  /** What the first `j` attributes of a combo give to attribute `a`. */
  function ShareSum(combo: seq<Attribute>, v: SlotStatValues, a: Attribute, j: nat): int
    requires j <= |combo|
  {
    if j == 0 then 0
    else ShareSum(combo, v, a, j - 1) + (if combo[j - 1] == a then Share(|combo|, j - 1, v) else 0)
  }

  function ItemInfusions(item: Equipment): seq<Option<string>> {
    [item.infusion1, item.infusion2, item.infusion3]
  }

  /** How many of the first `j` infusion positions name an infusion for `a`. */
  function InfusionCount(infusions: seq<Option<string>>, a: Attribute, j: nat): nat
    requires j <= |infusions|
  {
    if j == 0 then 0
    else InfusionCount(infusions, a, j - 1)
         + (if infusions[j - 1].Some? && InfusionAttribute(infusions[j - 1].value) == Some(a) then 1 else 0)
  }

  /** The points one item adds to attribute `a`. */
  function ItemGain(item: Equipment, mainHand: Option<Equipment>, twoHandedWeapons: seq<string>, a: Attribute): int {
    match SlotValuesOf(item, mainHand, twoHandedWeapons)
    case None => 0
    case Some(v) =>
      match ComboOf(item.stat)
      case None => 0
      case Some(combo) => ShareSum(combo, v, a, |combo|) + 5 * InfusionCount(ItemInfusions(item), a, 3)
  }

  /** What the first `j` items add to attribute `a`. */
  function EquipmentGain(equipment: seq<Equipment>, mainHand: Option<Equipment>, twoHandedWeapons: seq<string>, a: Attribute, j: nat): int
    requires j <= |equipment|
  {
    if j == 0 then 0
    else EquipmentGain(equipment, mainHand, twoHandedWeapons, a, j - 1) + ItemGain(equipment[j - 1], mainHand, twoHandedWeapons, a)
  }

  /** What one rune bonus text adds to attribute `a`. */
  function RuneGain(bonus: string, a: Attribute): int {
    BonusGain(ParseRuneBonus(bonus), a)
  }

  /** What a parsed rune bonus adds to attribute `a`. */
  function BonusGain(parsed: Option<RuneBonus>, a: Attribute): int {
    match parsed
    case None => 0
    case Some(p) =>
      if p.attribute != a then 0
      else if !p.isPercent then p.value
      else match PercentConversion(a)
        case None => 0
        case Some(c) => p.value * c
  }

  /** What the first `j` rune bonus texts add to attribute `a`. */
  function RuneSum(bonuses: seq<string>, a: Attribute, j: nat): int
    requires j <= |bonuses|
  {
    if j == 0 then 0 else RuneSum(bonuses, a, j - 1) + RuneGain(bonuses[j - 1], a)
  }

  /** Where the last item in a slot stands. */
  function LastSlotIndex(equipment: seq<Equipment>, s: string): (r: Option<nat>)
    ensures r.None? ==> forall k :: 0 <= k < |equipment| ==> equipment[k].slot != s
    ensures r.Some? ==> r.value < |equipment| && equipment[r.value].slot == s
    ensures r.Some? ==> forall k :: r.value < k < |equipment| ==> equipment[k].slot != s
    decreases |equipment|
  {
    if equipment == [] then None
    else if equipment[|equipment| - 1].slot == s then Some(|equipment| - 1)
    else LastSlotIndex(equipment[..|equipment| - 1], s)
  }

  /** The last item in a slot: what the slot-keyed `reduce` ends up holding. */
  function LastInSlot(equipment: seq<Equipment>, s: string): Option<Equipment> {
    match LastSlotIndex(equipment, s)
    case None => None
    case Some(k) => Some(equipment[k])
  }

  /** The total of attribute `a`: base value, plus every item, plus every rune bonus. */
  function ExpectedTotal(equipment: seq<Equipment>, runeBonuses: Option<seq<string>>, twoHandedWeapons: seq<string>, a: Attribute): int {
    BaseValue(a)
    + EquipmentGain(equipment, LastInSlot(equipment, "MainHand1"), twoHandedWeapons, a, |equipment|)
    + (if runeBonuses.Some? then RuneSum(runeBonuses.value, a, |runeBonuses.value|) else 0)
  }

  // ---------------------------------------------------------------- the computation

  /** `{ ...BASE_ATTRIBUTES }`. */
  method BaseAttributes() returns (totals: map<Attribute, int>)
    ensures forall a :: a in totals && totals[a] == BaseValue(a)
  {
    totals := map[Power := 1000, Toughness := 1000, Vitality := 1000, Precision := 1000,
                  Ferocity := 0, ConditionDamage := 0, HealingPower := 0,
                  Attribute.Expertise := 0, BoonDuration := 0];
    forall a: Attribute ensures a in totals && totals[a] == BaseValue(a) {
      match a
      case Power =>
      case Toughness =>
      case Vitality =>
      case Precision =>
      case Ferocity =>
      case ConditionDamage =>
      case HealingPower =>
      case Expertise =>
      case BoonDuration =>
    }
  }

  /** The slot-keyed `reduce`: each item overwrites what an earlier item in its slot left. */
  method EquipmentBySlot(equipment: seq<Equipment>) returns (bySlot: map<string, Equipment>)
    ensures forall s :: s in bySlot <==> LastInSlot(equipment, s).Some?
    ensures forall s :: s in bySlot ==> bySlot[s] == LastInSlot(equipment, s).value
  {
    bySlot := map[];
    var i := 0;
    while i < |equipment|
      invariant 0 <= i <= |equipment|
      invariant forall s :: s in bySlot <==> LastInSlot(equipment[..i], s).Some?
      invariant forall s :: s in bySlot ==> bySlot[s] == LastInSlot(equipment[..i], s).value
    {
      assert equipment[..i + 1][..i] == equipment[..i];
      bySlot := bySlot[equipment[i].slot := equipment[i]];
      i := i + 1;
    }
    assert equipment[..i] == equipment;
  }

  /** Spreads one item's row over its combo, attribute by attribute. */
  method Distribute(totals: map<Attribute, int>, combo: seq<Attribute>, v: SlotStatValues) returns (after: map<Attribute, int>)
    requires forall a :: a in totals
    ensures forall a :: a in after && after[a] == totals[a] + ShareSum(combo, v, a, |combo|)
  {
    after := totals;
    var index := 0;
    while index < |combo|
      invariant 0 <= index <= |combo|
      invariant forall a :: a in after && after[a] == totals[a] + ShareSum(combo, v, a, index)
    {
      var attribute := combo[index];
      after := after[attribute := after[attribute] + Share(|combo|, index, v)];
      index := index + 1;
    }
  }

  /** Adds 5 for each of the three infusion positions that names an infusion of the table. */
  method AddInfusions(totals: map<Attribute, int>, item: Equipment) returns (after: map<Attribute, int>)
    requires forall a :: a in totals
    ensures forall a :: a in after && after[a] == totals[a] + 5 * InfusionCount(ItemInfusions(item), a, 3)
  {
    after := totals;
    var infusions := ItemInfusions(item);
    var key := 0;
    while key < 3
      invariant 0 <= key <= 3
      invariant forall a :: a in after && after[a] == totals[a] + 5 * InfusionCount(infusions, a, key)
    {
      var infusionType := infusions[key];
      if infusionType.Some? {
        var infusionBonus := InfusionAttribute(infusionType.value);
        if infusionBonus.Some? {
          var attribute := infusionBonus.value;
          after := after[attribute := after[attribute] + 5];
        }
      }
      key := key + 1;
    }
  }

  /** The body of the per-item `forEach`. */
  method AddItem(totals: map<Attribute, int>, item: Equipment, mainHand: Option<Equipment>, twoHandedWeapons: seq<string>)
    returns (after: map<Attribute, int>)
    requires forall a :: a in totals
    ensures forall a :: a in after && after[a] == totals[a] + ItemGain(item, mainHand, twoHandedWeapons, a)
  {
    var slotValues := SlotValuesOf(item, mainHand, twoHandedWeapons);
    var statCombo := ComboOf(item.stat);
    if slotValues.None? || statCombo.None? {
      return totals;
    }
    after := Distribute(totals, statCombo.value, slotValues.value);
    after := AddInfusions(after, item);
  }

  /** Adds what each rune bonus text gives. */
  method AddRuneBonuses(totals: map<Attribute, int>, bonuses: seq<string>) returns (after: map<Attribute, int>)
    requires forall a :: a in totals
    ensures forall a :: a in after && after[a] == totals[a] + RuneSum(bonuses, a, |bonuses|)
  {
    after := totals;
    var i := 0;
    while i < |bonuses|
      invariant 0 <= i <= |bonuses|
      invariant forall a :: a in after && after[a] == totals[a] + RuneSum(bonuses, a, i)
    {
      var parsed := ParseRuneBonus(bonuses[i]);
      assert forall a :: RuneSum(bonuses, a, i + 1) == RuneSum(bonuses, a, i) + BonusGain(parsed, a);
      after := AddRuneBonus(after, parsed);
      i := i + 1;
    }
  }

  /** Adds what one parsed rune bonus gives: its value, or its value times the conversion of a percent. */
  method AddRuneBonus(totals: map<Attribute, int>, parsed: Option<RuneBonus>) returns (after: map<Attribute, int>)
    requires forall a :: a in totals
    ensures forall a :: a in after && after[a] == totals[a] + BonusGain(parsed, a)
  {
    after := totals;
    if parsed.Some? {
      var p := parsed.value;
      if p.isPercent {
        var conversion := PercentConversion(p.attribute);
        if conversion.Some? {
          after := after[p.attribute := after[p.attribute] + p.value * conversion.value];
        }
      } else {
        after := after[p.attribute := after[p.attribute] + p.value];
      }
    }
  }

  /** The per-item `forEach`: every item in order, each against the same main hand. */
  method AddEquipment(totals: map<Attribute, int>, equipment: seq<Equipment>, mainHand: Option<Equipment>, twoHandedWeapons: seq<string>)
    returns (after: map<Attribute, int>)
    requires forall a :: a in totals
    ensures forall a :: a in after && after[a] == totals[a] + EquipmentGain(equipment, mainHand, twoHandedWeapons, a, |equipment|)
  {
    after := totals;
    var i := 0;
    while i < |equipment|
      invariant 0 <= i <= |equipment|
      invariant forall a :: a in after && after[a] == totals[a] + EquipmentGain(equipment, mainHand, twoHandedWeapons, a, i)
    {
      after := AddItem(after, equipment[i], mainHand, twoHandedWeapons);
      i := i + 1;
    }
  }

  /** The `totals` memo: base attributes, then every item in order, then the rune's bonuses. */
  method ComputeTotals(equipment: seq<Equipment>, runeBonuses: Option<seq<string>>, twoHandedWeapons: seq<string>)
    returns (totals: map<Attribute, int>)
    ensures forall a :: a in totals && totals[a] == ExpectedTotal(equipment, runeBonuses, twoHandedWeapons, a)
  {
    totals := BaseAttributes();
    var bySlot := EquipmentBySlot(equipment);
    var mainHand := if "MainHand1" in bySlot then Some(bySlot["MainHand1"]) else None;
    assert mainHand == LastInSlot(equipment, "MainHand1");
    totals := AddEquipment(totals, equipment, mainHand, twoHandedWeapons);
    if runeBonuses.Some? {
      totals := AddRuneBonuses(totals, runeBonuses.value);
    }
  }

  // ---------------------------------------------------------------- properties of the totals

  /** With no items and no rune the totals are the base attributes. */
  lemma NoGearIsBase(twoHandedWeapons: seq<string>, a: Attribute)
    ensures ExpectedTotal([], None, twoHandedWeapons, a) == BaseValue(a)
    ensures BaseValue(a) == (if a in {Power, Toughness, Vitality, Precision} then 1000 else 0)
  {
  }

  /** Items of the second weapon set never change a total. */
  lemma SecondWeaponSetAddsNothing(item: Equipment, mainHand: Option<Equipment>, twoHandedWeapons: seq<string>, a: Attribute)
    requires item.slot == "MainHand2" || item.slot == "OffHand2"
    ensures ItemGain(item, mainHand, twoHandedWeapons, a) == 0
  {
  }

  /** The main hand uses the two-handed row exactly when its weapon type is two-handed. */
  lemma MainHandRow(item: Equipment, mainHand: Option<Equipment>, twoHandedWeapons: seq<string>)
    requires item.slot == "MainHand1"
    ensures SlotValuesOf(item, mainHand, twoHandedWeapons) == Some(WeaponStats(IsTwoHanded(item, twoHandedWeapons)))
  {
    SlotNameParses(MainHand1);
    assert ParseSlot(item.slot) == Some(MainHand1);
  }

  /** The off hand adds nothing while the main hand holds a two-handed weapon, and the one-handed row otherwise. */
  lemma OffHandRow(item: Equipment, mainHand: Option<Equipment>, twoHandedWeapons: seq<string>, a: Attribute)
    requires item.slot == "OffHand1"
    ensures mainHand.Some? && IsTwoHanded(mainHand.value, twoHandedWeapons) ==>
      ItemGain(item, mainHand, twoHandedWeapons, a) == 0
    ensures !(mainHand.Some? && IsTwoHanded(mainHand.value, twoHandedWeapons)) ==>
      SlotValuesOf(item, mainHand, twoHandedWeapons) == Some(WeaponStats(false))
  {
    SlotNameParses(OffHand1);
    assert ParseSlot(item.slot) == Some(OffHand1);
    if mainHand.Some? && IsTwoHanded(mainHand.value, twoHandedWeapons) {
      assert SlotValuesOf(item, mainHand, twoHandedWeapons) == None;
    }
  }

  /** An item whose slot name is none of the sixteen slots adds nothing, not even its infusions. */
  lemma UnknownSlotAddsNothing(item: Equipment, mainHand: Option<Equipment>, twoHandedWeapons: seq<string>, a: Attribute)
    requires ParseSlot(item.slot).None?
    ensures SlotValuesOf(item, mainHand, twoHandedWeapons).None?
    ensures ItemGain(item, mainHand, twoHandedWeapons, a) == 0
  {
  }

  /** An item whose combo is not in the table adds nothing, not even its infusions. */
  lemma UnknownComboAddsNothing(item: Equipment, mainHand: Option<Equipment>, twoHandedWeapons: seq<string>, a: Attribute)
    requires ComboOf(item.stat).None?
    ensures ItemGain(item, mainHand, twoHandedWeapons, a) == 0
  {
  }

  /** In a combo without repeats, the attribute at `index` receives exactly its share and the rest of the combo gives it nothing. */
  lemma {:induction false} ShareSumDistinct(combo: seq<Attribute>, v: SlotStatValues, index: nat, j: nat)
    requires Distinct(combo) && index < |combo| && j <= |combo|
    ensures ShareSum(combo, v, combo[index], j) == (if index < j then Share(|combo|, index, v) else 0)
  {
    if j > 0 {
      ShareSumDistinct(combo, v, index, j - 1);
    }
  }

  /** An attribute outside the combo receives nothing from it. */
  lemma {:induction false} ShareSumAbsent(combo: seq<Attribute>, v: SlotStatValues, a: Attribute, j: nat)
    requires a !in combo && j <= |combo|
    ensures ShareSum(combo, v, a, j) == 0
  {
    if j > 0 {
      ShareSumAbsent(combo, v, a, j - 1);
    }
  }

  /**
   * How a combo of the table spreads a row: nine attributes get `major9` each;
   * of four, the first two get `major4` and the others `minor4`; of three, the
   * first gets `major3` and the others `minor3`; attributes outside get nothing.
   */
  lemma ComboDistribution(name: string, v: SlotStatValues, a: Attribute)
    requires ComboOf(name).Some?
    ensures var c := ComboOf(name).value;
      a !in c ==> ShareSum(c, v, a, |c|) == 0
    ensures var c := ComboOf(name).value;
      forall index :: 0 <= index < |c| ==>
        ShareSum(c, v, c[index], |c|) ==
          if |c| == 9 then v.major9
          else if |c| == 4 then (if index < 2 then v.major4 else v.minor4)
          else if index == 0 then v.major3 else v.minor3
  {
    var c := ComboOf(name).value;
    ComboTableShape(name);
    if a !in c {
      ShareSumAbsent(c, v, a, |c|);
    }
    forall index | 0 <= index < |c|
      ensures ShareSum(c, v, c[index], |c|) == Share(|c|, index, v)
    {
      ShareSumDistinct(c, v, index, |c|);
    }
  }

  /** The points an infusion position gives to `a`. */
  function InfusionPoints(infusion: Option<string>, a: Attribute): int {
    if infusion.Some? && InfusionAttribute(infusion.value) == Some(a) then 5 else 0
  }

  /** Each of the three infusion positions that names an infusion adds 5 to that infusion's attribute and nothing to any other. */
  lemma InfusionsAddFiveEach(item: Equipment, a: Attribute)
    ensures 5 * InfusionCount(ItemInfusions(item), a, 3)
         == InfusionPoints(item.infusion1, a) + InfusionPoints(item.infusion2, a) + InfusionPoints(item.infusion3, a)
  {
    var infusions := ItemInfusions(item);
    assert InfusionCount(infusions, a, 1) * 5 == InfusionPoints(item.infusion1, a);
    assert InfusionCount(infusions, a, 2) * 5 == InfusionCount(infusions, a, 1) * 5 + InfusionPoints(item.infusion2, a);
    assert InfusionCount(infusions, a, 3) * 5 == InfusionCount(infusions, a, 2) * 5 + InfusionPoints(item.infusion3, a);
  }

  /**
   * An infusion name the table lacks adds nothing: in any of the three
   * positions it gives every total what an empty position gives.
   */
  lemma UnknownInfusionAddsNothing(item: Equipment, mainHand: Option<Equipment>, twoHandedWeapons: seq<string>, name: string, a: Attribute)
    requires InfusionAttribute(name).None?
    ensures ItemGain(item.(infusion1 := Some(name)), mainHand, twoHandedWeapons, a)
         == ItemGain(item.(infusion1 := None), mainHand, twoHandedWeapons, a)
    ensures ItemGain(item.(infusion2 := Some(name)), mainHand, twoHandedWeapons, a)
         == ItemGain(item.(infusion2 := None), mainHand, twoHandedWeapons, a)
    ensures ItemGain(item.(infusion3 := Some(name)), mainHand, twoHandedWeapons, a)
         == ItemGain(item.(infusion3 := None), mainHand, twoHandedWeapons, a)
  {
    SameInfusionPointsSameGain(item.(infusion1 := Some(name)), item.(infusion1 := None), mainHand, twoHandedWeapons, a);
    SameInfusionPointsSameGain(item.(infusion2 := Some(name)), item.(infusion2 := None), mainHand, twoHandedWeapons, a);
    SameInfusionPointsSameGain(item.(infusion3 := Some(name)), item.(infusion3 := None), mainHand, twoHandedWeapons, a);
  }

  /** Two items that differ only in infusions giving `a` the same points give `a` the same gain. */
  lemma SameInfusionPointsSameGain(x: Equipment, y: Equipment, mainHand: Option<Equipment>, twoHandedWeapons: seq<string>, a: Attribute)
    requires x.slot == y.slot && x.stat == y.stat && x.weaponType == y.weaponType
    requires InfusionPoints(x.infusion1, a) == InfusionPoints(y.infusion1, a)
    requires InfusionPoints(x.infusion2, a) == InfusionPoints(y.infusion2, a)
    requires InfusionPoints(x.infusion3, a) == InfusionPoints(y.infusion3, a)
    ensures ItemGain(x, mainHand, twoHandedWeapons, a) == ItemGain(y, mainHand, twoHandedWeapons, a)
  {
    InfusionsAddFiveEach(x, a);
    InfusionsAddFiveEach(y, a);
    assert SlotValuesOf(x, mainHand, twoHandedWeapons) == SlotValuesOf(y, mainHand, twoHandedWeapons);
  }

  /**
   * A flat rune bonus adds its value to its attribute; a percent bonus adds
   * fifteen times its value to Expertise, Boon Duration or Ferocity and nothing
   * to any other attribute.
   */
  lemma RuneBonusEffect(bonus: string, a: Attribute)
    requires ParseRuneBonus(bonus).Some?
    ensures var p := ParseRuneBonus(bonus).value;
      RuneGain(bonus, a) ==
        if p.attribute != a then 0
        else if !p.isPercent then p.value
        else if a in {Attribute.Expertise, BoonDuration, Ferocity} then 15 * p.value
        else 0
  {
  }

  // ---------------------------------------------------------------- derived stats

  /** The integer outputs of `getDerivedStat`; `Percent` stands for the floating-point percentages. */
  datatype DerivedStat = ArmorValue(armor: int) | HealthValue(health: int) | Percent

  /**
   * `getDerivedStat`: nothing without a profession; Armor is base armor plus
   * Toughness; Health is base health plus ten per point of Vitality above 1000.
   */
  function GetDerivedStat(profession: Option<Profession>, a: Attribute, value: int,
                          baseHealth: Profession -> int, weightClass: Profession -> WeightClass,
                          baseArmor: WeightClass -> int): (r: Option<DerivedStat>)
    ensures profession.None? ==> r.None?
    ensures a in {Power, ConditionDamage, HealingPower} ==> r.None?
  {
    if profession.None? then None
    else
      var p := profession.value;
      match a
      case Toughness => Some(ArmorValue(baseArmor(weightClass(p)) + value))
      case Vitality => Some(HealthValue(baseHealth(p) + (value - 1000) * 10))
      case Precision => Some(Percent)
      case Ferocity => Some(Percent)
      case Expertise => Some(Percent)
      case BoonDuration => Some(Percent)
      case _ => None
  }

  /** Health equals the base health at 1000 Vitality and grows by ten per point; Armor grows by one per point of Toughness. */
  lemma DerivedStatSlopes(p: Profession, value: int, baseHealth: Profession -> int,
                          weightClass: Profession -> WeightClass, baseArmor: WeightClass -> int)
    ensures GetDerivedStat(Some(p), Vitality, 1000, baseHealth, weightClass, baseArmor) == Some(HealthValue(baseHealth(p)))
    ensures GetDerivedStat(Some(p), Vitality, value + 1, baseHealth, weightClass, baseArmor).value.health
         == GetDerivedStat(Some(p), Vitality, value, baseHealth, weightClass, baseArmor).value.health + 10
    ensures GetDerivedStat(Some(p), Toughness, value + 1, baseHealth, weightClass, baseArmor).value.armor
         == GetDerivedStat(Some(p), Toughness, value, baseHealth, weightClass, baseArmor).value.armor + 1
  {
  }
}

=== FILE: text_parser.dfy ===
/**
 * Guild Wars 2 text markup (src/lib/textParser.ts). Game descriptions colour
 * words with tags such as `<c=@reminder>…</c>`; `parseGW2Text` turns each tag
 * into a styled HTML span and line breaks into `<br>`, and `stripGW2Markup`
 * keeps only the text, on one line, with runs of white space collapsed.
 *
 * Both rewrite the matches of the case-insensitive global pattern
 * `<c=@(\w+)>(.*?)<\/c>`, modelled here by `MatchTagAt` and `RewriteTags`.
 */
module TextParser {
  import opened Wrappers
  import opened JsStrings

  // ---------------------------------------------------------------- colours

  /** `COLOR_MAP`: the style of each known tag type, keyed by `@` and the type in lower case. */
  const ColorMap: map<string, string> := map[
    "@abilitytype" := "text-blue-400",
    "@reminder" := "text-gray-400 italic",
    "@warning" := "text-red-400",
    "@flavor" := "text-purple-400 italic",
    "@skill" := "text-yellow-400"
  ]

  const FallbackColor: string := "text-gray-300"

  /** The style of a tag type: its `COLOR_MAP` entry, or the grey fallback for an unknown type. */
  function ColorClass(kind: string): (cls: string)
    ensures cls == FallbackColor <==> "@" + Lower(kind) !in ColorMap
    ensures cls == FallbackColor || cls in ColorMap.Values
  {
    var key := "@" + Lower(kind);
    if key in ColorMap then ColorMap[key] else FallbackColor
  }

  /** The type of a tag is looked up without regard to case. */
  lemma ColorClassIgnoresCase(kind: string)
    ensures ColorClass(kind) == ColorClass(Lower(kind))
  {
    LowerIdempotent(kind);
  }

  // ---------------------------------------------------------------- the tag pattern

  /** A match of the tag pattern at the start of a text: the type, the content and the match length. */
  datatype TagMatch = TagMatch(kind: string, content: string, end: nat)

  /** The letter `c` of the pattern, matched without regard to case. */
  predicate IsLetterC(c: char) {
    c == 'c' || c == 'C'
  }

  predicate IsWord(w: string) {
    w != [] && forall k :: 0 <= k < |w| ==> IsWordChar(w[k])
  }

  predicate OnOneLine(s: string) {
    forall k :: 0 <= k < |s| ==> !IsLineTerminator(s[k])
  }

  /** The closing tag `<\/c>` starts at position `i` of `s`. */
  predicate IsCloseAt(s: string, i: nat) {
    i + 4 <= |s| && s[i] == '<' && s[i + 1] == '/' && IsLetterC(s[i + 2]) && s[i + 3] == '>'
  }

  /**
   * The lazy `(.*?)<\/c>` from position `i`: the first closing tag at or after
   * `i`, provided no line terminator comes before it.
   */
  function CloseSearch(s: string, i: nat): (e: Option<nat>)
    requires i <= |s|
    ensures e.Some? ==> i <= e.value && IsCloseAt(s, e.value)
    decreases |s| - i
  {
    if IsCloseAt(s, i) then Some(i)
    else if i == |s| || IsLineTerminator(s[i]) then None
    else CloseSearch(s, i + 1)
  }

  /** The closing tag found is the first one, and no line terminator comes before it. */
  lemma {:induction false} CloseSearchSkips(s: string, i: nat)
    requires i <= |s|
    ensures CloseSearch(s, i).Some? ==>
      forall k :: i <= k < CloseSearch(s, i).value ==> !IsCloseAt(s, k) && !IsLineTerminator(s[k])
    decreases |s| - i
  {
    if !IsCloseAt(s, i) && i < |s| && !IsLineTerminator(s[i]) {
      CloseSearchSkips(s, i + 1);
    }
  }

  lemma {:induction false} CloseSearchFinds(s: string, i: nat, e: nat)
    requires i <= e && IsCloseAt(s, e)
    requires forall k :: i <= k < e ==> !IsCloseAt(s, k) && !IsLineTerminator(s[k])
    ensures CloseSearch(s, i) == Some(e)
    decreases e - i
  {
    if i < e {
      CloseSearchFinds(s, i + 1, e);
    }
  }

  /** The text of one tag, in the spelling the pattern accepts. */
  function TagText(openC: char, kind: string, content: string, closeC: char): (tag: string)
    ensures |tag| == |kind| + |content| + 9
  {
    ['<', openC, '=', '@'] + kind + ['>'] + content + ['<', '/', closeC, '>']
  }

  /**
   * The pattern matched at the start of `s`: `<c=@`, a maximal run of word
   * characters followed by `>`, then the shortest content on one line that a
   * closing tag follows.
   */
  function MatchTagAt(s: string): (r: Option<TagMatch>)
    ensures r.Some? ==> var t := r.value;
      IsWord(t.kind) && OnOneLine(t.content) && t.end == |t.kind| + |t.content| + 9 <= |s|
  {
    if |s| >= 4 && s[0] == '<' && IsLetterC(s[1]) && s[2] == '=' && s[3] == '@' then
      var w := WordRun(s[4..]);
      if w > 0 && 4 + w < |s| && s[4 + w] == '>' then
        match CloseSearch(s, 5 + w)
        case Some(e) =>
          CloseSearchSkips(s, 5 + w);
          var kind, content := s[4..4 + w], s[5 + w..e];
          assert IsWord(kind) by {
            forall k | 0 <= k < w ensures IsWordChar(kind[k]) {
              assert kind[k] == s[4..][k];
            }
          }
          assert OnOneLine(content) by {
            forall k | 0 <= k < |content| ensures !IsLineTerminator(content[k]) {
              assert content[k] == s[5 + w + k];
            }
          }
          Some(TagMatch(kind, content, e + 4))
        case None => None
      else None
    else None
  }

  /** A match spells out a tag: `<c=@`, the type, `>`, the content and a closing tag. */
  lemma MatchTagAtSpellsTag(s: string)
    requires MatchTagAt(s).Some?
    ensures var t := MatchTagAt(s).value;
      && s[0] == '<' && IsLetterC(s[1]) && s[2] == '=' && s[3] == '@'
      && s[4..4 + |t.kind|] == t.kind && s[4 + |t.kind|] == '>'
      && s[5 + |t.kind|..t.end - 4] == t.content && IsCloseAt(s, t.end - 4)
      && !IsWordChar(s[4 + |t.kind|])
  {
  }

  /** A well-formed tag whose content holds no `<` is matched whole. */
  lemma MatchOfTagText(openC: char, kind: string, content: string, closeC: char, rest: string)
    requires IsLetterC(openC) && IsLetterC(closeC) && IsWord(kind)
    requires OnOneLine(content) && '<' !in content
    ensures var tag := TagText(openC, kind, content, closeC);
      MatchTagAt(tag + rest) == Some(TagMatch(kind, content, |tag|))
  {
    var s := TagText(openC, kind, content, closeC) + rest;
    TagLayout(openC, kind, content, closeC, rest);
    KindRunOfTag(openC, kind, content, closeC, rest);
    MatchTagAtOf(s, kind, content, closeC);
  }

  /** The word run after `<c=@` in a tag is exactly its type. */
  lemma KindRunOfTag(openC: char, kind: string, content: string, closeC: char, rest: string)
    requires IsWord(kind)
    ensures WordRun((TagText(openC, kind, content, closeC) + rest)[4..]) == |kind|
  {
    var s := TagText(openC, kind, content, closeC) + rest;
    TagLayout(openC, kind, content, closeC, rest);
    WordRunOfConcat(kind, s[4 + |kind|..]);
  }

  /** Content on one line without `<`, then a closing tag: the search stops at that closing tag. */
  lemma CloseAfterContent(s: string, i: nat, content: string, closeC: char)
    requires i + |content| + 4 <= |s| && s[i..i + |content|] == content
    requires s[i + |content|..i + |content| + 4] == ['<', '/', closeC, '>']
    requires IsLetterC(closeC) && OnOneLine(content) && '<' !in content
    ensures CloseSearch(s, i) == Some(i + |content|)
  {
    var e := i + |content|;
    var close := s[e..e + 4];
    assert s[e] == close[0] && s[e + 1] == close[1] && s[e + 2] == close[2] && s[e + 3] == close[3];
    ContentHasNoClose(s, i, content);
    CloseSearchFinds(s, i, e);
  }

  /** Content on one line without `<`, found at position `i`, holds neither a closing tag nor a line break. */
  lemma ContentHasNoClose(s: string, i: nat, content: string)
    requires i + |content| <= |s| && s[i..i + |content|] == content
    requires OnOneLine(content) && '<' !in content
    ensures forall k :: i <= k < i + |content| ==> !IsCloseAt(s, k) && !IsLineTerminator(s[k])
  {
    forall k | i <= k < i + |content|
      ensures !IsCloseAt(s, k) && !IsLineTerminator(s[k])
    {
      assert s[k] == content[k - i];
    }
  }

  /** Where the parts of a tag sit in a text that starts with it. */
  lemma TagLayout(openC: char, kind: string, content: string, closeC: char, rest: string)
    ensures var s, n := TagText(openC, kind, content, closeC) + rest, |kind|;
      && s[0] == '<' && s[1] == openC && s[2] == '=' && s[3] == '@'
      && s[4..] == kind + s[4 + n..] && s[4 + n] == '>' && s[4..4 + n] == kind
      && s[5 + n..5 + n + |content|] == content
      && s[5 + n + |content|..9 + n + |content|] == ['<', '/', closeC, '>']
  {
  }

  /** The match at the start of `s` once its word run, its content and its closing tag are known. */
  lemma MatchTagAtOf(s: string, kind: string, content: string, closeC: char)
    requires |s| >= 4 && s[0] == '<' && IsLetterC(s[1]) && s[2] == '=' && s[3] == '@'
    requires 0 < |kind| == WordRun(s[4..]) && 4 + |kind| < |s| && s[4 + |kind|] == '>'
    requires s[4..4 + |kind|] == kind
    requires 9 + |kind| + |content| <= |s| && s[5 + |kind|..5 + |kind| + |content|] == content
    requires s[5 + |kind| + |content|..9 + |kind| + |content|] == ['<', '/', closeC, '>']
    requires IsLetterC(closeC) && OnOneLine(content) && '<' !in content
    ensures MatchTagAt(s) == Some(TagMatch(kind, content, 9 + |kind| + |content|))
  {
    CloseAfterContent(s, 5 + |kind|, content, closeC);
  }

  // ---------------------------------------------------------------- rewriting

  /** What `parseGW2Text` puts in place of a tag: a span styled by the tag's type. */
  function StyledSpan(kind: string, content: string): string {
    "<span class=\"" + ColorClass(kind) + "\">" + content + "</span>"
  }

  /** What `stripGW2Markup` puts in place of a tag: its content alone. */
  function ContentOnly(kind: string, content: string): string {
    content
  }

  /**
   * `text.replace(/<c=@(\w+)>(.*?)<\/c>/gi, …)`: each match, leftmost first and
   * without overlap, is rendered; every other character is kept.
   */
  function RewriteTags(s: string, render: (string, string) -> string): string
    decreases |s|
  {
    if s == [] then []
    else match MatchTagAt(s)
      case Some(t) => render(t.kind, t.content) + RewriteTags(s[t.end..], render)
      case None => [s[0]] + RewriteTags(s[1..], render)
  }

  /** Text before the first `<` passes through unchanged. */
  lemma {:induction false} RewriteSkipsPlain(plain: string, rest: string, render: (string, string) -> string)
    requires '<' !in plain
    ensures RewriteTags(plain + rest, render) == plain + RewriteTags(rest, render)
    decreases |plain|
  {
    if plain == [] {
      assert plain + rest == rest;
    } else {
      RewriteSkipsPlain(plain[1..], rest, render);
      RewriteSkipsPlainChar(plain, rest, render);
    }
  }

  lemma RewriteSkipsPlainChar(plain: string, rest: string, render: (string, string) -> string)
    requires plain != [] && plain[0] != '<'
    requires RewriteTags(plain[1..] + rest, render) == plain[1..] + RewriteTags(rest, render)
    ensures RewriteTags(plain + rest, render) == plain + RewriteTags(rest, render)
  {
    var s := plain + rest;
    assert s[1..] == plain[1..] + rest;
    RewriteOfPlainChar(s, render);
    var tail := RewriteTags(rest, render);
    ConsAssoc(plain, tail);
  }

  lemma ConsAssoc(a: string, b: string)
    requires a != []
    ensures [a[0]] + (a[1..] + b) == a + b
  {
    assert a == [a[0]] + a[1..];
  }

  /** A text that does not start with `<` keeps its first character. */
  lemma RewriteOfPlainChar(s: string, render: (string, string) -> string)
    requires s != [] && s[0] != '<'
    ensures RewriteTags(s, render) == [s[0]] + RewriteTags(s[1..], render)
  {
    assert MatchTagAt(s).None?;
  }

  /** Text without `<` holds no tag and is left as it is. */
  lemma PlainTextUnchanged(s: string, render: (string, string) -> string)
    requires '<' !in s
    ensures RewriteTags(s, render) == s
  {
    RewriteSkipsPlain(s, [], render);
    assert s + [] == s;
  }

  /** A tag after plain text is rendered in place, and rewriting goes on after it. */
  lemma RewriteTagText(plain: string, openC: char, kind: string, content: string, closeC: char,
                       rest: string, render: (string, string) -> string)
    requires '<' !in plain
    requires IsLetterC(openC) && IsLetterC(closeC) && IsWord(kind)
    requires OnOneLine(content) && '<' !in content
    ensures RewriteTags(plain + TagText(openC, kind, content, closeC) + rest, render)
         == plain + render(kind, content) + RewriteTags(rest, render)
  {
    var tag := TagText(openC, kind, content, closeC);
    assert plain + tag + rest == plain + (tag + rest);
    RewriteSkipsPlain(plain, tag + rest, render);
    MatchOfTagText(openC, kind, content, closeC, rest);
    RewriteOfMatch(tag + rest, render);
    assert (tag + rest)[|tag|..] == rest;
  }

  /** A text that starts with a match has that match rendered first. */
  lemma RewriteOfMatch(s: string, render: (string, string) -> string)
    requires MatchTagAt(s).Some?
    ensures var t := MatchTagAt(s).value;
      RewriteTags(s, render) == render(t.kind, t.content) + RewriteTags(s[t.end..], render)
  {
  }

  // ---------------------------------------------------------------- parseGW2Text

  /** `parseGW2Text`: tags to spans, then the two-character `\n` and real newlines to `<br>`. */
  function ParseGW2Text(text: string): (html: string)
    ensures text == [] ==> html == []
    ensures '\n' !in html
    ensures !Contains(html, "\\n")
  {
    if text == [] then []
    else
      var spans := RewriteTags(text, StyledSpan);
      var breaks := ReplaceAll(spans, "\\n", "<br>");
      ReplaceCharRemoves(breaks, '\n', "<br>");
      ReplacePairRemoves(spans, '\\', 'n', "<br>");
      ReplaceCharKeepsNoPair(breaks, '\n', "<br>", '\\', 'n');
      ContainsPair(ReplaceAll(breaks, "\n", "<br>"), '\\', 'n');
      ReplaceAll(breaks, "\n", "<br>")
  }

  /** A tag followed by nothing else becomes one span coloured by its type. */
  lemma ParseStylesTag(openC: char, kind: string, content: string, closeC: char)
    requires IsLetterC(openC) && IsLetterC(closeC) && IsWord(kind)
    requires OnOneLine(content) && '<' !in content && '\\' !in content
    ensures ParseGW2Text(TagText(openC, kind, content, closeC)) == StyledSpan(kind, content)
  {
    TagAloneRewrites(openC, kind, content, closeC, StyledSpan);
    SpanHasNoBreaks(kind, content);
  }

  /** A tag alone is replaced by what its type and content render to. */
  lemma TagAloneRewrites(openC: char, kind: string, content: string, closeC: char, render: (string, string) -> string)
    requires IsLetterC(openC) && IsLetterC(closeC) && IsWord(kind)
    requires OnOneLine(content) && '<' !in content
    ensures RewriteTags(TagText(openC, kind, content, closeC), render) == render(kind, content)
  {
    var tag := TagText(openC, kind, content, closeC);
    RewriteTagText([], openC, kind, content, closeC, [], render);
    assert [] + tag + [] == tag;
    assert RewriteTags([], render) == [];
    assert [] + render(kind, content) + [] == render(kind, content);
  }

  /** A span around content without backslash or newline has no line break to replace. */
  lemma SpanHasNoBreaks(kind: string, content: string)
    requires '\\' !in content && '\n' !in content
    ensures var span := StyledSpan(kind, content);
      ReplaceAll(ReplaceAll(span, "\\n", "<br>"), "\n", "<br>") == span
  {
    var span := StyledSpan(kind, content);
    SpanKeepsOut(kind, content, '\\');
    SpanKeepsOut(kind, content, '\n');
    NoCharNoPattern(span, "\\n");
    ReplaceAllAbsent(span, "\\n", "<br>");
    NoCharNoPattern(span, "\n");
    ReplaceAllAbsent(span, "\n", "<br>");
  }

  /** The span adds no backslash and no newline to its content. */
  lemma SpanKeepsOut(kind: string, content: string, c: char)
    requires c == '\\' || c == '\n'
    requires c !in content
    ensures c !in StyledSpan(kind, content)
  {
    var cls := ColorClass(kind);
    assert c !in cls;
  }

  /** A text without a tag holds no pattern that starts with a character it lacks. */
  lemma NoCharNoPattern(s: string, pat: string)
    requires pat != [] && pat[0] !in s
    ensures !Contains(s, pat)
  {
    if Contains(s, pat) {
      ContainsFirstChar(s, pat);
    }
  }

  /** Text with no `<`, no backslash and no newline comes out of `parseGW2Text` unchanged. */
  lemma ParsePlainText(text: string)
    requires '<' !in text && '\\' !in text && '\n' !in text
    ensures ParseGW2Text(text) == text
  {
    if text != [] {
      PlainTextUnchanged(text, StyledSpan);
      NoCharNoPattern(text, "\\n");
      ReplaceAllAbsent(text, "\\n", "<br>");
      NoCharNoPattern(text, "\n");
      ReplaceAllAbsent(text, "\n", "<br>");
    }
  }

  /** The two-character sequence `\n` and a real newline both become `<br>`. */
  lemma ParseLineBreaks(a: string, b: string)
    requires '<' !in a + b && '\\' !in a + b && '\n' !in a + b
    ensures ParseGW2Text(a + "\\n" + b) == a + "<br>" + b
    ensures ParseGW2Text(a + "\n" + b) == a + "<br>" + b
  {
    PlainTextUnchanged(a + "\\n" + b, StyledSpan);
    PlainTextUnchanged(a + "\n" + b, StyledSpan);
    assert '\\' !in a && '\\' !in b && '\n' !in a && '\n' !in b by {
      assert forall c :: c in a || c in b ==> c in a + b;
    }
    ReplaceAllOnce(a, "\\n", "<br>", b);
    NoCharNoPattern(a + "<br>" + b, "\n");
    ReplaceAllAbsent(a + "<br>" + b, "\n", "<br>");
    NoCharNoPattern(a, "\\n");
    NoCharNoPattern(a + "\n" + b, "\\n");
    ReplaceAllAbsent(a + "\n" + b, "\\n", "<br>");
    ReplaceAllOnce(a, "\n", "<br>", b);
  }

  // ---------------------------------------------------------------- stripGW2Markup

  /** Every white-space character is a plain space and none follows another. */
  predicate SingleSpaced(s: string) {
    forall k :: 0 <= k < |s| && IsSpace(s[k]) ==> s[k] == ' ' && (k + 1 < |s| ==> !IsSpace(s[k + 1]))
  }

  /** The characters of `s` that are not white space, in order. */
  function Visible(s: string): (v: string)
    ensures forall c :: c in v ==> c in s && !IsSpace(c)
  {
    if s == [] then []
    else if IsSpace(s[0]) then Visible(s[1..])
    else [s[0]] + Visible(s[1..])
  }

  /** `s.replace(/\s+/g, ' ')`: every maximal run of white space becomes one space. */
  function CollapseSpaces(s: string): (r: string)
    ensures SingleSpaced(r)
    ensures r == [] <==> s == []
    ensures r != [] ==> (IsSpace(r[0]) <==> IsSpace(s[0]))
    decreases |s|
  {
    if s == [] then []
    else if IsSpace(s[0]) then
      var k := SpaceRun(s);
      " " + CollapseSpaces(s[k..])
    else [s[0]] + CollapseSpaces(s[1..])
  }

  /** Collapsing white space keeps every other character, in order. */
  lemma {:induction false} CollapseKeepsVisible(s: string)
    ensures Visible(CollapseSpaces(s)) == Visible(s)
    decreases |s|
  {
    if s != [] {
      if IsSpace(s[0]) {
        var k := SpaceRun(s);
        CollapseKeepsVisible(s[k..]);
        assert s == s[..k] + s[k..];
        VisibleConcat(s[..k], s[k..]);
        VisibleOfSpaces(s[..k]);
        assert (" " + CollapseSpaces(s[k..]))[1..] == CollapseSpaces(s[k..]);
      } else {
        CollapseKeepsVisible(s[1..]);
        assert ([s[0]] + CollapseSpaces(s[1..]))[1..] == CollapseSpaces(s[1..]);
      }
    }
  }

  lemma {:induction false} VisibleConcat(a: string, b: string)
    ensures Visible(a + b) == Visible(a) + Visible(b)
    decreases |a|
  {
    if a == [] {
      assert a + b == b;
    } else {
      VisibleConcat(a[1..], b);
      assert (a + b)[1..] == a[1..] + b;
    }
  }

  lemma {:induction false} VisibleOfSpaces(s: string)
    requires forall k :: 0 <= k < |s| ==> IsSpace(s[k])
    ensures Visible(s) == []
    decreases |s|
  {
    if s != [] {
      VisibleOfSpaces(s[1..]);
    }
  }

  /** `trim` only removes white space. */
  lemma {:induction false} TrimKeepsVisible(s: string)
    ensures Visible(Trim(s)) == Visible(s)
  {
    TrimStartKeepsVisible(s);
    TrimEndKeepsVisible(TrimStart(s));
  }

  lemma {:induction false} TrimStartKeepsVisible(s: string)
    ensures Visible(TrimStart(s)) == Visible(s)
    decreases |s|
  {
    if s != [] && IsSpace(s[0]) {
      TrimStartKeepsVisible(s[1..]);
    }
  }

  lemma {:induction false} TrimEndKeepsVisible(s: string)
    ensures Visible(TrimEnd(s)) == Visible(s)
    decreases |s|
  {
    if s != [] && IsSpace(s[|s| - 1]) {
      var n := |s| - 1;
      TrimEndKeepsVisible(s[..n]);
      assert s == s[..n] + [s[n]];
      VisibleConcat(s[..n], [s[n]]);
      assert Visible([s[n]]) == [] by { VisibleOfSpaces([s[n]]); }
    }
  }

  /** Trimming a single-spaced text leaves it single-spaced, with no white space at either end. */
  lemma TrimSingleSpaced(s: string)
    requires SingleSpaced(s)
    ensures var r := Trim(s);
      SingleSpaced(r) && (r == [] || (!IsSpace(r[0]) && !IsSpace(r[|r| - 1])))
  {
    var u := TrimStart(s);
    SingleSpacedSuffix(s, |s| - |u|);
    TrimEndSingleSpaced(u);
    assert Trim(s) == TrimEnd(u);
  }

  lemma SingleSpacedSuffix(s: string, i: nat)
    requires SingleSpaced(s) && i <= |s|
    ensures SingleSpaced(s[i..])
  {
    SingleSpacedSlice(s, i, |s|);
    assert s[i..|s|] == s[i..];
  }

  lemma TrimEndSingleSpaced(u: string)
    requires SingleSpaced(u) && (u == [] || !IsSpace(u[0]))
    ensures var r := TrimEnd(u);
      SingleSpaced(r) && (r == [] || (!IsSpace(r[0]) && !IsSpace(r[|r| - 1])))
  {
    var r := TrimEnd(u);
    assert r == u[0..|r|];
    SingleSpacedSlice(u, 0, |r|);
    assert r == [] || r[0] == u[0];
  }

  /** A piece of a single-spaced text is single-spaced. */
  lemma SingleSpacedSlice(s: string, i: nat, j: nat)
    requires SingleSpaced(s) && i <= j <= |s|
    ensures SingleSpaced(s[i..j])
  {
    var t := s[i..j];
    forall k | 0 <= k < |t| && IsSpace(t[k])
      ensures t[k] == ' ' && (k + 1 < |t| ==> !IsSpace(t[k + 1]))
    {
      assert t[k] == s[i + k];
      if k + 1 < |t| {
        assert t[k + 1] == s[i + k + 1];
      }
    }
  }

  /** The whole white-space clean-up: one space between words, none at the ends. */
  function CleanSpaces(s: string): (r: string)
    ensures SingleSpaced(r) && (r == [] || (!IsSpace(r[0]) && !IsSpace(r[|r| - 1])))
    ensures Visible(r) == Visible(s)
  {
    var c := CollapseSpaces(s);
    TrimSingleSpaced(c);
    CollapseKeepsVisible(s);
    TrimKeepsVisible(c);
    Trim(c)
  }

  /**
   * `stripGW2Markup`: tags to their content, the two-character `\n` and real
   * newlines to spaces, white space collapsed and trimmed.
   */
  function StripGW2Markup(text: string): (plain: string)
    ensures text == [] ==> plain == []
    ensures SingleSpaced(plain) && (plain == [] || (!IsSpace(plain[0]) && !IsSpace(plain[|plain| - 1])))
  {
    if text == [] then []
    else
      var bare := RewriteTags(text, ContentOnly);
      var joined := ReplaceAll(ReplaceAll(bare, "\\n", " "), "\n", " ");
      CleanSpaces(joined)
  }

  /** Stripping keeps the text of tags and every other character except white space. */
  lemma StripKeepsVisible(text: string)
    requires '\\' !in text
    ensures Visible(StripGW2Markup(text)) == Visible(RewriteTags(text, ContentOnly))
  {
    if text != [] {
      var bare := RewriteTags(text, ContentOnly);
      ContentOnlyKeepsOut(text, '\\');
      NoCharNoPattern(bare, "\\n");
      ReplaceAllAbsent(bare, "\\n", " ");
      ReplaceAllOneChar(bare, '\n', ' ');
      SwapSpaceKeepsVisible(bare, '\n', ' ');
    }
  }

  /** Replacing one white-space character by another changes nothing visible. */
  lemma {:induction false} SwapSpaceKeepsVisible(s: string, c: char, d: char)
    requires IsSpace(c) && IsSpace(d)
    ensures Visible(SwapChar(s, c, d)) == Visible(s)
    decreases |s|
  {
    if s != [] {
      SwapSpaceKeepsVisible(s[1..], c, d);
      assert SwapChar(s, c, d)[1..] == SwapChar(s[1..], c, d);
    }
  }

  /** Keeping only the content of tags introduces no character that the text lacks. */
  lemma {:induction false} ContentOnlyKeepsOut(s: string, c: char)
    requires c !in s
    ensures c !in RewriteTags(s, ContentOnly)
    decreases |s|
  {
    if s != [] {
      match MatchTagAt(s)
      case Some(t) =>
        MatchTagAtSpellsTag(s);
        assert t.content == s[5 + |t.kind|..t.end - 4];
        ContentOnlyKeepsOut(s[t.end..], c);
      case None =>
        ContentOnlyKeepsOut(s[1..], c);
    }
  }

  /** A tag alone is stripped down to its content, cleaned of surplus white space. */
  lemma StripKeepsContent(openC: char, kind: string, content: string, closeC: char)
    requires IsLetterC(openC) && IsLetterC(closeC) && IsWord(kind)
    requires OnOneLine(content) && '<' !in content && '\\' !in content
    ensures StripGW2Markup(TagText(openC, kind, content, closeC)) == CleanSpaces(content)
  {
    TagAloneRewrites(openC, kind, content, closeC, ContentOnly);
    ContentHasNoBreaks(content);
  }

  /** Content on one line without backslash has no line break to replace. */
  lemma ContentHasNoBreaks(content: string)
    requires OnOneLine(content) && '\\' !in content
    ensures ReplaceAll(ReplaceAll(content, "\\n", " "), "\n", " ") == content
  {
    NoCharNoPattern(content, "\\n");
    ReplaceAllAbsent(content, "\\n", " ");
    assert '\n' !in content by {
      forall k | 0 <= k < |content| ensures content[k] != '\n' {
        assert !IsLineTerminator(content[k]);
      }
    }
    NoCharNoPattern(content, "\n");
    ReplaceAllAbsent(content, "\n", " ");
  }
}

=== FILE: wiki_scraper.dfy ===
/**
 * The data-shaping part of the wiki scraper (scripts/wiki-scraper.js): the
 * entity decoding of the fetched wikitext, the merge of a game-mode override
 * into an item's facts, the per-item enrichment with its mode-exclusive fact
 * filter, and the split statistics. Fetching pages, parsing wikitext and the
 * delays between requests are parameters or left out.
 */
module WikiScraper {
  import opened Wrappers
  import opened JsStrings

  // ---------------------------------------------------------------- entity decoding

  /** The entities decoded, in the order the replacements run: `&amp;` last. */
  const Entities: seq<(string, string)> :=
    [("&lt;", "<"), ("&gt;", ">"), ("&quot;", "\""), ("&#039;", "'"), ("&amp;", "&")]

  /** An entity starts with `&`, has a second character, and has no other `&`. */
  predicate EntityShaped(pat: string) {
    |pat| >= 2 && pat[0] == '&' && '&' !in pat[1..]
  }

  predicate TableShaped(table: seq<(string, string)>) {
    forall k :: 0 <= k < |table| ==> EntityShaped(table[k].0)
  }

  /** The chained global replacements, one per table row, in table order. */
  function DecodeWith(s: string, table: seq<(string, string)>): string
    requires TableShaped(table)
    decreases |table|
  {
    if table == [] then s
    else DecodeWith(ReplaceAll(s, table[0].0, table[0].1), table[1..])
  }

  /** The entity decoding of the `wpTextbox1` contents. */
  function DecodeEntities(wikitext: string): string {
    DecodeWith(wikitext, Entities)
  }

  /** Running two tables one after the other is running their concatenation. */
  lemma {:induction false} DecodeWithConcat(s: string, t1: seq<(string, string)>, t2: seq<(string, string)>)
    requires TableShaped(t1) && TableShaped(t2)
    ensures TableShaped(t1 + t2)
    ensures DecodeWith(s, t1 + t2) == DecodeWith(DecodeWith(s, t1), t2)
    decreases |t1|
  {
    if t1 != [] {
      assert (t1 + t2)[0] == t1[0] && (t1 + t2)[1..] == t1[1..] + t2;
      DecodeWithConcat(ReplaceAll(s, t1[0].0, t1[0].1), t1[1..], t2);
    } else {
      assert t1 + t2 == t2;
    }
  }

  /** Text without `&` holds no entity, so decoding leaves it alone. */
  lemma {:induction false} DecodeWithoutAmpersand(s: string, table: seq<(string, string)>)
    requires TableShaped(table) && '&' !in s
    ensures DecodeWith(s, table) == s
    decreases |table|
  {
    if table != [] {
      ReplaceAllSkipsPrefix(s, [], table[0].0, table[0].1);
      assert s + [] == s;
      assert ReplaceAll([], table[0].0, table[0].1) == [];
      DecodeWithoutAmpersand(s, table[1..]);
    }
  }

  /** A replacement for a different entity passes over an entity that is the text's only `&`. */
  lemma SkipOtherEntity(a: string, e: string, b: string, pat: string, rep: string)
    requires '&' !in a && '&' !in b && EntityShaped(e) && EntityShaped(pat) && e[1] != pat[1]
    ensures ReplaceAll(a + e + b, pat, rep) == a + e + b
  {
    assert a + e + b == a + (e + b);
    ReplaceAllSkipsPrefix(a, e + b, pat, rep);
    assert (e + b)[1] == e[1];
    assert !(pat <= e + b);
    assert (e + b)[1..] == e[1..] + b;
    assert '&' !in e[1..] + b;
    ReplaceAllSkipsPrefix(e[1..] + b, [], pat, rep);
    assert e[1..] + b + [] == e[1..] + b;
    assert ReplaceAll([], pat, rep) == [];
    assert e + b == [e[0]] + (e[1..] + b);
  }

  /** An entity survives every row of a table whose entities differ from it in their second character. */
  lemma {:induction false} SkipTable(a: string, e: string, b: string, table: seq<(string, string)>)
    requires '&' !in a && '&' !in b && EntityShaped(e) && TableShaped(table)
    requires forall k :: 0 <= k < |table| ==> table[k].0[1] != e[1]
    ensures DecodeWith(a + e + b, table) == a + e + b
    decreases |table|
  {
    if table != [] {
      SkipOtherEntity(a, e, b, table[0].0, table[0].1);
      SkipTable(a, e, b, table[1..]);
    }
  }

  /**
   * An entity that is the text's only `&` is decoded by its own row and no
   * other, provided the rows before it are for other entities and nothing
   * after it can act on its replacement.
   */
  lemma DecodeWithOneEntity(a: string, b: string, table: seq<(string, string)>, j: nat)
    requires '&' !in a && '&' !in b && TableShaped(table) && j < |table|
    requires forall k :: 0 <= k < j ==> table[k].0[1] != table[j].0[1]
    requires '&' !in table[j].1 || j == |table| - 1
    ensures DecodeWith(a + table[j].0 + b, table) == a + table[j].1 + b
  {
    var (e, c) := table[j];
    var before, after := table[..j], table[j..];
    assert table == before + after;
    assert TableShaped(before) && TableShaped(after);
    DecodeWithConcat(a + e + b, before, after);
    SkipTable(a, e, b, before);
    assert after[0] == (e, c);
    ReplaceAllOnce(a, e, c, b);
    assert TableShaped(after[1..]);
    if '&' !in c {
      assert '&' !in a + c + b;
      DecodeWithoutAmpersand(a + c + b, after[1..]);
    } else {
      assert after[1..] == [];
    }
  }

  lemma EntitiesShaped()
    ensures TableShaped(Entities)
    ensures forall j, k :: 0 <= k < j < |Entities| ==> Entities[k].0[1] != Entities[j].0[1]
    ensures forall j :: 0 <= j < |Entities| - 1 ==> '&' !in Entities[j].1
  {
  }

  /**
   * One entity between text without `&` decodes to its character, and to
   * nothing else: in particular `&amp;lt;` becomes `&lt;` and not `<`, since
   * `&amp;` is replaced last.
   */
  lemma DecodesOneEntity(a: string, j: nat, b: string)
    requires '&' !in a && '&' !in b && j < |Entities|
    ensures DecodeEntities(a + Entities[j].0 + b) == a + Entities[j].1 + b
  {
    EntitiesShaped();
    DecodeWithOneEntity(a, b, Entities, j);
  }

  /** The double-escaped `&amp;lt;` decodes once, to `&lt;`. */
  lemma AmpersandDecodedLast()
    ensures DecodeEntities("&amp;lt;") == "&lt;"
  {
    DecodesOneEntity("", 4, "lt;");
    assert "" + "&amp;" + "lt;" == "&amp;lt;";
    assert "" + "&" + "lt;" == "&lt;";
  }

  /** A piece of wiki text: text without `&`, or the entity of one row of the table. */
  datatype Piece = Plain(text: string) | Escaped(row: nat)

  predicate WellFormedPiece(p: Piece) {
    if p.Plain? then '&' !in p.text else p.row < |Entities|
  }

  predicate WellFormedPieces(ps: seq<Piece>) {
    forall k :: 0 <= k < |ps| ==> WellFormedPiece(ps[k])
  }

  /** One piece as text, decoded when it is the entity of a row below `done`. */
  function PieceText(p: Piece, done: nat): string
    requires WellFormedPiece(p)
  {
    match p
    case Plain(t) => t
    case Escaped(j) => if j < done then Entities[j].1 else Entities[j].0
  }

  /** The pieces as text, with the entities of the rows below `done` already decoded to their characters. */
  function Spelled(ps: seq<Piece>, done: nat): string
    requires WellFormedPieces(ps)
  {
    if ps == [] then [] else PieceText(ps[0], done) + Spelled(ps[1..], done)
  }

  /**
   * Text made of any number of entities with text without `&` between them
   * decodes to the same text with every entity replaced by its character.
   */
  lemma DecodesEveryEntity(ps: seq<Piece>)
    requires WellFormedPieces(ps)
    ensures DecodeEntities(Spelled(ps, 0)) == Spelled(ps, |Entities|)
  {
    EntitiesShaped();
    DecodeRowsFrom(ps, 0);
    assert Entities[0..] == Entities;
  }

  /** The rows from `k` on decode the text in which the rows below `k` are already decoded. */
  lemma {:induction false} DecodeRowsFrom(ps: seq<Piece>, k: nat)
    requires WellFormedPieces(ps) && k <= |Entities|
    ensures TableShaped(Entities[k..])
    ensures DecodeWith(Spelled(ps, k), Entities[k..]) == Spelled(ps, |Entities|)
    decreases |Entities| - k
  {
    EntitiesShaped();
    if k < |Entities| {
      var rows := Entities[k..];
      assert rows[0] == Entities[k] && rows[1..] == Entities[k + 1..];
      RowDecodes(ps, k);
      DecodeRowsFrom(ps, k + 1);
    }
  }

  /** The global replace of row `k` decodes exactly the entities of row `k`. */
  lemma {:induction false} RowDecodes(ps: seq<Piece>, k: nat)
    requires WellFormedPieces(ps) && k < |Entities|
    ensures ReplaceAll(Spelled(ps, k), Entities[k].0, Entities[k].1) == Spelled(ps, k + 1)
  {
    if ps != [] {
      RowDecodes(ps[1..], k);
      PieceDecodes(ps[0], k, Spelled(ps[1..], k));
    }
  }

  /** The global replace of row `k` passes over one piece, decoding it when it is that row's entity. */
  lemma PieceDecodes(p: Piece, k: nat, rest: string)
    requires WellFormedPiece(p) && k < |Entities|
    ensures ReplaceAll(PieceText(p, k) + rest, Entities[k].0, Entities[k].1)
         == PieceText(p, k + 1) + ReplaceAll(rest, Entities[k].0, Entities[k].1)
  {
    EntitiesShaped();
    var (pat, rep) := Entities[k];
    assert EntityShaped(pat);
    match p
    case Plain(t) =>
      ReplaceAllSkipsPrefix(t, rest, pat, rep);
    case Escaped(j) =>
      if j < k {
        assert '&' !in Entities[j].1;
        ReplaceAllSkipsPrefix(Entities[j].1, rest, pat, rep);
      } else if j == k {
        var s := pat + rest;
        assert pat <= s && s[|pat|..] == rest;
      } else {
        var e := Entities[j].0;
        assert EntityShaped(e) && e[1] != pat[1];
        var s := e + rest;
        assert s[1] == e[1];
        assert s[1..] == e[1..] + rest;
        ReplaceAllSkipsPrefix(e[1..], rest, pat, rep);
        assert s == [e[0]] + s[1..];
      }
  }

  // ---------------------------------------------------------------- facts and overrides

  /**
   * A fact of a skill or trait: its `type`, its optional `status` and `text`,
   * and its remaining fields by name.
   */
  datatype Fact = Fact(kind: string, status: Option<string>, text: Option<string>, others: map<string, string>)

  /** A game-mode override (`pve`, `pvp` or `wvw`): optional facts and other fields. */
  datatype ModeData = ModeData(facts: Option<seq<Fact>>, others: map<string, string>)

  /** A skill or trait as the scraper sees it. */
  datatype Item = Item(name: string, facts: Option<seq<Fact>>,
                       pve: Option<ModeData>, pvp: Option<ModeData>, wvw: Option<ModeData>)

  /** A string field that is there and not empty: a truthy one. */
  predicate Present(s: Option<string>) {
    s.Some? && s.value != ""
  }

  /**
   * The `findIndex` test of `mergeOverride`: the same type, then the statuses
   * of two buffs that both have one, ignoring case; otherwise the texts,
   * ignoring case, with a missing text matching anything.
   */
  predicate FactMatches(f: Fact, o: Fact) {
    f.kind == o.kind
    && if (f.kind == "Buff" || f.kind == "PrefixedBuff") && Present(f.status) && Present(o.status)
       then Lower(f.status.value) == Lower(o.status.value)
       else !Present(f.text) || !Present(o.text) || Lower(f.text.value) == Lower(o.text.value)
  }

  /** The match test does not depend on which of the two facts is the override. */
  lemma FactMatchesSymmetric(f: Fact, o: Fact)
    ensures FactMatches(f, o) <==> FactMatches(o, f)
  {
    if FactMatches(f, o) || FactMatches(o, f) {
      assert f.kind == o.kind;
    }
  }

  /** The first fact that the override fact matches. */
  function FirstMatch(facts: seq<Fact>, o: Fact): (i: Option<nat>)
    ensures i.Some? ==> (i.value < |facts| && FactMatches(facts[i.value], o)
                         && forall k :: 0 <= k < i.value ==> !FactMatches(facts[k], o))
    ensures i.None? ==> forall k :: 0 <= k < |facts| ==> !FactMatches(facts[k], o)
  {
    if facts == [] then None
    else if FactMatches(facts[0], o) then Some(0)
    else match FirstMatch(facts[1..], o)
      case Some(k) => Some(k + 1)
      case None => None
  }

  /**
   * `{ ...existing, ...overrideFact, text: overrideFact.text || existing.text }`:
   * the override's fields win, except that an empty or missing text keeps the old one.
   */
  function CombineFacts(existing: Fact, o: Fact): (r: Fact)
    ensures r.kind == o.kind
    ensures r.status == (if o.status.Some? then o.status else existing.status)
    ensures Present(o.text) ==> r.text == o.text
    ensures !Present(o.text) ==> r.text == existing.text
    ensures forall key :: key in o.others ==> key in r.others && r.others[key] == o.others[key]
    ensures forall key :: key in existing.others && key !in o.others ==> key in r.others && r.others[key] == existing.others[key]
  {
    Fact(o.kind, if o.status.Some? then o.status else existing.status,
         if Present(o.text) then o.text else existing.text, existing.others + o.others)
  }

  /** One step of the merge: the first matching fact is replaced, or the override fact is appended. */
  function ApplyOverride(facts: seq<Fact>, o: Fact): seq<Fact> {
    match FirstMatch(facts, o)
    case Some(i) => facts[i := CombineFacts(facts[i], o)]
    case None => facts + [o]
  }

  /** What one step does: only the first match changes; with no match the fact goes to the end. */
  lemma ApplyOverrideMeaning(facts: seq<Fact>, o: Fact)
    ensures var r := ApplyOverride(facts, o);
      (forall k :: 0 <= k < |facts| ==> !FactMatches(facts[k], o)) ==> r == facts + [o]
    ensures var r := ApplyOverride(facts, o);
      (exists k :: 0 <= k < |facts| && FactMatches(facts[k], o)) ==>
        (|r| == |facts|
         && exists i :: (0 <= i < |facts| && FactMatches(facts[i], o)
                         && (forall k :: 0 <= k < i ==> !FactMatches(facts[k], o))
                         && r[i] == CombineFacts(facts[i], o)
                         && (forall k :: 0 <= k < |facts| && k != i ==> r[k] == facts[k])))
  {
    match FirstMatch(facts, o)
    case Some(i) =>
      var r := ApplyOverride(facts, o);
      assert r[i] == CombineFacts(facts[i], o);
    case None =>
  }

  /** The override facts applied one after the other to the base facts. */
  function MergeFacts(base: seq<Fact>, overrides: seq<Fact>): seq<Fact> {
    if overrides == [] then base
    else
      var n := |overrides| - 1;
      ApplyOverride(MergeFacts(base, overrides[..n]), overrides[n])
  }

  /** How many override facts found nothing to replace when their turn came. */
  function Unmatched(base: seq<Fact>, overrides: seq<Fact>): nat {
    if overrides == [] then 0
    else
      var n := |overrides| - 1;
      Unmatched(base, overrides[..n]) + (if FirstMatch(MergeFacts(base, overrides[..n]), overrides[n]).None? then 1 else 0)
  }

  /**
   * The merged facts start with the base facts, each still of its type, and
   * add one fact per override fact that matched nothing.
   */
  lemma {:induction false} MergeFactsShape(base: seq<Fact>, overrides: seq<Fact>)
    ensures var r := MergeFacts(base, overrides);
      |r| == |base| + Unmatched(base, overrides) && |r| <= |base| + |overrides|
    ensures var r := MergeFacts(base, overrides);
      forall k :: 0 <= k < |base| ==> r[k].kind == base[k].kind
    ensures var r := MergeFacts(base, overrides);
      forall k :: |base| <= k < |r| ==> exists j :: 0 <= j < |overrides| && r[k].kind == overrides[j].kind
  {
    if overrides != [] {
      var n := |overrides| - 1;
      var prev := MergeFacts(base, overrides[..n]);
      MergeFactsShape(base, overrides[..n]);
      var r := MergeFacts(base, overrides);
      forall k | |base| <= k < |r|
        ensures exists j :: 0 <= j < |overrides| && r[k].kind == overrides[j].kind
      {
        if k < |prev| && r[k] == prev[k] {
          var j :| 0 <= j < n && prev[k].kind == overrides[..n][j].kind;
          assert overrides[..n][j] == overrides[j];
        } else {
          assert r[k].kind == overrides[n].kind;
        }
      }
    }
  }

  /** With no match anywhere, the override facts are appended in their order. */
  lemma {:induction false} MergeFactsAppends(base: seq<Fact>, overrides: seq<Fact>)
    requires Unmatched(base, overrides) == |overrides|
    ensures MergeFacts(base, overrides) == base + overrides
  {
    if overrides != [] {
      var n := |overrides| - 1;
      MergeFactsShape(base, overrides[..n]);
      assert Unmatched(base, overrides[..n]) <= n;
      MergeFactsAppends(base, overrides[..n]);
      assert overrides == overrides[..n] + [overrides[n]];
    }
  }

  /**
   * `mergeOverride` as a value: without override facts, the override itself;
   * otherwise the override with its facts merged into the base facts.
   */
  function MergeOverrideSpec(base: Item, override: ModeData): (merged: ModeData)
    ensures override.facts.None? || override.facts.value == [] ==> merged == override
    ensures merged.others == override.others
  {
    if override.facts.Some? && |override.facts.value| > 0
    then override.(facts := Some(MergeFacts(base.facts.GetOr([]), override.facts.value)))
    else override
  }

  /**
   * `mergeOverride`: start from the base facts and, for each override fact,
   * replace the first fact it matches or append it.
   */
  method MergeOverride(base: Item, override: ModeData) returns (merged: ModeData)
    ensures merged == MergeOverrideSpec(base, override)
  {
    merged := override;
    if override.facts.Some? && |override.facts.value| > 0 {
      var baseFacts := base.facts.GetOr([]);
      var overrideFacts := override.facts.value;
      var mergedFacts := baseFacts;
      for j := 0 to |overrideFacts|
        invariant mergedFacts == MergeFacts(baseFacts, overrideFacts[..j])
      {
        var overrideFact := overrideFacts[j];
        assert overrideFacts[..j + 1][..j] == overrideFacts[..j];
        var existingIndex := FirstMatch(mergedFacts, overrideFact);
        if existingIndex.Some? {
          var i := existingIndex.value;
          mergedFacts := mergedFacts[i := CombineFacts(mergedFacts[i], overrideFact)];
        } else {
          mergedFacts := mergedFacts + [overrideFact];
        }
      }
      assert overrideFacts[..|overrideFacts|] == overrideFacts;
      merged := merged.(facts := Some(mergedFacts));
    }
  }

  // ---------------------------------------------------------------- enrichment

  /** What the wiki parser found for one name: the `split` string and the override per mode. */
  datatype Overrides = Overrides(pve: Option<ModeData>, pvp: Option<ModeData>, wvw: Option<ModeData>)
  datatype Splits = Splits(split: Option<string>, overrides: Option<Overrides>)

  /** The truthy statuses of an override's facts, as written (not lower-cased). */
  function StatusSet(override: Option<ModeData>): (r: set<string>)
    ensures "" !in r
    ensures override.Some? && override.value.facts.Some? ==>
      forall f :: f in override.value.facts.value && Present(f.status) ==> f.status.value in r
    ensures forall s :: s in r ==>
      (override.Some? && override.value.facts.Some?
       && exists f :: f in override.value.facts.value && Present(f.status) && f.status.value == s)
  {
    if override.Some? && override.value.facts.Some?
    then set f | f in override.value.facts.value && Present(f.status) :: f.status.value
    else {}
  }

  /** `f.status?.toLowerCase()`. */
  function LowerStatus(f: Fact): Option<string> {
    if f.status.Some? then Some(Lower(f.status.value)) else None
  }

  /**
   * The filter on an existing mode override: facts without a status stay,
   * the others stay when their lower-cased status is in the mode's own set
   * or in neither of the two other modes' sets.
   */
  predicate KeepInMode(f: Fact, own: set<string>, other1: set<string>, other2: set<string>) {
    !Present(f.status)
    || Lower(f.status.value) in own
    || (Lower(f.status.value) !in other1 && Lower(f.status.value) !in other2)
  }

  function KeepModeFacts(facts: seq<Fact>, own: set<string>, other1: set<string>, other2: set<string>): (r: seq<Fact>)
    ensures |r| <= |facts|
    ensures forall f :: f in r <==> f in facts && KeepInMode(f, own, other1, other2)
  {
    Filter(facts, f => KeepInMode(f, own, other1, other2))
  }

  /** The mode filter keeps the fact order and count: part by part, and one fact stays exactly when `KeepInMode` holds. */
  lemma KeepModeFactsInOrder(a: seq<Fact>, b: seq<Fact>, f: Fact, own: set<string>, other1: set<string>, other2: set<string>)
    ensures KeepModeFacts(a + b, own, other1, other2) == KeepModeFacts(a, own, other1, other2) + KeepModeFacts(b, own, other1, other2)
    ensures KeepModeFacts([f], own, other1, other2) == if KeepInMode(f, own, other1, other2) then [f] else []
    ensures forall x :: multiset(KeepModeFacts(a, own, other1, other2))[x] == if KeepInMode(x, own, other1, other2) then multiset(a)[x] else 0
  {
    FilterCount(a, g => KeepInMode(g, own, other1, other2));
    FilterConcat(a, b, g => KeepInMode(g, own, other1, other2));
    FilterOne(f, g => KeepInMode(g, own, other1, other2));
  }

  /** The filter on the base facts when the mode has no override: drop the PvE statuses. */
  predicate NotPveOnly(f: Fact, pveStatuses: set<string>) {
    LowerStatus(f).None? || LowerStatus(f).value !in pveStatuses
  }

  function DropPveStatuses(facts: seq<Fact>, pveStatuses: set<string>): (r: seq<Fact>)
    ensures |r| <= |facts|
    ensures forall f :: f in r <==> f in facts && NotPveOnly(f, pveStatuses)
  {
    Filter(facts, f => NotPveOnly(f, pveStatuses))
  }

  /** Dropping the PvE statuses keeps the fact order and count: part by part, and one fact stays exactly when it is not PvE-only. */
  lemma DropPveStatusesInOrder(a: seq<Fact>, b: seq<Fact>, f: Fact, pveStatuses: set<string>)
    ensures DropPveStatuses(a + b, pveStatuses) == DropPveStatuses(a, pveStatuses) + DropPveStatuses(b, pveStatuses)
    ensures DropPveStatuses([f], pveStatuses) == if NotPveOnly(f, pveStatuses) then [f] else []
    ensures forall x :: multiset(DropPveStatuses(a, pveStatuses))[x] == if NotPveOnly(x, pveStatuses) then multiset(a)[x] else 0
  {
    FilterCount(a, g => NotPveOnly(g, pveStatuses));
    FilterConcat(a, b, g => NotPveOnly(g, pveStatuses));
    FilterOne(f, g => NotPveOnly(g, pveStatuses));
  }

  /**
   * The new value of a filtered mode: its own facts filtered when it has
   * facts, else a fresh override from the base facts when the item has
   * facts, else unchanged.
   */
  function RestrictMode(current: Option<ModeData>, baseFacts: Option<seq<Fact>>,
                        own: set<string>, other1: set<string>, other2: set<string>, pveStatuses: set<string>): Option<ModeData>
  {
    if current.Some? && current.value.facts.Some? then
      Some(current.value.(facts := Some(KeepModeFacts(current.value.facts.value, own, other1, other2))))
    else if baseFacts.Some? then
      Some(ModeData(Some(DropPveStatuses(baseFacts.value, pveStatuses)), map[]))
    else current
  }

  /** `split.split(',').map(m => m.trim().toLowerCase())`. */
  function SplitModes(split: string): (modes: seq<string>)
    ensures |modes| == |Split(split, ',')| >= 1
    ensures forall k :: 0 <= k < |modes| ==> modes[k] == Lower(Trim(Split(split, ',')[k]))
  {
    var parts := Split(split, ',');
    seq(|parts|, k requires 0 <= k < |parts| => Lower(Trim(parts[k])))
  }

  /** Each mode name is one comma-free piece of the split string, without whitespace at either end. */
  lemma SplitModesTrimmed(split: string, k: nat)
    requires k < |SplitModes(split)|
    ensures var m := SplitModes(split)[k];
      ',' !in m && (m == [] || (!IsSpace(m[0]) && !IsSpace(m[|m| - 1])))
  {
    var piece := Split(split, ',')[k];
    assert SplitModes(split)[k] == Lower(Trim(piece));
    PieceTrimmed(piece);
  }

  lemma PieceTrimmed(piece: string)
    requires ',' !in piece
    ensures var m := Lower(Trim(piece));
      ',' !in m && (m == [] || (!IsSpace(m[0]) && !IsSpace(m[|m| - 1])))
  {
    TrimKeepsOut(piece, ',');
    LowerKeepsOut(Trim(piece), ',');
    if Trim(piece) != [] {
      LowerKeepsTrimmed(Trim(piece));
    }
  }

  /** The item with each override that exists merged in, before any filtering. */
  function WithOverrides(item: Item, ov: Overrides): (e: Item)
    ensures e.name == item.name && e.facts == item.facts
  {
    item.(pve := if ov.pve.Some? then Some(MergeOverrideSpec(item, ov.pve.value)) else item.pve,
          pvp := if ov.pvp.Some? then Some(MergeOverrideSpec(item, ov.pvp.value)) else item.pvp,
          wvw := if ov.wvw.Some? then Some(MergeOverrideSpec(item, ov.wvw.value)) else item.wvw)
  }

  /**
   * The body of the loops of `enrichSkillsWithSplits` and
   * `enrichTraitsWithSplits`: merge each override that exists; then, when
   * the split string has a comma, filter the WvW and then the PvP data of
   * mode-exclusive facts.
   */
  function EnrichItem(item: Item, splits: Option<Splits>): (e: Item)
    ensures e.name == item.name && e.facts == item.facts
    ensures splits.None? || splits.value.overrides.None? ==> e == item
    ensures splits.Some? && splits.value.overrides.Some? ==>
      e.pve == (if splits.value.overrides.value.pve.Some?
                then Some(MergeOverrideSpec(item, splits.value.overrides.value.pve.value)) else item.pve)
  {
    if splits.None? || splits.value.overrides.None? then item
    else
      var ov := splits.value.overrides.value;
      var merged := WithOverrides(item, ov);
      var split := splits.value.split;
      if split.Some? && Contains(split.value, ",") then
        var modes := SplitModes(split.value);
        var pveSet, pvpSet, wvwSet := StatusSet(ov.pve), StatusSet(ov.pvp), StatusSet(ov.wvw);
        var afterWvw :=
          if "wvw" in modes || "wvw pvp" in modes
          then merged.(wvw := RestrictMode(merged.wvw, item.facts, wvwSet, pveSet, pvpSet, pveSet))
          else merged;
        if "pvp" in modes || "wvw pvp" in modes
        then afterWvw.(pvp := RestrictMode(afterWvw.pvp, item.facts, pvpSet, pveSet, wvwSet, pveSet))
        else afterWvw
      else merged
  }

  /** Without a comma in the split string nothing is filtered: every mode is its merged override or left as it was. */
  lemma NoCommaNoFilter(item: Item, splits: Splits)
    requires splits.overrides.Some? && (splits.split.None? || !Contains(splits.split.value, ","))
    ensures EnrichItem(item, Some(splits)) == WithOverrides(item, splits.overrides.value)
    ensures var ov := splits.overrides.value; var e := EnrichItem(item, Some(splits));
      (ov.pvp.None? ==> e.pvp == item.pvp) && (ov.wvw.None? ==> e.wvw == item.wvw)
  {
  }

  /**
   * A WvW split with no WvW override still yields WvW data when the item has
   * facts: its base facts without the PvE statuses.
   */
  lemma WvwFromBaseFacts(item: Item, splits: Splits)
    requires splits.overrides.Some? && splits.overrides.value.wvw.None? && item.wvw.None? && item.facts.Some?
    requires splits.split.Some? && Contains(splits.split.value, ",") && "wvw" in SplitModes(splits.split.value)
    ensures EnrichItem(item, Some(splits)).wvw ==
      Some(ModeData(Some(DropPveStatuses(item.facts.value, StatusSet(splits.overrides.value.pve))), map[]))
  {
  }

  /**
   * In a filtered WvW override, a fact with a status stays exactly when its
   * lower-cased status is a WvW status or neither a PvE nor a PvP status.
   */
  lemma WvwFilterRule(item: Item, splits: Splits, f: Fact)
    requires splits.overrides.Some? && splits.overrides.value.wvw.Some?
    requires splits.overrides.value.wvw.value.facts.Some? && |splits.overrides.value.wvw.value.facts.value| > 0
    requires splits.split.Some? && Contains(splits.split.value, ",") && "wvw" in SplitModes(splits.split.value)
    requires f in MergeOverrideSpec(item, splits.overrides.value.wvw.value).facts.value
    ensures var ov := splits.overrides.value; var e := EnrichItem(item, Some(splits));
      e.wvw.Some? && e.wvw.value.facts.Some?
      && (f in e.wvw.value.facts.value <==>
          (!Present(f.status)
           || Lower(f.status.value) in StatusSet(ov.wvw)
           || (Lower(f.status.value) !in StatusSet(ov.pve) && Lower(f.status.value) !in StatusSet(ov.pvp))))
  {
    var ov := splits.overrides.value;
    var mw := MergeOverrideSpec(item, ov.wvw.value);
    EnrichWvw(item, splits);
    assert EnrichItem(item, Some(splits)).wvw.value.facts.value
        == KeepModeFacts(mw.facts.value, StatusSet(ov.wvw), StatusSet(ov.pve), StatusSet(ov.pvp));
  }

  /** With a WvW split and WvW facts, the WvW data is the merged override with its facts filtered. */
  lemma EnrichWvw(item: Item, splits: Splits)
    requires splits.overrides.Some? && splits.overrides.value.wvw.Some?
    requires splits.overrides.value.wvw.value.facts.Some? && |splits.overrides.value.wvw.value.facts.value| > 0
    requires splits.split.Some? && Contains(splits.split.value, ",") && "wvw" in SplitModes(splits.split.value)
    ensures var ov := splits.overrides.value; var mw := MergeOverrideSpec(item, ov.wvw.value);
      mw.facts.Some? && EnrichItem(item, Some(splits)).wvw
        == Some(mw.(facts := Some(KeepModeFacts(mw.facts.value, StatusSet(ov.wvw), StatusSet(ov.pve), StatusSet(ov.pvp)))))
  {
    var ov := splits.overrides.value;
    var merged := WithOverrides(item, ov);
    var mw := MergeOverrideSpec(item, ov.wvw.value);
    assert merged.wvw == Some(mw);
    var pveSet, pvpSet, wvwSet := StatusSet(ov.pve), StatusSet(ov.pvp), StatusSet(ov.wvw);
    var kept := KeepModeFacts(mw.facts.value, wvwSet, pveSet, pvpSet);
    var w := RestrictMode(merged.wvw, item.facts, wvwSet, pveSet, pvpSet, pveSet);
    assert w == Some(mw.(facts := Some(kept)));
    var afterWvw := merged.(wvw := w);
    var pvp := RestrictMode(afterWvw.pvp, item.facts, pvpSet, pveSet, wvwSet, pveSet);
    var modes := SplitModes(splits.split.value);
    assert EnrichItem(item, Some(splits))
        == if "pvp" in modes || "wvw pvp" in modes then afterWvw.(pvp := pvp) else afterWvw;
  }

  /**
   * A PvP split with no PvP override still yields PvP data when the item has
   * facts: its base facts without the PvE statuses, whatever the WvW step did.
   */
  lemma PvpFromBaseFacts(item: Item, splits: Splits)
    requires splits.overrides.Some? && splits.overrides.value.pvp.None? && item.pvp.None? && item.facts.Some?
    requires splits.split.Some? && Contains(splits.split.value, ",") && "pvp" in SplitModes(splits.split.value)
    ensures EnrichItem(item, Some(splits)).pvp ==
      Some(ModeData(Some(DropPveStatuses(item.facts.value, StatusSet(splits.overrides.value.pve))), map[]))
  {
    var ov := splits.overrides.value;
    var merged := WithOverrides(item, ov);
    assert merged.pvp == None;
    var pveSet, pvpSet, wvwSet := StatusSet(ov.pve), StatusSet(ov.pvp), StatusSet(ov.wvw);
    var modes := SplitModes(splits.split.value);
    var afterWvw :=
      if "wvw" in modes || "wvw pvp" in modes
      then merged.(wvw := RestrictMode(merged.wvw, item.facts, wvwSet, pveSet, pvpSet, pveSet))
      else merged;
    assert afterWvw.pvp == None;
    assert EnrichItem(item, Some(splits))
        == afterWvw.(pvp := RestrictMode(afterWvw.pvp, item.facts, pvpSet, pveSet, wvwSet, pveSet));
  }

  /**
   * In a filtered PvP override, a fact with a status stays exactly when its
   * lower-cased status is a PvP status or neither a PvE nor a WvW status.
   */
  lemma PvpFilterRule(item: Item, splits: Splits, f: Fact)
    requires splits.overrides.Some? && splits.overrides.value.pvp.Some?
    requires splits.overrides.value.pvp.value.facts.Some? && |splits.overrides.value.pvp.value.facts.value| > 0
    requires splits.split.Some? && Contains(splits.split.value, ",") && "pvp" in SplitModes(splits.split.value)
    requires f in MergeOverrideSpec(item, splits.overrides.value.pvp.value).facts.value
    ensures var ov := splits.overrides.value; var e := EnrichItem(item, Some(splits));
      e.pvp.Some? && e.pvp.value.facts.Some?
      && (f in e.pvp.value.facts.value <==>
          (!Present(f.status)
           || Lower(f.status.value) in StatusSet(ov.pvp)
           || (Lower(f.status.value) !in StatusSet(ov.pve) && Lower(f.status.value) !in StatusSet(ov.wvw))))
  {
    var ov := splits.overrides.value;
    var mp := MergeOverrideSpec(item, ov.pvp.value);
    EnrichPvp(item, splits);
    assert EnrichItem(item, Some(splits)).pvp.value.facts.value
        == KeepModeFacts(mp.facts.value, StatusSet(ov.pvp), StatusSet(ov.pve), StatusSet(ov.wvw));
  }

  /** With a PvP split and PvP facts, the PvP data is the merged override with its facts filtered. */
  lemma EnrichPvp(item: Item, splits: Splits)
    requires splits.overrides.Some? && splits.overrides.value.pvp.Some?
    requires splits.overrides.value.pvp.value.facts.Some? && |splits.overrides.value.pvp.value.facts.value| > 0
    requires splits.split.Some? && Contains(splits.split.value, ",") && "pvp" in SplitModes(splits.split.value)
    ensures var ov := splits.overrides.value; var mp := MergeOverrideSpec(item, ov.pvp.value);
      mp.facts.Some? && EnrichItem(item, Some(splits)).pvp
        == Some(mp.(facts := Some(KeepModeFacts(mp.facts.value, StatusSet(ov.pvp), StatusSet(ov.pve), StatusSet(ov.wvw)))))
  {
    var ov := splits.overrides.value;
    var merged := WithOverrides(item, ov);
    var mp := MergeOverrideSpec(item, ov.pvp.value);
    assert merged.pvp == Some(mp);
    var pveSet, pvpSet, wvwSet := StatusSet(ov.pve), StatusSet(ov.pvp), StatusSet(ov.wvw);
    var modes := SplitModes(splits.split.value);
    var afterWvw :=
      if "wvw" in modes || "wvw pvp" in modes
      then merged.(wvw := RestrictMode(merged.wvw, item.facts, wvwSet, pveSet, pvpSet, pveSet))
      else merged;
    assert afterWvw.pvp == Some(mp);
    var kept := KeepModeFacts(mp.facts.value, pvpSet, pveSet, wvwSet);
    assert RestrictMode(afterWvw.pvp, item.facts, pvpSet, pveSet, wvwSet, pveSet) == Some(mp.(facts := Some(kept)));
    assert EnrichItem(item, Some(splits))
        == afterWvw.(pvp := RestrictMode(afterWvw.pvp, item.facts, pvpSet, pveSet, wvwSet, pveSet));
  }

  /**
   * The enrichment loop: one enriched item per input, in input order; the
   * splits of a name are scraped once and reused for later items of that name.
   */
  method EnrichItems(items: seq<Item>, scrape: string -> Option<Splits>) returns (enriched: seq<Item>)
    ensures |enriched| == |items|
    ensures forall k :: 0 <= k < |items| ==> enriched[k] == EnrichItem(items[k], scrape(items[k].name))
  {
    enriched := [];
    var splitsMap: map<string, Option<Splits>> := map[];
    for i := 0 to |items|
      invariant |enriched| == i
      invariant forall k :: 0 <= k < i ==> enriched[k] == EnrichItem(items[k], scrape(items[k].name))
      invariant forall name :: name in splitsMap ==> splitsMap[name] == scrape(name)
    {
      var item := items[i];
      if item.name !in splitsMap {
        splitsMap := splitsMap[item.name := scrape(item.name)];
      }
      var splits := splitsMap[item.name];
      enriched := enriched + [EnrichItem(item, splits)];
    }
  }

  // ---------------------------------------------------------------- statistics

  /** The counts `getSplitStats` reports. */
  datatype SplitStats = SplitStats(total: nat, withPve: nat, withPvp: nat, withWvw: nat, withAnySplit: nat)

  predicate HasAnySplit(item: Item) {
    item.pve.Some? || item.pvp.Some? || item.wvw.Some?
  }

  /** How many of the items satisfy a test on one of their modes. */
  function CountPve(items: seq<Item>): nat {
    if items == [] then 0 else CountPve(items[..|items| - 1]) + (if items[|items| - 1].pve.Some? then 1 else 0)
  }

  function CountPvp(items: seq<Item>): nat {
    if items == [] then 0 else CountPvp(items[..|items| - 1]) + (if items[|items| - 1].pvp.Some? then 1 else 0)
  }

  function CountWvw(items: seq<Item>): nat {
    if items == [] then 0 else CountWvw(items[..|items| - 1]) + (if items[|items| - 1].wvw.Some? then 1 else 0)
  }

  function CountAny(items: seq<Item>): nat {
    if items == [] then 0 else CountAny(items[..|items| - 1]) + (if HasAnySplit(items[|items| - 1]) then 1 else 0)
  }

  /** `getSplitStats`: one pass counting the items with each mode. */
  method GetSplitStats(items: seq<Item>) returns (stats: SplitStats)
    ensures stats == SplitStats(|items|, CountPve(items), CountPvp(items), CountWvw(items), CountAny(items))
  {
    var withPve, withPvp, withWvw := 0, 0, 0;
    for i := 0 to |items|
      invariant withPve == CountPve(items[..i]) && withPvp == CountPvp(items[..i]) && withWvw == CountWvw(items[..i])
    {
      var item := items[i];
      assert items[..i + 1][..i] == items[..i];
      if item.pve.Some? { withPve := withPve + 1; }
      if item.pvp.Some? { withPvp := withPvp + 1; }
      if item.wvw.Some? { withWvw := withWvw + 1; }
    }
    assert items[..|items|] == items;
    stats := SplitStats(|items|, withPve, withPvp, withWvw, CountAny(items));
  }

  /** Each per-mode count is at most the count of items with any split, which is at most the total and at most their sum. */
  lemma {:induction false} SplitStatsBounds(items: seq<Item>)
    ensures CountPve(items) <= CountAny(items) && CountPvp(items) <= CountAny(items) && CountWvw(items) <= CountAny(items)
    ensures CountAny(items) <= |items|
    ensures CountAny(items) <= CountPve(items) + CountPvp(items) + CountWvw(items)
  {
    if items != [] {
      SplitStatsBounds(items[..|items| - 1]);
    }
  }
}

=== FILE: wrappers.dfy ===
/** Optional values and results with an error, shared by every module of the model. */
module Wrappers {

  /** A value that may be absent: JavaScript's `undefined`/`null` on an optional field. */
  datatype Option<+T> = None | Some(value: T) {
    function GetOr(default: T): T {
      match this
      case Some(v) => v
      case None => default
    }
  }

  /** The outcome of an operation that may throw: `Err` stands for a thrown exception. */
  datatype Result<+T, +E> = Ok(value: T) | Err(error: E)

  /** The value of the first pair of `table` whose key is `key`, as a lookup in a plain object literal gives it. */
  function FindKey<V>(table: seq<(string, V)>, key: string): (r: Option<V>)
    ensures r.Some? ==> exists k :: 0 <= k < |table| && table[k] == (key, r.value)
    ensures r.None? ==> forall k :: 0 <= k < |table| ==> table[k].0 != key
  {
    if table == [] then None
    else if table[0].0 == key then Some(table[0].1)
    else
      var r := FindKey(table[1..], key);
      assert forall k :: 1 <= k < |table| ==> table[k] == table[1..][k - 1];
      r
  }

  /** A key that no earlier row holds finds its own row. */
  lemma {:induction false} FindKeyAt<V>(table: seq<(string, V)>, k: nat)
    requires k < |table|
    requires forall j :: 0 <= j < k ==> table[j].0 != table[k].0
    ensures FindKey(table, table[k].0) == Some(table[k].1)
  {
    if k > 0 {
      FindKeyAt(table[1..], k - 1);
    }
  }

  /** `s.filter(keep)`: the elements `keep` accepts, each as often as `s` holds it. */
  function Filter<T(!new)>(s: seq<T>, keep: T -> bool): (r: seq<T>)
    ensures |r| <= |s|
    ensures forall x :: x in r <==> x in s && keep(x)
  {
    if s == [] then []
    else
      var rest := Filter(s[1..], keep);
      assert s == [s[0]] + s[1..];
      if keep(s[0]) then [s[0]] + rest else rest
  }

  /** A filter keeps each accepted element as often as `s` holds it, and drops the others. */
  lemma {:induction false} FilterCount<T(!new)>(s: seq<T>, keep: T -> bool)
    ensures forall x :: multiset(Filter(s, keep))[x] == if keep(x) then multiset(s)[x] else 0
  {
    if s != [] {
      FilterCount(s[1..], keep);
      assert s == [s[0]] + s[1..];
    }
  }

  /** A filter keeps the order: filtering a concatenation concatenates the filtered parts. */
  lemma {:induction false} FilterConcat<T(!new)>(a: seq<T>, b: seq<T>, keep: T -> bool)
    ensures Filter(a + b, keep) == Filter(a, keep) + Filter(b, keep)
  {
    if a != [] {
      var ab := a + b;
      assert ab[0] == a[0] && ab[1..] == a[1..] + b;
      FilterConcat(a[1..], b, keep);
    } else {
      assert a + b == b;
    }
  }

  /** Nothing passes a test no element meets. */
  lemma FilterNone<T(!new)>(s: seq<T>, keep: T -> bool)
    requires forall x :: x in s ==> !keep(x)
    ensures Filter(s, keep) == []
  {
  }

  /** A filter of one element keeps it exactly when `keep` accepts it. */
  lemma FilterOne<T(!new)>(x: T, keep: T -> bool)
    ensures Filter([x], keep) == if keep(x) then [x] else []
  {
    assert [x][1..] == [];
  }
}
